=== FILE: README.md ===
# CanteenRFID — a Dafny model of the stamping pipeline

CanteenRFID records canteen visits. An RFID reader at the canteen door
types each card UID like a keyboard does: either into the reader client's
console (keyboard-wedge mode) or through a global Windows keyboard hook. The
client posts each scan as a stamp to the web server. When the server cannot
be reached, the client appends the stamp to a local queue file, and it
flushes that queue on a timer and after every successful ping.

The server authenticates readers by API key. It links the scanned UID to a
user and classifies the stamp's local time with the active meal rules into
Breakfast, Lunch, Dinner, Snack or Unknown. The highest priority wins; among
equal priorities the first in table order wins. Day windows may run past
midnight, and a seven-bit weekday mask applies. Administrators maintain
users and meal rules, re-classify stamps in a time range, and read a
per-person summary of meals. Each reader has an anonymous display page
protected by a display password. A reader counts as online while its last
ping is recent.

Alongside it sits a small time-tracking backend. It has a role-based access
rule for employee records and a daily work-time summary replayed from
clock-in, pause and clock-out bookings.

The model is written in Dafny with immutable data and pure functions. Loops
appear where the source iterates: the queue flush, the stamp
re-classification and the daily summary. Each loop is proved equal to a
reference definition: a recursive function, or for the re-classification a
sequence comprehension. Modules follow the program's structure:

- `Wrappers` holds `Option`.
- `Seqs` holds the first-match lookup and row removal every table uses.
- `Strings` models the .NET string helpers the source relies on.
- `Sorting` is a stable sort, like LINQ `OrderBy` and `Array.prototype.sort`.
- `Entities` holds the persisted records.
- `MealRules` is the classifier; `MealRuleExamples` holds its unit tests and the seeded rules.
- `Ingestion` covers reader authentication, stamping, ping and re-classification.
- `Users` and `MealRulesAdmin` are the admin pages and API.
- `Reports` is the meal summary.
- `ReaderDisplay` and `ReaderStatus` are the reader display page and the online check.
- `ReaderClient` is the reader process.
- `Access` and `TimeCalculation` are the time-tracking helpers.

Environment inputs become parameters:

- the current instant is `now`;
- the UTC-to-local conversion is `toLocal`;
- the SHA-256 hash of an API key is `hash`;
- a fresh GUID is `newId`;
- the HTTP sender's verdict is `send`;
- the queue file's JSON lines are handled by `serialize` and `parse`;
- the raw SQL read of a display password is a `StoredPassword` value.

GUIDs are integers. UTC instants are whole seconds on the server side and
milliseconds in the time-tracking backend, where `Date.getTime()` is
milliseconds. A local time is a weekday and a second of the day.

The unit test of `calculateDailySummary` (timeCalculation.test.ts:6-17)
books 08:00 in, a pause from 12:00 to 12:30, and 17:00 out on one day, and
expects 450 worked minutes. The code as written credits nine hours and debits
thirty minutes, which is 510 minutes. `TimeCalculation.WorkedExample` proves
the code's 510, for that booking pattern on any day. The model follows the
code; 450 is the test's own expectation and not an intended behaviour of
the function.

## Model

| member | source | states |
|---|---|---|
| Strings.Trim | src/CanteenRFID.ReaderClient/Program.cs:93 | The trimmed UID is empty exactly when the scan is all white space; otherwise it begins and ends with a non-white character, and the scan is white space + result + white space. |
| Strings.IndexOfIgnoreCase | src/CanteenRFID.Web/Controllers/ReaderDisplayController.cs:26 | Finds the first position where the token matches ignoring ASCII case, and finds nothing exactly when the token matches nowhere. |
| Strings.DropAppendedSuffix | src/CanteenRFID.ReaderClient/Program.cs:163-165 | A string with a suffix appended ends with that suffix, and removing it gives back the original. |
| Entities.FullName | src/CanteenRFID.Core/Models/User.cs:25 | The full name is the first name, one space, then the last name, character for character. |
| Entities.FindUserByUid | src/CanteenRFID.Web/Program.cs:443 | Returns the first user holding exactly that UID, and nothing exactly when no user holds it. |
| Entities.FindReader | src/CanteenRFID.Web/Program.cs:444 | Returns the first reader with that reader id, and nothing exactly when no reader has it. |
| Entities.UniqueKeysPickOneUser | src/CanteenRFID.Data/Contexts/ApplicationDbContext.cs:20-26 | Under the unique indexes, looking a user up by id, or by any stored UID, finds that very user. |
| MealRules.BuildEngine | src/CanteenRFID.Core/Services/MealRuleEngine.cs:10-13 | The engine holds exactly the active rules, as a multiset, ordered by non-increasing priority. |
| MealRules.EngineOrderIsStable | src/CanteenRFID.Core/Services/MealRuleEngine.cs:12 | Within each priority, the engine keeps the active rules in their input order. |
| MealRules.EngineOrderIsUnique | src/CanteenRFID.Core/Services/MealRuleEngine.cs:12 | Any list ordered by non-increasing priority that keeps each priority's input order is exactly the engine's list. |
| MealRules.FirstMatchIndex | src/CanteenRFID.Core/Services/MealRuleEngine.cs:17-29 | Gives the first rule whose weekday and window match; no earlier rule matches, and nothing is returned only when no rule matches. |
| MealRules.FirstMatchIsWinner | src/CanteenRFID.Core/Services/MealRuleEngine.cs:12-31 | The scan finds nothing exactly when no active rule applies; otherwise it returns the unique winner: the applicable rule of highest priority, earliest in table order among equals. |
| MealRules.ResolveReturnsWinner | src/CanteenRFID.Core/Services/MealRuleEngine.cs:15-32 | The resolved meal type is the winner's meal type. |
| MealRules.ResolveUnknownWhenNothingApplies | src/CanteenRFID.Core/Services/MealRuleEngine.cs:31 | When no rule applies, the meal type is Unknown. |
| MealRules.DayIncludedIffBitSet | src/CanteenRFID.Core/Services/MealRuleEngine.cs:34-38 | A weekday is included exactly when bit number (day) of the mask is set. |
| MealRules.AllDaysIncludesEveryDay | src/CanteenRFID.Core/Models/MealRule.cs:19 | The default mask 127 includes every weekday, and mask 0 includes none. |
| MealRules.TimeWithinIsCircularInterval | src/CanteenRFID.Core/Services/MealRuleEngine.cs:40-49 | A window contains a time exactly when walking forward around the 24-hour clock from start reaches the time no later than it reaches end; this covers windows past midnight. |
| MealRules.SameDayWindowInclusive | src/CanteenRFID.Core/Services/MealRuleEngine.cs:42-45 | A same-day window contains both endpoints and no time outside them. |
| MealRules.PrefilteredRulesBuildSameEngine | src/CanteenRFID.Web/Program.cs:415-419 | Filtering for active rules before building, as the factory does, gives the same engine as not filtering. |
| MealRules.InactiveRuleIsIgnored | src/CanteenRFID.Core/Services/MealRuleEngine.cs:12 | Inserting an inactive rule anywhere changes neither the engine nor any classification. |
| MealRules.WinnerIsUnique | src/CanteenRFID.Core/Services/MealRuleEngine.cs:12-31 | At most one rule is the winner for a local time. |
| MealRules.ClearedDayNeverWins | src/CanteenRFID.Core/Services/MealRuleEngine.cs:19-22 | A rule whose mask clears the stamp's weekday never wins. |
| MealRules.HigherPriorityWinsInEitherOrder | src/CanteenRFID.Core/Services/MealRuleEngine.cs:12-28 | When two rules apply, the higher priority decides, whatever their table order. |
| MealRuleExamples.PriorityDecidesOverlap | tests/CanteenRFID.Tests/MealRuleEngineTests.cs:8-19 | Breakfast 07-10 at priority 1 and Lunch 09-12 at priority 5: Monday 09:30 is Lunch, in either table order. |
| MealRuleExamples.ClearedWeekdayGivesUnknown | tests/CanteenRFID.Tests/MealRuleEngineTests.cs:21-31 | A Monday-only dinner rule classifies Tuesday 19:00 as Unknown. |
| MealRuleExamples.OvernightWindow | tests/CanteenRFID.Tests/MealRuleEngineTests.cs:33-43 | A 22:00-02:00 snack window covers 01:00, the test's instant, and 23:00, 00:30 and 01:59; it does not cover 02:01 or 21:59. |
| MealRuleExamples.SeededBreakfastBoundary | src/CanteenRFID.Data/Services/DataSeeder.cs:23-40 | With the seeded rules, 10:00 is still Breakfast: it outranks Lunch, which starts at the same instant. |
| MealRuleExamples.SeededLunchBoundary | src/CanteenRFID.Data/Services/DataSeeder.cs:32-49 | With the seeded rules, 15:00 is Lunch: it outranks Dinner, which starts at the same instant. |
| MealRuleExamples.SeededRulesDinnerEnd | src/CanteenRFID.Data/Services/DataSeeder.cs:41-49 | With the seeded rules, 20:00 is still Dinner, on every weekday. |
| MealRuleExamples.SeededRulesOutsideHours | src/CanteenRFID.Data/Services/DataSeeder.cs:21-50 | With the seeded rules, any time before 07:00 or after 20:00 is Unknown. |
| Ingestion.ValidateApiKey | src/CanteenRFID.Web/Program.cs:476-480 | Returns an active reader whose stored hash equals the key's hash, the first such reader; returns nothing exactly when no active reader holds the key. |
| Ingestion.Authenticate | src/CanteenRFID.Web/Program.cs:131-140 | A missing or blank API-key header is rejected; any other header is checked by key validation. |
| Ingestion.InactiveReaderIsRejected | src/CanteenRFID.Web/Program.cs:479 | A deactivated reader is never authenticated, whatever key it sends. |
| Ingestion.CurrentEngine | src/CanteenRFID.Web/Program.cs:415-419 | The engine is built from the rule table as it is now, so the latest rule edits apply to each new stamp. |
| Ingestion.TouchReader | src/CanteenRFID.Web/Program.cs:455-458 | Only the named reader's last-ping time changes, to now; every other reader is left as it was. |
| Ingestion.AddStamp | src/CanteenRFID.Web/Program.cs:435-462 | Appends exactly one stamp. Its UTC time is the request's time or now, its local time is that time converted, and its meal type is the current rules' classification. It is linked to a user holding the UID, and to none exactly when no user holds it. Users and rules are unchanged; only the stamping reader's last ping moves to now. |
| Ingestion.PostStamp | src/CanteenRFID.Web/Program.cs:129-144 | Rejected and storing nothing exactly when authentication fails. Otherwise the tables and the stored stamp are exactly those of `AddStamp` for the scanned UID under the request's reader id or, when absent, the authenticated reader's: classified by the current rules, linked to the user holding the UID, users and rules unchanged. |
| Ingestion.Ping | src/CanteenRFID.Web/Program.cs:173-194 | Unauthorized exactly when authentication fails. Bad request exactly when a given reader id differs, ignoring case, from the authenticated reader's. On success only that reader's last ping moves to now, and the server time is returned. |
| Ingestion.PingWithOwnIdSucceeds | src/CanteenRFID.Web/Program.cs:186-193 | A reader pinging with its own id, in any letter case, succeeds and is marked seen now. |
| Ingestion.RecalculatedStamps | src/CanteenRFID.Web/Program.cs:298-302 | Stamps whose UTC time is inside the closed range are re-classified with the engine; all others are kept unchanged, in place. |
| Ingestion.CountInRange | src/CanteenRFID.Web/Program.cs:298-304 | The reported count is zero exactly when no stamp lies in the range, and never exceeds the number of stamps. |
| Ingestion.RecalculateTable | src/CanteenRFID.Web/Program.cs:299-302 | The loop over the stamp table produces the reference re-classification and counts the stamps in range. |
| Ingestion.Recalculate | src/CanteenRFID.Web/Controllers/MealRulesController.cs:81-94 | Re-classifies with the active rules: only the stamps change, and the count is the number in range. |
| Ingestion.RecalculateIsIdempotent | src/CanteenRFID.Web/Program.cs:295-305 | Re-classifying twice with the same rules gives the same stamps as once. |
| Ingestion.IngestedStampSurvivesRecalculation | src/CanteenRFID.Web/Program.cs:441-442 | A stamp classified at ingestion is left unchanged by a re-classification under the same rules. |
| Ingestion.InactiveRulesDoNotAffectIngestion | src/CanteenRFID.Web/Program.cs:417 | Adding an inactive rule does not change the meal type a new stamp receives. |
| MealRulesAdmin.FindRule | src/CanteenRFID.Web/Controllers/MealRulesController.cs:54 | Finds the position of a rule with that id, and nothing exactly when no rule has it. |
| MealRulesAdmin.EditedRule | src/CanteenRFID.Web/Controllers/MealRulesController.cs:57-63 | The edited rule takes every field from the form except the id, which stays. |
| MealRulesAdmin.Edit | src/CanteenRFID.Web/Controllers/MealRulesController.cs:51-66 | Not found exactly when the id is unknown; invalid exactly when the rule exists but the name is blank or longer than 100 characters. A failure changes nothing; a success replaces that one rule with the form under the same id. |
| MealRulesAdmin.Delete | src/CanteenRFID.Web/Controllers/MealRulesController.cs:68-79 | An unknown id changes nothing; a known one is removed and all other rules keep their order. |
| MealRulesAdmin.Index | src/CanteenRFID.Web/Controllers/MealRulesController.cs:21-25 | Lists every rule, active or not, by non-increasing priority. |
| MealRulesAdmin.ApiUpdate | src/CanteenRFID.Web/Program.cs:271-284 | Not found, with nothing changed, exactly when the id is unknown; otherwise returns and stores the form under the existing id. |
| MealRulesAdmin.ApiDelete | src/CanteenRFID.Web/Program.cs:286-293 | Not found, with nothing changed, exactly when the id is unknown; otherwise No Content, with that rule removed. |
| MealRulesAdmin.EditAndDeleteKeepIdsUnique | src/CanteenRFID.Web/Controllers/MealRulesController.cs:51-79 | The form and API edits and deletes keep rule ids unique. |
| MealRulesAdmin.DeleteRemovesExactlyThatRule | src/CanteenRFID.Web/Controllers/MealRulesController.cs:68-79 | With unique ids, the rules left after a delete are exactly the others. |
| MealRulesAdmin.EditSplices | src/CanteenRFID.Web/Controllers/MealRulesController.cs:57-64 | A successful edit leaves the rules before and after the edited one unchanged. |
| MealRulesAdmin.DeactivatedRuleNoLongerApplies | src/CanteenRFID.Web/Controllers/MealRulesController.cs:63 | Saving a rule as inactive classifies exactly as if the rule were deleted. |
| Users.FieldErrors | src/CanteenRFID.Core/Models/User.cs:9-19 | No field errors exactly when the annotations hold; a first-name error exactly when the first name is blank, and likewise for the personnel number. |
| Users.ConflictErrors | src/CanteenRFID.Web/Controllers/UsersController.cs:38-45 | Reports a personnel-number conflict exactly when another user holds the number, and a UID conflict exactly when another user holds the non-blank UID. |
| Users.Edited | src/CanteenRFID.Web/Controllers/UsersController.cs:82-86 | The saved user takes the five editable fields from the form and keeps its id and creation time. |
| Users.Create | src/CanteenRFID.Web/Controllers/UsersController.cs:35-54 | Succeeds exactly when the fields are valid, the personnel number is free, no other user stores the same UID and the id is new; then the user is appended. Otherwise nothing changes, and every field and key error is reported. An id already stored gives `KeyConflict`, and a stored UID that the application check lets through gives `UidIndexConflict`; both stand for the database refusing the save, for which the controller has no branch. Form binding turns a white-space UID into null, so a posted form never reaches `UidIndexConflict`. |
| Users.Edit | src/CanteenRFID.Web/Controllers/UsersController.cs:63-89 | Not found exactly when the id is unknown. Otherwise the form comes back with exactly the field and conflict errors, in order, exactly when some check fails; it succeeds exactly when the form is valid, its personnel number is free among the other users and no other user stores its UID, and then that user alone is replaced by the edited record. Any failure changes nothing. |
| Users.Delete | src/CanteenRFID.Web/Controllers/UsersController.cs:91-102 | An unknown id changes nothing. A user that some stamp still references is refused (`StillReferenced`) and the table is unchanged: `Stamp.UserId` is a foreign key without a delete rule (src/CanteenRFID.Core/Models/Stamp.cs:17, src/CanteenRFID.Data/Contexts/ApplicationDbContext.cs:32-35). Otherwise that user alone is removed and the others keep their order. |
| Users.DeleteKeepsStampsLinked | src/CanteenRFID.Data/Contexts/ApplicationDbContext.cs:32-35 | When every linked stamp points at a stored user, it still does after a form delete, whatever its outcome. |
| Users.FilterUsers | src/CanteenRFID.Web/Controllers/UsersController.cs:22-25 | Keeps exactly the users the search accepts, and no user more often than it occurs. |
| Users.Index | src/CanteenRFID.Web/Controllers/UsersController.cs:19-28 | Lists exactly the users matching the search, ordered by last name; with no search, every user exactly once. |
| Users.ApiList | src/CanteenRFID.Web/Program.cs:196-211 | Lists exactly the users matching the search and the active filter, ordered by last name. |
| Users.ApiCreate | src/CanteenRFID.Web/Program.cs:213-226 | Rejects a taken personnel number first, then a taken non-blank UID. It succeeds exactly when the number is free, no user stores the same UID and the id is new; then it appends the user and returns it. A blank UID that another user stores gives `ApiUidIndexConflict`, and an id already stored gives `ApiConflict`; both stand for the database refusing the save (ApplicationDbContext.cs:24-26), for which the endpoint has no branch. |
| Users.IndexCatchesBlankUids | src/CanteenRFID.Data/Contexts/ApplicationDbContext.cs:24-26 | The unique index on `Uid` refuses everything the endpoints' UID check refuses, and beyond that exactly a blank UID another user already stores. |
| Users.ApiUpdate | src/CanteenRFID.Web/Program.cs:228-247 | Not found exactly when the id is unknown. Otherwise "Personalnummer bereits vergeben" exactly when another user holds the personnel number, then "UID bereits vergeben" exactly when another user holds the non-blank UID. It succeeds exactly when the personnel number is free among the other users and no other user stores the same UID; then the user is replaced by the edited record and returned. A blank UID another user stores passes the endpoint's check (line 236) and gives `ApiUidIndexConflict`, the database's refusal. No other outcome occurs, and any failure changes nothing. |
| Users.SecondBlankUidRefused | src/CanteenRFID.Web/Program.cs:213-247 | With one user storing an empty UID, giving a second user an empty UID through either endpoint is refused and leaves the table unchanged. |
| Users.ApiDelete | src/CanteenRFID.Web/Program.cs:249-256 | Not found exactly when the id is unknown, and refused exactly when a stamp still references the user; in both cases nothing changes. Otherwise that user alone is removed. |
| Users.DeletesAgree | src/CanteenRFID.Web/Program.cs:249-256 | The API delete removes exactly what the form delete removes, and is refused by the same stamps. |
| Users.FormsKeepUsersWellFormed | src/CanteenRFID.Web/Controllers/UsersController.cs:35-102 | Create, edit and delete keep user ids, personnel numbers and stored UIDs unique, blank ones included, as the table's unique indexes require. |
| Users.ApiKeepsUsersWellFormed | src/CanteenRFID.Web/Program.cs:213-256 | The API's create, update and delete keep the same uniqueness. |
| Users.ResavingUserSucceeds | src/CanteenRFID.Web/Controllers/UsersController.cs:69-76 | Saving a valid user unchanged succeeds and leaves the table as it was, because conflicts exclude the user itself. |
| Users.FormAndApiAgree | src/CanteenRFID.Web/Program.cs:213-247 | For valid fields, the API accepts exactly what the form accepts and stores the same table. |
| Reports.Bump | src/CanteenRFID.Web/Controllers/ReportsController.cs:46-50 | Counting one stamp raises exactly its meal's column by one. |
| Reports.FilterWindow | src/CanteenRFID.Web/Controllers/ReportsController.cs:37-38 | Keeps exactly the stamps inside the optional lower and upper bounds, and all stamps when there are none. |
| Reports.FilterWindowCounts | src/CanteenRFID.Web/Controllers/ReportsController.cs:37-38 | A stamp inside the bounds is kept as often as it is stored; any other stamp is dropped. |
| Reports.FilterWindowAppend | src/CanteenRFID.Web/Controllers/ReportsController.cs:37-38 | The filter keeps stored order: filtering a concatenation gives the concatenation of the filtered parts. |
| Reports.SummarizeKeys | src/CanteenRFID.Web/Controllers/ReportsController.cs:41 | The grouping gives one row per distinct personnel number, or per "Unbekannt" for unlinked stamps, and no other rows. |
| Reports.SummarizeCounts | src/CanteenRFID.Web/Controllers/ReportsController.cs:46-50 | Each row's five columns are the numbers of that group's stamps of each meal type. |
| Reports.SummarizeNameAt | src/CanteenRFID.Web/Controllers/ReportsController.cs:45 | Each row is named after the user of the group's first stamp. |
| Reports.SummarizeSums | src/CanteenRFID.Web/Controllers/ReportsController.cs:41-51 | Each column's total over all rows is the number of stamps of that meal type: no stamp is lost or counted twice. |
| Reports.UniqueKeysCountRows | src/CanteenRFID.Web/Controllers/ReportsController.cs:41 | With unique keys there are exactly as many rows as keys. |
| Reports.BuildSummary | src/CanteenRFID.Web/Controllers/ReportsController.cs:34-52 | Over the stamps in the window: one row per group key, per-meal counts, rows named after the group's first stamp, and column totals equal to the per-meal stamp counts. |
| Reports.SentinelKeyMergesGroups | src/CanteenRFID.Web/Controllers/ReportsController.cs:41 | A user whose personnel number is "Unbekannt" shares one row with the unlinked stamps. |
| ReaderDisplay.SplitQuery | src/CanteenRFID.Web/Controllers/ReaderDisplayController.cs:23-32 | When a reader id is given without a password, the first "&pw=" in any letter case splits id from password, and the parts rebuild the original text; otherwise the query is untouched. |
| ReaderDisplay.CheckPassword | src/CanteenRFID.Web/Controllers/ReaderDisplayController.cs:45-70 | Passes exactly when the password is the reader's granting one. It says "not configured" only when no password is mapped and the column is missing; otherwise it says "wrong password". |
| ReaderDisplay.OptionFor | src/CanteenRFID.Web/Controllers/ReaderDisplayController.cs:72-81 | The page's single option shows the reader under its name, or its id when unnamed. |
| ReaderDisplay.Index | src/CanteenRFID.Web/Controllers/ReaderDisplayController.cs:19-89 | "Missing parameters" exactly when id or password is blank after the split. The page is shown exactly when the reader exists and the password grants access, and then it lists only that reader. "Not configured" exactly when id and password are non-blank, the reader exists, its mapped display password is blank and the raw column read fails. Every other refusal, an unknown reader included, says "wrong password". |
| ReaderDisplay.SplitRoundTrip | src/CanteenRFID.Web/Controllers/ReaderDisplayController.cs:23-32 | id + "&pw=" + password splits back into id and password whenever the id contains no token. |
| ReaderDisplay.CombinedUrlMatchesSeparateParameters | src/CanteenRFID.Web/Controllers/ReaderDisplayController.cs:19-32 | The combined URL opens the same page as separate query parameters. |
| ReaderDisplay.DisplayPasswordOpensPage | src/CanteenRFID.Web/Controllers/ReaderDisplayController.cs:45-51 | A reader's own non-blank display password opens its page, whatever the raw column holds. |
| ReaderDisplay.OnlyTheStoredPasswordOpens | src/CanteenRFID.Web/Controllers/ReaderDisplayController.cs:45-70 | A page is only ever opened with a non-blank password equal to the mapped password, or to the raw column's when none is mapped. |
| ReaderStatus.OnlineIffRecentlySeen | src/CanteenRFID.Web/Models/ReaderStatusViewModel.cs:10-15 | A reader is online exactly when it has been seen and at most the threshold has passed since, 30 seconds by default. |
| ReaderStatus.DefaultIsThirtySeconds | src/CanteenRFID.Web/Models/ReaderStatusViewModel.cs:13 | No configured threshold behaves as a 30-second threshold. |
| ReaderStatus.OnlineIsMonotone | src/CanteenRFID.Web/Models/ReaderStatusViewModel.cs:14 | A later last-seen time or a larger threshold never turns an online reader offline. |
| ReaderStatus.OfflineStaysOffline | src/CanteenRFID.Web/Models/ReaderStatusViewModel.cs:14 | Without a new ping, an offline reader stays offline as time passes. |
| ReaderStatus.PingKeepsReaderOnline | src/CanteenRFID.Web/Program.cs:186-193 | After a successful ping, the reader is online at a later instant exactly when at most 30 seconds have passed, taking the ping time as the view model's last sighting. |
| Access.FirstEmployeeOf | backend/src/utils/access.ts:4-7 | Gives the first employee linked to the user, and nothing exactly when none is linked. |
| Access.EmployeeIdForUser | backend/src/utils/access.ts:4-7 | Returns the id of an employee linked to the user, and nothing exactly when none is linked. |
| Access.CanAccessEmployee | backend/src/utils/access.ts:9-13 | Admins and supervisors reach every employee; anyone else reaches exactly the employee linked to them. |
| Access.EmployeeSeesOnlyOwnRecord | backend/src/utils/access.ts:9-13 | With one employee per user and unique ids, an employee reaches a record exactly when it is linked to them. |
| Access.UnlinkedUserSeesNobody | backend/src/utils/access.ts:9-13 | A non-privileged user without an employee record reaches nobody. |
| ReaderClient.Enqueue | src/CanteenRFID.ReaderClient/Program.cs:389-392 | Appending creates the file if missing and adds exactly one line at the end, keeping the earlier lines. |
| ReaderClient.FlushQueue | src/CanteenRFID.ReaderClient/Program.cs:394-416 | The rewritten file holds exactly the lines not delivered, verbatim and in order. The sender is offered each parsable line's record in file order. A missing file stays missing. |
| ReaderClient.RetainedMembership | src/CanteenRFID.ReaderClient/Program.cs:399-415 | A line is kept exactly when it was queued and not delivered. |
| ReaderClient.RetainedCount | src/CanteenRFID.ReaderClient/Program.cs:399-415 | A flush never grows the queue, and leaves it the same length exactly when nothing was delivered. |
| ReaderClient.MalformedLinesSurvive | src/CanteenRFID.ReaderClient/Program.cs:401-413 | A line that does not parse is never dropped. |
| ReaderClient.UnreachableServerKeepsQueue | src/CanteenRFID.ReaderClient/Program.cs:404-415 | With the server unreachable, a flush leaves the queue exactly as it was. |
| ReaderClient.EnqueuedRecordIsDeliveredByFlush | src/CanteenRFID.ReaderClient/Program.cs:389-416 | A record queued and later accepted by the server is offered by the next flush, after the earlier records, and does not stay in the queue. |
| ReaderClient.MalformedAndValidLine | src/CanteenRFID.ReaderClient/Program.cs:399-415 | A malformed line followed by a deliverable one leaves just the malformed line. |
| ReaderClient.StripTerminator | src/CanteenRFID.ReaderClient/Program.cs:163-170 | A wedge line ending with the terminator loses exactly that suffix; any other line is unchanged. |
| ReaderClient.WedgeUids | src/CanteenRFID.ReaderClient/Program.cs:153-172 | Each console line yields one UID, in order, with the terminator stripped. |
| ReaderClient.StripAppendedTerminator | src/CanteenRFID.ReaderClient/Program.cs:163-165 | A UID typed followed by the terminator is read back exactly. |
| ReaderClient.EmptyTerminatorIsIdentity | src/CanteenRFID.ReaderClient/Program.cs:424 | With the default empty terminator the wedge passes lines through unchanged. |
| ReaderClient.HookTerminator | src/CanteenRFID.ReaderClient/Program.cs:190 | The hook's terminator is never empty; a configured non-empty one is used as is. |
| ReaderClient.OnKey | src/CanteenRFID.ReaderClient/Program.cs:237-249 | A key that completes the terminator empties the buffer and emits the text before it, unless that text is blank. Any other key just grows the buffer. Unmapped keys change nothing. |
| ReaderClient.FeedUntilTerminator | src/CanteenRFID.ReaderClient/Program.cs:237-249 | Typing characters until the terminator first appears emits exactly the text before it, and empties the buffer. |
| ReaderClient.ScanEmitsUid | src/CanteenRFID.ReaderClient/Program.cs:231-253 | A scan of a non-blank UID followed by the terminator emits exactly that UID. |
| ReaderClient.TryAcquire | src/CanteenRFID.ReaderClient/Program.cs:55-58 | The flush guard is acquired exactly when no flush is running. |
| ReaderClient.RequestFlush | src/CanteenRFID.ReaderClient/Program.cs:53-68 | While a flush runs, a request does nothing. Otherwise it flushes the queue and releases the guard. |
| ReaderClient.ConcurrentFlushIsSkipped | src/CanteenRFID.ReaderClient/Program.cs:55-58 | A second flush requested while one holds the guard is skipped. |
| ReaderClient.Capture | src/CanteenRFID.ReaderClient/Program.cs:88-109 | A blank UID is ignored. Otherwise the trimmed UID is sent with the reader id and now. On failure exactly that record is queued; on success a flush follows. |
| ReaderClient.FailedSendQueuesOneLine | src/CanteenRFID.ReaderClient/Program.cs:99-104 | A failed send appends the record's line to the queue, creating the file if needed. |
| ReaderClient.PingTick | src/CanteenRFID.ReaderClient/Program.cs:114-121 | Only a successful ping triggers a flush. |
| ReaderClient.FlushTick | src/CanteenRFID.ReaderClient/Program.cs:126-132 | The timer flushes exactly when the queue file exists and is not empty. |
| ReaderClient.PingIntervalSeconds | src/CanteenRFID.ReaderClient/Program.cs:70 | The ping interval is the configured one, but never below five seconds. |
| ReaderClient.SelectSource | src/CanteenRFID.ReaderClient/Program.cs:77-84 | The global hook is used exactly when configured and on Windows; otherwise the console wedge. |
| Sorting.SortByKey | src/CanteenRFID.Core/Services/MealRuleEngine.cs:12 | The result is ordered by key and is a permutation of the input. |
| Sorting.SortIsStable | src/CanteenRFID.Core/Services/MealRuleEngine.cs:12 | Elements with equal keys keep their input order. |
| Sorting.StableSortCharacterised | src/CanteenRFID.Core/Services/MealRuleEngine.cs:12 | Any ordered list that keeps each key's input order equals the sort. |
| Sorting.SortIgnoresOrderOfDistinctKeys | backend/src/services/timeCalculation.ts:15 | When no two elements share a key, every permutation of the input sorts to the same list. |
| Sorting.SortByName | src/CanteenRFID.Web/Controllers/UsersController.cs:26 | The result is ordered by last name and is a permutation of the input. |
| TimeCalculation.DateKeyBounds | backend/src/services/timeCalculation.ts:21 | An instant's UTC date is the day whose 24 hours contain it. |
| TimeCalculation.DateKeyMonotone | backend/src/services/timeCalculation.ts:21 | A later instant never has an earlier date. |
| TimeCalculation.RoundMinutesNearest | backend/src/services/timeCalculation.ts:44 | Worked minutes are the milliseconds rounded to the nearest minute, halves up, and zero for anything under half a minute. |
| TimeCalculation.RoundWholeMinutes | backend/src/services/timeCalculation.ts:44 | Whole minutes round to themselves. |
| TimeCalculation.StepAccounting | backend/src/services/timeCalculation.ts:21-39 | One booking changes only its own date's amount. An open clock-out adds the time since clock-in, an open pause end subtracts the pause, and any other booking adds nothing; the markers are set and cleared as the booking says. |
| TimeCalculation.ClockOutCredits | backend/src/services/timeCalculation.ts:35-39 | A clock-out after a clock-in credits the difference to the clock-out's date; without an open clock-in it credits nothing. |
| TimeCalculation.RunDates | backend/src/services/timeCalculation.ts:21-22 | The replay's dates are the entries' dates in first-occurrence order, each once. |
| TimeCalculation.SummariesAscend | backend/src/services/timeCalculation.ts:15-48 | Summary dates strictly ascend. |
| TimeCalculation.SummariesCoverEntryDates | backend/src/services/timeCalculation.ts:21-22 | There is one summary for every date that has a booking, and no other. |
| TimeCalculation.ReplayEntry | backend/src/services/timeCalculation.ts:21-39 | The loop body's state update is the reference step. |
| TimeCalculation.CalculateDailySummary | backend/src/services/timeCalculation.ts:14-49 | The loop's result is the reference replay of the sorted entries. Dates strictly ascend and are exactly the entries' dates. |
| TimeCalculation.SortedEntriesStay | backend/src/services/timeCalculation.ts:15 | Entries already in time order are replayed as given. |
| TimeCalculation.InputOrderIrrelevantForDistinctTimestamps | backend/src/services/timeCalculation.ts:15 | When no two entries share a timestamp, the summary does not depend on input order. |
| TimeCalculation.ClockOutBeforeClockIn | backend/src/services/timeCalculation.ts:24-39 | At a shift change with tied timestamps, listing the clock-out first credits the shift. |
| TimeCalculation.ClockInBeforeClockOut | backend/src/services/timeCalculation.ts:24-39 | Listing the tied clock-in first loses the shift: zero minutes. |
| TimeCalculation.TiedTimestampsDependOnInputOrder | backend/src/services/timeCalculation.ts:15 | Two orderings of the same entries with tied timestamps give different summaries: the stable sort keeps input order. |
| TimeCalculation.OneWorkingDay | backend/src/services/timeCalculation.ts:24-44 | In, pause, pause end, out on one date gives one summary: the attendance minus the pause, rounded. |
| TimeCalculation.WorkedExample | backend/src/services/timeCalculation.ts:24-44 | 08:00 in, pause 12:00-12:30, 17:00 out on one day gives a single summary of 510 minutes. |

## Left out

- Networking: the HTTP sender, the ping request and the `HttpClient` calls are reduced to a `send` verdict per record and a `pinged` flag.
- Timers and concurrency: the three reader-client tasks, `PeriodicTimer` and `SemaphoreSlim` become explicit steps and a `flushing` flag. A scan queued while a flush rewrites the file is not modelled; that interleaving needs real concurrency.
- The Windows keyboard hook itself is left out: P/Invoke, `SetWindowsHookEx` and `VkToChar`. It is modelled from the characters the callback receives; a key it cannot map is `None`.
- The wedge source reads a finite list of console lines; end of input closes it.
- File and JSON handling are left out: the queue file is a list of lines, and JSON (de)serialisation is `serialize` and `parse`.
- Clocks, time zones and the SHA-256 key hash are parameters (`now`, `toLocal`, `hash`). The server's instants are whole seconds, and sub-second ticks are dropped.
- Authentication, cookies, roles and the PBKDF2 password hashing of the web app are left out; the endpoints are modelled after authorisation.
- Entity Framework and SQL are left out. Tables are sequences in insertion order. Where the database leaves an order open, table order is used: equal meal-rule priorities, report groups, and `FirstOrDefault` without `OrderBy`.
- Ingestion.PostStamp: the request's `Uid` is a non-null string. A JSON body with a null or missing `uid` binds to null, and the NOT NULL column of the required `Stamp.UidRaw` makes the save fail; no stamp is stored and the reader's `LastPingUtc` is not saved. That refused save is not modelled, because the model's strings cannot be null.
- Users.ApiCreate: the first name, last name and personnel number are non-null strings. A JSON null in one of them makes the save fail on its NOT NULL column and nothing is stored; that refused save is not modelled, for the same reason.
- Users.ApiUpdate: likewise, a JSON null first name, last name or personnel number makes the save fail and nothing changes; not modelled, for the same reason.
- MealRulesAdmin.ApiUpdate: likewise, a JSON null `name` makes the save fail on the NOT NULL column of the required `MealRule.Name` and nothing changes; not modelled, for the same reason.
- ReaderStatus.PingKeepsReaderOnline: the code that fills `ReaderStatusViewModel.LastSeenUtc` is not part of this model. The lemma assumes it is the reader's `LastPingUtc`.
- The unique index on `ReaderId` is not used; reader lookups return the first match.
- Strings are sequences of characters. UTF-16 surrogates are not separated. Case-insensitive comparison folds ASCII letters only. Culture-sensitive `EndsWith` is treated as ordinal.
- TimeCalculation.CalculateDailySummary: the `readable` text, the `expectedMinutes` parameter and JavaScript floating point are left out. Minutes are exact milliseconds rounded once, so float drift is not reproduced. Dates are UTC day numbers instead of ISO strings.
- TimeCalculation.WorkedExample: states the 510 minutes the code computes for the unit test's entries. The test's expectation of 450 minutes and "7h" is not reproduced.
- Creating meal rules is left out: the form's `Create` and `POST /api/v1/mealrules` only add a row. `GET /api/v1/mealrules` runs the same query as `MealRulesAdmin.Index`.
- Other CRUD endpoints are left out: the stamp and reader deletion API, the exports, the costs and the login pages. None of them classifies or validates anything beyond what is modelled.
- The `Meta` map of a stamp request is carried by the reader client but not interpreted; the server ignores it.
- The raw SQL fallback for a reader's display password is the `StoredPassword` input. The column query itself is left out.

=== FILE: access.dfy ===
/**
  * Access rules of the time-tracking backend (backend/src/utils/access.ts):
  * the employee record a login user is linked to, and whether a user may see
  * an employee's data. The database lookup `findFirst` is the first
  * matching row of the employee table.
  */
module Access {
  import opened Wrappers
  import opened Seqs

  /** `Role` of the Prisma schema. */
  datatype Role = Admin | Hr | TeamLead | Employee

  datatype AppUser = AppUser(id: int, role: Role)

  /** An `employee` row: its key and the login user it belongs to, if any. */
  datatype EmployeeRow = EmployeeRow(id: int, userId: Option<int>)

  /** The three roles that see every employee. */
  predicate IsPrivileged(role: Role) {
    role in {Admin, Hr, TeamLead}
  }

  /** Position of the first employee row linked to `userId`. */
  function FirstEmployeeOf(employees: seq<EmployeeRow>, userId: int): (r: Option<nat>)
    ensures r.Some? ==> r.value < |employees| && employees[r.value].userId == Some(userId)
    ensures r.Some? ==> forall k :: 0 <= k < r.value ==> employees[k].userId != Some(userId)
    ensures r.None? <==> forall i :: 0 <= i < |employees| ==> employees[i].userId != Some(userId)
  {
    FirstWhere(employees, (e: EmployeeRow) => e.userId == Some(userId))
  }

  /** `getEmployeeIdForUser`: the id of the first employee row linked to `userId`, or null. */
  function EmployeeIdForUser(employees: seq<EmployeeRow>, userId: int): (r: Option<int>)
    ensures r.None? <==> forall i :: 0 <= i < |employees| ==> employees[i].userId != Some(userId)
    ensures r.Some? ==> exists i :: 0 <= i < |employees| && employees[i].userId == Some(userId) && employees[i].id == r.value
  {
    match FirstEmployeeOf(employees, userId)
    case None => None
    case Some(i) => Some(employees[i].id)
  }

  /** `canAccessEmployee`: privileged roles see everyone, anyone else only their own employee record. */
  function CanAccessEmployee(employees: seq<EmployeeRow>, user: AppUser, targetEmployeeId: int): (r: bool)
    ensures IsPrivileged(user.role) ==> r
    ensures !IsPrivileged(user.role) ==> (r <==> EmployeeIdForUser(employees, user.id) == Some(targetEmployeeId))
  {
    IsPrivileged(user.role) || EmployeeIdForUser(employees, user.id) == Some(targetEmployeeId)
  }

  /** No two employee rows belong to the same login user. */
  ghost predicate OneEmployeePerUser(employees: seq<EmployeeRow>) {
    forall i, j :: 0 <= i < j < |employees| && employees[i].userId.Some? ==> employees[i].userId != employees[j].userId
  }

  /**
    * With one employee per user, an unprivileged user reaches exactly the
    * employee rows linked to them.
    */
  lemma EmployeeSeesOnlyOwnRecord(employees: seq<EmployeeRow>, user: AppUser, target: int)
    requires OneEmployeePerUser(employees)
    requires !IsPrivileged(user.role)
    requires forall i, j :: 0 <= i < j < |employees| ==> employees[i].id != employees[j].id
    ensures CanAccessEmployee(employees, user, target) <==>
      exists i :: 0 <= i < |employees| && employees[i].id == target && employees[i].userId == Some(user.id)
  {
    var first := FirstEmployeeOf(employees, user.id);
    if exists i :: 0 <= i < |employees| && employees[i].id == target && employees[i].userId == Some(user.id) {
      var i :| 0 <= i < |employees| && employees[i].id == target && employees[i].userId == Some(user.id);
      var k := first.value;
      assert k <= i;
      assert k == i;
    }
  }

  /** An unprivileged user without an employee record reaches nobody. */
  lemma UnlinkedUserSeesNobody(employees: seq<EmployeeRow>, user: AppUser, target: int)
    requires !IsPrivileged(user.role)
    requires forall i :: 0 <= i < |employees| ==> employees[i].userId != Some(user.id)
    ensures !CanAccessEmployee(employees, user, target)
  {
  }
}

=== FILE: entities.dfy ===
/**
  * The persisted entities of the canteen server (src/CanteenRFID.Core/Models)
  * and the database as in-memory tables. Guids are integers, `DateTime`
  * values are whole seconds since an epoch, and a stamp's local timestamp
  * keeps the weekday and time of day the meal rules look at.
  */
module Entities {
  import opened Wrappers
  import opened Strings
  import opened MealRules
  import opened Seqs

  datatype User = User(
    id: int,
    firstName: string,
    lastName: string,
    personnelNo: string,
    uid: Option<string>,
    isActive: bool,
    createdAtUtc: int)

  /** `User.FullName`: first and last name separated by one blank. */
  function FullName(u: User): (name: string)
    ensures |name| == |u.firstName| + 1 + |u.lastName|
    ensures name[..|u.firstName|] == u.firstName
    ensures name[|u.firstName|] == ' '
    ensures name[|u.firstName| + 1..] == u.lastName
  {
    u.firstName + " " + u.lastName
  }

  /**
    * `Reader`, with the `LastPingUtc` and `DisplayPassword` columns the
    * server code reads and writes.
    */
  datatype Reader = Reader(
    id: int,
    readerId: string,
    name: Option<string>,
    location: Option<string>,
    apiKeyHash: string,
    isActive: bool,
    createdAtUtc: int,
    lastPingUtc: Option<int>,
    displayPassword: Option<string>)

  datatype Stamp = Stamp(
    id: int,
    timestampUtc: int,
    timestampLocal: LocalTime,
    uidRaw: string,
    userId: Option<int>,
    readerId: string,
    mealType: MealType,
    createdAtUtc: int)

  /** The four tables the core reads and writes. */
  datatype Db = Db(users: seq<User>, readers: seq<Reader>, stamps: seq<Stamp>, rules: seq<MealRule>)

  /** No two users share an id (the primary key). */
  ghost predicate UniqueUserIds(users: seq<User>) {
    forall i, j :: 0 <= i < j < |users| ==> users[i].id != users[j].id
  }

  /**
    * The user table's key and the unique indexes on `PersonnelNo` and
    * `Uid`: only a missing `Uid` is exempt, since the index treats NULLs
    * as distinct but any stored string, white space included, as a value.
    */
  ghost predicate UsersWellFormed(users: seq<User>) {
    && UniqueUserIds(users)
    && (forall i, j :: 0 <= i < j < |users| ==> users[i].personnelNo != users[j].personnelNo)
    && (forall i, j :: 0 <= i < j < |users| && users[i].uid.Some? ==> users[i].uid != users[j].uid)
  }

  /** Position of the user with primary key `id` (`FindAsync`). */
  function FindUser(users: seq<User>, id: int): (r: Option<nat>)
    ensures r.Some? ==> r.value < |users| && users[r.value].id == id
    ensures r.None? <==> forall i :: 0 <= i < |users| ==> users[i].id != id
  {
    FirstWhere(users, (u: User) => u.id == id)
  }

  /** Position of the first user whose `Uid` equals `uid` (`FirstOrDefault(u => u.Uid == uid)`). */
  function FindUserByUid(users: seq<User>, uid: string): (r: Option<nat>)
    ensures r.Some? ==> r.value < |users| && users[r.value].uid == Some(uid)
    ensures r.Some? ==> forall i :: 0 <= i < r.value ==> users[i].uid != Some(uid)
    ensures r.None? <==> forall i :: 0 <= i < |users| ==> users[i].uid != Some(uid)
  {
    FirstWhere(users, (u: User) => u.uid == Some(uid))
  }

  /** Position of the first reader whose `ReaderId` equals `readerId` (ordinal). */
  function FindReader(readers: seq<Reader>, readerId: string): (r: Option<nat>)
    ensures r.Some? ==> r.value < |readers| && readers[r.value].readerId == readerId
    ensures r.Some? ==> forall i :: 0 <= i < r.value ==> readers[i].readerId != readerId
    ensures r.None? <==> forall i :: 0 <= i < |readers| ==> readers[i].readerId != readerId
  {
    FirstWhere(readers, (x: Reader) => x.readerId == readerId)
  }

  /** Under the unique-index invariant a user's key and its `Uid` each pick out one row. */
  lemma UniqueKeysPickOneUser(users: seq<User>, i: int)
    requires UsersWellFormed(users) && 0 <= i < |users|
    ensures FindUser(users, users[i].id) == Some(i)
    ensures users[i].uid.Some? ==> FindUserByUid(users, users[i].uid.value) == Some(i)
  {
    var k := FindUser(users, users[i].id).value;
    assert users[k].id == users[i].id;
    if users[i].uid.Some? {
      var m := FindUserByUid(users, users[i].uid.value).value;
      assert users[m].uid == users[i].uid;
    }
  }
}

=== FILE: ingestion.dfy ===
/**
  * Stamp ingestion on the server (src/CanteenRFID.Web/Program.cs): the API
  * key gate, `StampService.AddStampAsync`, `POST /api/v1/stamps`,
  * `POST /api/v1/readers/ping` and the bulk meal-type recalculation shared
  * by the API and `MealRulesController.Recalculate`.
  *
  * SHA-256 hashing of the key is the parameter `hash`, the configured
  * UTC-to-local conversion is `toLocal`, the clock is `now`, and the Guid
  * of a new stamp is `newId`.
  */
module Ingestion {
  import opened Wrappers
  import opened Seqs
  import opened Strings
  import opened MealRules
  import opened Entities

  // ---------------------------------------------------------------------
  // API key gate
  // ---------------------------------------------------------------------

  /** The reader owns the key: its stored hash is the key's hash and it is active. */
  predicate HoldsKey(r: Reader, keyHash: string) {
    r.apiKeyHash == keyHash && r.isActive
  }

  function FirstKeyHolder(readers: seq<Reader>, keyHash: string): (r: Option<nat>)
    ensures r.Some? ==> r.value < |readers| && HoldsKey(readers[r.value], keyHash)
    ensures r.Some? ==> forall i :: 0 <= i < r.value ==> !HoldsKey(readers[i], keyHash)
    ensures r.None? <==> forall i :: 0 <= i < |readers| ==> !HoldsKey(readers[i], keyHash)
  {
    FirstWhere(readers, (x: Reader) => HoldsKey(x, keyHash))
  }

  /** `ApiKeyValidator.ValidateAsync`: the active reader whose stored hash equals the key's hash. */
  function ValidateApiKey(readers: seq<Reader>, hash: string -> string, apiKey: string): (r: Option<nat>)
    ensures r.Some? ==> r.value < |readers|
    ensures r.Some? ==> readers[r.value].apiKeyHash == hash(apiKey) && readers[r.value].isActive
    ensures r.None? <==> forall i :: 0 <= i < |readers| ==> !(readers[i].apiKeyHash == hash(apiKey) && readers[i].isActive)
  {
    FirstKeyHolder(readers, hash(apiKey))
  }

  /**
    * The `X-API-KEY` check both endpoints start with: a missing or white-space
    * header, or a key no active reader holds, authenticates nobody.
    */
  function Authenticate(readers: seq<Reader>, header: Option<string>, hash: string -> string): (r: Option<nat>)
    ensures IsNullOrBlank(header) ==> r.None?
    ensures !IsNullOrBlank(header) ==> r == ValidateApiKey(readers, hash, header.value)
  {
    if IsNullOrBlank(header) then None else ValidateApiKey(readers, hash, header.value)
  }

  /** A deactivated reader's key no longer authenticates, whatever the header. */
  lemma InactiveReaderIsRejected(readers: seq<Reader>, header: Option<string>, hash: string -> string, i: int)
    requires 0 <= i < |readers| && !readers[i].isActive
    ensures Authenticate(readers, header, hash) != Some(i)
  {
  }

  // ---------------------------------------------------------------------
  // AddStampAsync
  // ---------------------------------------------------------------------

  /** The engine `MealRuleEngineFactory.CreateAsync` builds: from the active rules only. */
  function CurrentEngine(rules: seq<MealRule>): (e: Engine)
    ensures e == BuildEngine(rules)
  {
    PrefilteredRulesBuildSameEngine(rules);
    BuildEngine(ActiveOnly(rules))
  }

  /** Sets `LastPingUtc` of the reader at `at`, if any; every other reader is untouched. */
  function TouchReader(readers: seq<Reader>, at: Option<nat>, now: int): (r: seq<Reader>)
    ensures |r| == |readers|
    ensures forall i :: 0 <= i < |readers| && at != Some(i) ==> r[i] == readers[i]
    ensures at.Some? && at.value < |readers| ==> r[at.value] == readers[at.value].(lastPingUtc := Some(now))
  {
    if at.Some? && at.value < |readers| then readers[at.value := readers[at.value].(lastPingUtc := Some(now))]
    else readers
  }

  /**
    * `AddStampAsync`: records one stamp, classified by the current rules at
    * its local time and linked to the user holding the scanned UID, and
    * marks the named reader as seen.
    */
  function AddStamp(db: Db, uid: string, readerId: string, timestampUtc: Option<int>, now: int,
                    toLocal: int -> LocalTime, newId: int): (r: (Db, Stamp))
    ensures r.0.stamps == db.stamps + [r.1]
    ensures r.0.users == db.users && r.0.rules == db.rules
    ensures r.1.id == newId && r.1.createdAtUtc == now
    ensures timestampUtc.Some? ==> r.1.timestampUtc == timestampUtc.value
    ensures timestampUtc.None? ==> r.1.timestampUtc == now
    ensures r.1.timestampLocal == toLocal(r.1.timestampUtc)
    ensures r.1.mealType == ResolveMealType(BuildEngine(db.rules), r.1.timestampLocal)
    ensures r.1.uidRaw == uid && r.1.readerId == readerId
    ensures r.1.userId.None? <==> forall i :: 0 <= i < |db.users| ==> db.users[i].uid != Some(uid)
    ensures r.1.userId.Some? ==> exists i :: 0 <= i < |db.users| && db.users[i].uid == Some(uid) && db.users[i].id == r.1.userId.value
    ensures |r.0.readers| == |db.readers|
    ensures forall i :: 0 <= i < |db.readers| && r.0.readers[i] != db.readers[i] ==>
      db.readers[i].readerId == readerId && r.0.readers[i] == db.readers[i].(lastPingUtc := Some(now))
    ensures (exists i :: 0 <= i < |db.readers| && db.readers[i].readerId == readerId) ==>
      exists i :: 0 <= i < |db.readers| && db.readers[i].readerId == readerId && r.0.readers[i].lastPingUtc == Some(now)
  {
    var utc := timestampUtc.GetOr(now);
    var local := toLocal(utc);
    var mealType := ResolveMealType(CurrentEngine(db.rules), local);
    var user := FindUserByUid(db.users, uid);
    var reader := FindReader(db.readers, readerId);
    var stamp := Stamp(newId, utc, local, uid, if user.Some? then Some(db.users[user.value].id) else None,
                       readerId, mealType, now);
    (db.(readers := TouchReader(db.readers, reader, now), stamps := db.stamps + [stamp]), stamp)
  }

  // ---------------------------------------------------------------------
  // Endpoints
  // ---------------------------------------------------------------------

  /** The body of `POST /api/v1/stamps`; the `Meta` map is accepted and ignored. */
  datatype StampRequest = StampRequest(uid: string, readerId: Option<string>, timestampUtc: Option<int>)

  datatype StampResponse = StampCreated(stamp: Stamp) | StampUnauthorized

  /** `POST /api/v1/stamps`. */
  function PostStamp(db: Db, header: Option<string>, request: StampRequest, hash: string -> string,
                     now: int, toLocal: int -> LocalTime, newId: int): (r: (Db, StampResponse))
    ensures r.1.StampUnauthorized? <==> Authenticate(db.readers, header, hash).None?
    ensures r.1.StampUnauthorized? ==> r.0 == db
    ensures r.1.StampCreated? ==> r.0.stamps == db.stamps + [r.1.stamp] && r.1.stamp.uidRaw == request.uid
    ensures r.1.StampCreated? && request.readerId.Some? ==> r.1.stamp.readerId == request.readerId.value
    ensures r.1.StampCreated? && request.readerId.None? ==>
      r.1.stamp.readerId == db.readers[Authenticate(db.readers, header, hash).value].readerId
    ensures r.1.StampCreated? ==>
      var readerId := request.readerId.GetOr(db.readers[Authenticate(db.readers, header, hash).value].readerId);
      (r.0, r.1.stamp) == AddStamp(db, request.uid, readerId, request.timestampUtc, now, toLocal, newId)
  {
    match Authenticate(db.readers, header, hash)
    case None => (db, StampUnauthorized)
    case Some(k) =>
      var readerId := request.readerId.GetOr(db.readers[k].readerId);
      var (db', stamp) := AddStamp(db, request.uid, readerId, request.timestampUtc, now, toLocal, newId);
      (db', StampCreated(stamp))
  }

  datatype PingResponse = PingOk(serverTimeUtc: int) | PingUnauthorized | PingBadRequest

  /** `POST /api/v1/readers/ping`. */
  function Ping(db: Db, header: Option<string>, requestReaderId: Option<string>, hash: string -> string, now: int): (r: (Db, PingResponse))
    ensures r.1.PingUnauthorized? <==> Authenticate(db.readers, header, hash).None?
    ensures r.1.PingBadRequest? <==>
      && Authenticate(db.readers, header, hash).Some?
      && !IsNullOrBlank(requestReaderId)
      && !EqualsIgnoreCase(requestReaderId.value, db.readers[Authenticate(db.readers, header, hash).value].readerId)
    ensures !r.1.PingOk? ==> r.0 == db
    ensures r.1.PingOk? ==> r.1.serverTimeUtc == now
    ensures r.1.PingOk? ==>
      var k := Authenticate(db.readers, header, hash).value;
      r.0 == db.(readers := db.readers[k := db.readers[k].(lastPingUtc := Some(now))])
  {
    match Authenticate(db.readers, header, hash)
    case None => (db, PingUnauthorized)
    case Some(k) =>
      if !IsNullOrBlank(requestReaderId) && !EqualsIgnoreCase(requestReaderId.value, db.readers[k].readerId) then
        (db, PingBadRequest)
      else
        (db.(readers := db.readers[k := db.readers[k].(lastPingUtc := Some(now))]), PingOk(now))
  }

  /** A reader pinging under its own id, in any ASCII letter case, is accepted. */
  lemma PingWithOwnIdSucceeds(db: Db, key: string, hash: string -> string, now: int, k: nat, spelled: string)
    requires k < |db.readers| && !IsBlank(key)
    requires ValidateApiKey(db.readers, hash, key) == Some(k)
    requires EqualsIgnoreCase(spelled, db.readers[k].readerId)
    ensures Ping(db, Some(key), Some(spelled), hash, now).1 == PingOk(now)
    ensures Ping(db, Some(key), Some(spelled), hash, now).0.readers[k].lastPingUtc == Some(now)
  {
  }

  // ---------------------------------------------------------------------
  // Recalculation
  // ---------------------------------------------------------------------

  /** The recalculation window is inclusive at both ends. */
  predicate InRange(s: Stamp, from: int, to: int) {
    from <= s.timestampUtc <= to
  }

  /** The stamp with its meal type recomputed from its local timestamp. */
  function Reclassified(s: Stamp, e: Engine): (r: Stamp)
    ensures r.mealType == ResolveMealType(e, s.timestampLocal)
    ensures r.(mealType := s.mealType) == s
  {
    s.(mealType := ResolveMealType(e, s.timestampLocal))
  }

  /** The stamp table after recalculating `[from, to]`. */
  function RecalculatedStamps(stamps: seq<Stamp>, e: Engine, from: int, to: int): (r: seq<Stamp>)
    ensures |r| == |stamps|
    ensures forall i :: 0 <= i < |stamps| && InRange(stamps[i], from, to) ==> r[i] == Reclassified(stamps[i], e)
    ensures forall i :: 0 <= i < |stamps| && !InRange(stamps[i], from, to) ==> r[i] == stamps[i]
  {
    seq(|stamps|, i requires 0 <= i < |stamps| =>
      if InRange(stamps[i], from, to) then Reclassified(stamps[i], e) else stamps[i])
  }

  /** Number of stamps inside the window. */
  function CountInRange(stamps: seq<Stamp>, from: int, to: int): (n: nat)
    ensures n <= |stamps|
    ensures n == 0 <==> forall i :: 0 <= i < |stamps| ==> !InRange(stamps[i], from, to)
  {
    if |stamps| == 0 then 0
    else
      var init := stamps[..|stamps| - 1];
      assert forall i :: 0 <= i < |init| ==> init[i] == stamps[i];
      CountInRange(init, from, to) + (if InRange(stamps[|stamps| - 1], from, to) then 1 else 0)
  }

  /** The loop over the stamp table: reclassify the stamps in the window and count them. */
  method RecalculateTable(stamps: seq<Stamp>, engine: Engine, from: int, to: int) returns (out: seq<Stamp>, updated: nat)
    ensures out == RecalculatedStamps(stamps, engine, from, to)
    ensures updated == CountInRange(stamps, from, to)
  {
    out := [];
    updated := 0;
    var i := 0;
    while i < |stamps|
      invariant 0 <= i <= |stamps|
      invariant |out| == i
      invariant out == RecalculatedStamps(stamps[..i], engine, from, to)
      invariant updated == CountInRange(stamps[..i], from, to)
    {
      var stamp := stamps[i];
      CountInRangeStep(stamps, i, from, to);
      RecalculatedStampsStep(stamps, i, engine, from, to);
      if InRange(stamp, from, to) {
        stamp := Reclassified(stamp, engine);
        updated := updated + 1;
      }
      out := out + [stamp];
      i := i + 1;
    }
    assert stamps[..i] == stamps;
  }

  lemma RecalculatedStampsStep(stamps: seq<Stamp>, i: int, e: Engine, from: int, to: int)
    requires 0 <= i < |stamps|
    ensures RecalculatedStamps(stamps[..i + 1], e, from, to)
      == RecalculatedStamps(stamps[..i], e, from, to) + [if InRange(stamps[i], from, to) then Reclassified(stamps[i], e) else stamps[i]]
  {
    var a := RecalculatedStamps(stamps[..i + 1], e, from, to);
    var b := RecalculatedStamps(stamps[..i], e, from, to) + [if InRange(stamps[i], from, to) then Reclassified(stamps[i], e) else stamps[i]];
    assert |a| == |b|;
    forall k | 0 <= k < |a| ensures a[k] == b[k] {
      if k < i { assert stamps[..i + 1][k] == stamps[..i][k]; }
    }
  }

  lemma CountInRangeStep(stamps: seq<Stamp>, i: int, from: int, to: int)
    requires 0 <= i < |stamps|
    ensures CountInRange(stamps[..i + 1], from, to) == CountInRange(stamps[..i], from, to) + (if InRange(stamps[i], from, to) then 1 else 0)
  {
    var prefix := stamps[..i + 1];
    assert prefix[..i] == stamps[..i];
  }

  /**
    * `POST /api/v1/mealrules/recalculate` and `MealRulesController.Recalculate`:
    * every stamp in the window gets the meal type the active rules give its
    * local timestamp; the number of such stamps is reported.
    */
  method Recalculate(db: Db, from: int, to: int) returns (result: Db, updated: nat)
    ensures result == db.(stamps := RecalculatedStamps(db.stamps, BuildEngine(db.rules), from, to))
    ensures updated == CountInRange(db.stamps, from, to)
  {
    var stamps;
    stamps, updated := RecalculateTable(db.stamps, CurrentEngine(db.rules), from, to);
    result := db.(stamps := stamps);
  }

  /** Recalculating twice with the same rules and window changes nothing the first run did not. */
  lemma RecalculateIsIdempotent(stamps: seq<Stamp>, e: Engine, from: int, to: int)
    ensures var once := RecalculatedStamps(stamps, e, from, to);
      RecalculatedStamps(once, e, from, to) == once
  {
  }

  /** A stamp ingested under the current rules already carries the meal type a recalculation would give it. */
  lemma IngestedStampSurvivesRecalculation(db: Db, uid: string, readerId: string, timestampUtc: Option<int>, now: int,
                                           toLocal: int -> LocalTime, newId: int, from: int, to: int)
    ensures var (db', stamp) := AddStamp(db, uid, readerId, timestampUtc, now, toLocal, newId);
      RecalculatedStamps(db'.stamps, BuildEngine(db'.rules), from, to)[|db.stamps|] == stamp
  {
  }

  /** Inactive rules added to the table do not change how a new stamp is classified. */
  lemma InactiveRulesDoNotAffectIngestion(db: Db, x: MealRule, uid: string, readerId: string, timestampUtc: Option<int>,
                                          now: int, toLocal: int -> LocalTime, newId: int)
    requires !x.isActive
    ensures AddStamp(db.(rules := db.rules + [x]), uid, readerId, timestampUtc, now, toLocal, newId).1.mealType
         == AddStamp(db, uid, readerId, timestampUtc, now, toLocal, newId).1.mealType
  {
    var lt := toLocal(timestampUtc.GetOr(now));
    assert db.rules + [x] + [] == db.rules + [x];
    InactiveRuleIsIgnored(db.rules, x, [], lt);
    assert db.rules + [] == db.rules;
  }
}

=== FILE: meal_rule_examples.dfy ===
/**
  * Concrete rule sets: the three unit tests of the engine
  * (tests/CanteenRFID.Tests/MealRuleEngineTests.cs) and the rules seeded on
  * first start (src/CanteenRFID.Data/Services/DataSeeder.cs), whose windows
  * share their 10:00 and 15:00 boundaries so that priority decides there.
  */
module MealRuleExamples {
  import opened MealRules

  function At(hours: int, minutes: int, seconds: int): TimeOfDay
    requires 0 <= hours < 24 && 0 <= minutes < 60 && 0 <= seconds < 60
  {
    hours * 3600 + minutes * 60 + seconds
  }

  const Monday: DayOfWeek := 1
  const Tuesday: DayOfWeek := 2

  function Rule(id: int, mealType: MealType, start: TimeOfDay, end: TimeOfDay, mask: bv32, priority: int): MealRule {
    MealRule(id, "", mealType, start, end, mask, priority, true)
  }

  /** Breakfast 07–10 at priority 1 against Lunch 09–12 at priority 5, Monday 09:30. */
  lemma PriorityDecidesOverlap()
    ensures var breakfast := Rule(1, Breakfast, At(7, 0, 0), At(10, 0, 0), AllDays, 1);
      var lunch := Rule(2, Lunch, At(9, 0, 0), At(12, 0, 0), AllDays, 5);
      && ResolveMealType(BuildEngine([breakfast, lunch]), LocalTime(Monday, At(9, 30, 0))) == Lunch
      && ResolveMealType(BuildEngine([lunch, breakfast]), LocalTime(Monday, At(9, 30, 0))) == Lunch
  {
    var breakfast := Rule(1, Breakfast, At(7, 0, 0), At(10, 0, 0), AllDays, 1);
    var lunch := Rule(2, Lunch, At(9, 0, 0), At(12, 0, 0), AllDays, 5);
    AllDaysIncludesEveryDay(Monday);
    HigherPriorityWinsInEitherOrder(lunch, breakfast, LocalTime(Monday, At(9, 30, 0)));
  }

  /** A Monday-only dinner rule does not classify Tuesday 19:00. */
  lemma ClearedWeekdayGivesUnknown()
    ensures var dinner := Rule(1, Dinner, At(18, 0, 0), At(20, 0, 0), 1 << Monday, 1);
      ResolveMealType(BuildEngine([dinner]), LocalTime(Tuesday, At(19, 0, 0))) == Unknown
  {
    var dinner := Rule(1, Dinner, At(18, 0, 0), At(20, 0, 0), 1 << Monday, 1);
    assert !Applies(dinner, LocalTime(Tuesday, At(19, 0, 0)));
    ResolveUnknownWhenNothingApplies([dinner], LocalTime(Tuesday, At(19, 0, 0)));
  }

  /** The 22:00–02:00 night-shift window contains 23:00, 00:30, 01:00 and 01:59, not 02:01 or 21:59. */
  lemma OvernightWindow()
    ensures var night := Rule(1, Snack, At(22, 0, 0), At(2, 0, 0), AllDays, 1);
      && ResolveMealType(BuildEngine([night]), LocalTime(Tuesday, At(1, 0, 0))) == Snack
      && ResolveMealType(BuildEngine([night]), LocalTime(Tuesday, At(23, 0, 0))) == Snack
      && ResolveMealType(BuildEngine([night]), LocalTime(Tuesday, At(0, 30, 0))) == Snack
      && ResolveMealType(BuildEngine([night]), LocalTime(Tuesday, At(1, 59, 0))) == Snack
      && ResolveMealType(BuildEngine([night]), LocalTime(Tuesday, At(2, 1, 0))) == Unknown
      && ResolveMealType(BuildEngine([night]), LocalTime(Tuesday, At(21, 59, 0))) == Unknown
  {
    var night := Rule(1, Snack, At(22, 0, 0), At(2, 0, 0), AllDays, 1);
    AllDaysIncludesEveryDay(Tuesday);
    var hits := [At(1, 0, 0), At(23, 0, 0), At(0, 30, 0), At(1, 59, 0)];
    forall t | t in hits ensures ResolveMealType(BuildEngine([night]), LocalTime(Tuesday, t)) == Snack {
      assert IsWinner([night], LocalTime(Tuesday, t), 0);
      ResolveReturnsWinner([night], LocalTime(Tuesday, t), 0);
    }
    ResolveUnknownWhenNothingApplies([night], LocalTime(Tuesday, At(2, 1, 0)));
    ResolveUnknownWhenNothingApplies([night], LocalTime(Tuesday, At(21, 59, 0)));
  }

  /** The seeded rules: breakfast 07–10 (10), lunch 10–15 (9), dinner 15–20 (8), all days. */
  function SeededRules(): seq<MealRule> {
    [ MealRule(1, "Frühstück", Breakfast, At(7, 0, 0), At(10, 0, 0), 127, 10, true),
      MealRule(2, "Mittag", Lunch, At(10, 0, 0), At(15, 0, 0), 127, 9, true),
      MealRule(3, "Abend", Dinner, At(15, 0, 0), At(20, 0, 0), 127, 8, true) ]
  }

  /** On the shared 10:00 boundary the higher priority wins: breakfast. */
  lemma SeededBreakfastBoundary(day: DayOfWeek)
    ensures ResolveMealType(BuildEngine(SeededRules()), LocalTime(day, At(10, 0, 0))) == Breakfast
  {
    AllDaysIncludesEveryDay(day);
    assert IsWinner(SeededRules(), LocalTime(day, At(10, 0, 0)), 0);
    ResolveReturnsWinner(SeededRules(), LocalTime(day, At(10, 0, 0)), 0);
  }

  /** On the shared 15:00 boundary the higher priority wins: lunch. */
  lemma SeededLunchBoundary(day: DayOfWeek)
    ensures ResolveMealType(BuildEngine(SeededRules()), LocalTime(day, At(15, 0, 0))) == Lunch
  {
    AllDaysIncludesEveryDay(day);
    assert IsWinner(SeededRules(), LocalTime(day, At(15, 0, 0)), 1);
    ResolveReturnsWinner(SeededRules(), LocalTime(day, At(15, 0, 0)), 1);
  }

  /** 20:00 is still dinner. */
  lemma SeededRulesDinnerEnd(day: DayOfWeek)
    ensures ResolveMealType(BuildEngine(SeededRules()), LocalTime(day, At(20, 0, 0))) == Dinner
  {
    AllDaysIncludesEveryDay(day);
    assert IsWinner(SeededRules(), LocalTime(day, At(20, 0, 0)), 2);
    ResolveReturnsWinner(SeededRules(), LocalTime(day, At(20, 0, 0)), 2);
  }

  /** Outside 07:00–20:00 no seeded rule applies. */
  lemma SeededRulesOutsideHours(day: DayOfWeek, t: TimeOfDay)
    requires t < At(7, 0, 0) || t > At(20, 0, 0)
    ensures ResolveMealType(BuildEngine(SeededRules()), LocalTime(day, t)) == Unknown
  {
    var rules := SeededRules();
    forall j | 0 <= j < |rules| ensures !Applies(rules[j], LocalTime(day, t)) {
      assert !IsTimeWithin(rules[j].start, rules[j].end, t);
    }
    ResolveUnknownWhenNothingApplies(rules, LocalTime(day, t));
  }
}

=== FILE: meal_rules.dfy ===
/**
  * The meal rule engine (src/CanteenRFID.Core/Services/MealRuleEngine.cs):
  * a snapshot of the active rules, ordered by descending priority with
  * input order kept among equal priorities, and a resolver that returns
  * the meal type of the first rule whose weekday and time window contain
  * a local timestamp, or `Unknown`.
  */
module MealRules {
  import opened Wrappers
  import Sorting

  datatype MealType = Breakfast | Lunch | Dinner | Snack | Unknown

  const SecondsPerDay: int := 86400

  /** `DayOfWeek` as an integer, Sunday = 0 … Saturday = 6. */
  type DayOfWeek = d: int | 0 <= d < 7

  /** A `TimeOnly`, in whole seconds since midnight. */
  type TimeOfDay = t: int | 0 <= t < 86400

  /** The two parts of a local `DateTime` that classification looks at. */
  datatype LocalTime = LocalTime(day: DayOfWeek, time: TimeOfDay)

  datatype MealRule = MealRule(
    id: int,
    name: string,
    mealType: MealType,
    start: TimeOfDay,
    end: TimeOfDay,
    daysOfWeekMask: bv32,
    priority: int,
    isActive: bool)

  /** The default `DaysOfWeekMask`: every day of the week. */
  const AllDays: bv32 := 127

  /** `IsDayIncluded`: the day's bit of the (two's complement) mask is set. */
  function IsDayIncluded(mask: bv32, day: DayOfWeek): bool {
    var bit: bv32 := 1 << day;
    mask & bit == bit
  }

  /** `IsTimeWithin`: inclusive window, wrapping past midnight when start > end. */
  function IsTimeWithin(start: TimeOfDay, end: TimeOfDay, t: TimeOfDay): bool {
    if start <= end then start <= t && t <= end
    else t >= start || t <= end
  }

  /** The rule's weekday and window contain `lt`. */
  predicate Matches(r: MealRule, lt: LocalTime) {
    IsDayIncluded(r.daysOfWeekMask, lt.day) && IsTimeWithin(r.start, r.end, lt.time)
  }

  /** The rule is active and matches: it can decide a classification. */
  predicate Applies(r: MealRule, lt: LocalTime) {
    r.isActive && Matches(r, lt)
  }

  /** `rules.Where(r => r.IsActive)`. */
  function ActiveOnly(rules: seq<MealRule>): (r: seq<MealRule>)
    ensures forall i :: 0 <= i < |r| ==> r[i].isActive
  {
    if |rules| == 0 then []
    else
      assert rules == [rules[0]] + rules[1..];
      (if rules[0].isActive then [rules[0]] else []) + ActiveOnly(rules[1..])
  }

  /** Sort key turning ascending order into descending priority. */
  function PriorityKey(r: MealRule): int {
    -r.priority
  }

  /** The engine: its rule snapshot in evaluation order. */
  datatype Engine = Engine(rules: seq<MealRule>)

  /** The constructor: `rules.Where(r => r.IsActive).OrderByDescending(r => r.Priority)`. */
  function BuildEngine(rules: seq<MealRule>): (e: Engine)
    ensures multiset(e.rules) == multiset(ActiveOnly(rules))
    ensures forall i :: 0 <= i < |e.rules| ==> e.rules[i].isActive
    ensures forall i, j :: 0 <= i < j < |e.rules| ==> e.rules[i].priority >= e.rules[j].priority
  {
    var ordered := Sorting.SortByKey(ActiveOnly(rules), PriorityKey);
    forall i | 0 <= i < |ordered| ensures ordered[i].isActive {
      assert ordered[i] in multiset(ActiveOnly(rules));
    }
    Engine(ordered)
  }

  /** Position of the first rule of `s` that matches `lt`. */
  function FirstMatchIndex(s: seq<MealRule>, lt: LocalTime): (r: Option<nat>)
    ensures r.Some? ==> r.value < |s| && Matches(s[r.value], lt)
    ensures r.Some? ==> forall j :: 0 <= j < r.value ==> !Matches(s[j], lt)
    ensures r.None? ==> forall j :: 0 <= j < |s| ==> !Matches(s[j], lt)
  {
    if |s| == 0 then None
    else if Matches(s[0], lt) then Some(0)
    else
      match FirstMatchIndex(s[1..], lt)
      case None => None
      case Some(k) => Some(k + 1)
  }

  /** The first rule of `s` that matches `lt`. */
  function FirstMatch(s: seq<MealRule>, lt: LocalTime): Option<MealRule> {
    match FirstMatchIndex(s, lt)
    case None => None
    case Some(i) => Some(s[i])
  }

  /** `ResolveMealType`: the first matching rule's meal type, `Unknown` when none matches. */
  function ResolveMealType(e: Engine, lt: LocalTime): MealType {
    match FirstMatch(e.rules, lt)
    case None => Unknown
    case Some(r) => r.mealType
  }

  // ---------------------------------------------------------------------
  // Weekday masks and time windows
  // ---------------------------------------------------------------------

  /** A day is included exactly when bit number `day` of the mask is set. */
  lemma DayIncludedIffBitSet(mask: bv32, day: DayOfWeek)
    ensures IsDayIncluded(mask, day) <==> (mask >> day) & 1 == 1
  {
    if day == 0 {
    } else if day == 1 {
    } else if day == 2 {
    } else if day == 3 {
    } else if day == 4 {
    } else if day == 5 {
    } else {
    }
  }

  /** The default mask 127 includes every day; mask 0 includes none. */
  lemma AllDaysIncludesEveryDay(day: DayOfWeek)
    ensures IsDayIncluded(AllDays, day)
    ensures !IsDayIncluded(0, day)
  {
    DayIncludedIffBitSet(AllDays, day);
    DayIncludedIffBitSet(0, day);
  }

  /**
    * Independent reading of a window: going forward round the clock from
    * `start`, `t` is reached no later than `end`. This covers both the
    * same-day window and the one that wraps past midnight.
    */
  lemma TimeWithinIsCircularInterval(start: TimeOfDay, end: TimeOfDay, t: TimeOfDay)
    ensures IsTimeWithin(start, end, t)
        <==> (t - start) % SecondsPerDay <= (end - start) % SecondsPerDay
  {
  }

  /** A same-day window is inclusive at both ends. */
  lemma SameDayWindowInclusive(start: TimeOfDay, end: TimeOfDay)
    requires start <= end
    ensures IsTimeWithin(start, end, start) && IsTimeWithin(start, end, end)
    ensures forall t: TimeOfDay :: t < start || t > end ==> !IsTimeWithin(start, end, t)
  {
  }

  // ---------------------------------------------------------------------
  // The engine's rule order
  // ---------------------------------------------------------------------

  /** Rules of priority `p`, in order. */
  function WithPriority(s: seq<MealRule>, p: int): seq<MealRule> {
    Sorting.WithKey(s, PriorityKey, -p)
  }

  /** Equal priorities keep the input order (LINQ's ordering is stable). */
  lemma {:induction false} EngineOrderIsStable(rules: seq<MealRule>, p: int)
    ensures WithPriority(BuildEngine(rules).rules, p) == WithPriority(ActiveOnly(rules), p)
  {
    EngineKeepsKeyOrder(rules, -p);
  }

  lemma {:induction false} EngineKeepsKeyOrder(rules: seq<MealRule>, k: int)
    ensures Sorting.WithKey(BuildEngine(rules).rules, PriorityKey, k) == Sorting.WithKey(ActiveOnly(rules), PriorityKey, k)
  {
    assert BuildEngine(rules).rules == Sorting.SortByKey(ActiveOnly(rules), PriorityKey);
    Sorting.SortIsStable(ActiveOnly(rules), PriorityKey, k);
  }

  /**
    * The order is fully determined: any arrangement of the active rules that
    * is sorted by descending priority and keeps each priority's rules in
    * input order is exactly the engine's.
    */
  lemma EngineOrderIsUnique(rules: seq<MealRule>, other: seq<MealRule>)
    requires forall i, j :: 0 <= i < j < |other| ==> other[i].priority >= other[j].priority
    requires forall p :: WithPriority(other, p) == WithPriority(ActiveOnly(rules), p)
    ensures other == BuildEngine(rules).rules
  {
    forall k ensures Sorting.WithKey(other, PriorityKey, k) == Sorting.WithKey(ActiveOnly(rules), PriorityKey, k) {
      assert WithPriority(other, -k) == WithPriority(ActiveOnly(rules), -k);
    }
    Sorting.StableSortCharacterised(ActiveOnly(rules), other, PriorityKey);
  }

  lemma ActiveOnlyAppend(a: seq<MealRule>, b: seq<MealRule>)
    ensures ActiveOnly(a + b) == ActiveOnly(a) + ActiveOnly(b)
  {
    if |a| > 0 {
      assert (a + b)[0] == a[0];
      assert (a + b)[1..] == a[1..] + b;
      ActiveOnlyAppend(a[1..], b);
      var h := if a[0].isActive then [a[0]] else [];
      assert ActiveOnly(a + b) == h + ActiveOnly(a[1..] + b);
      assert ActiveOnly(a) == h + ActiveOnly(a[1..]);
      assert h + (ActiveOnly(a[1..]) + ActiveOnly(b)) == (h + ActiveOnly(a[1..])) + ActiveOnly(b);
    } else {
      assert a + b == b;
    }
  }

  lemma ActiveOnlyIdempotent(rules: seq<MealRule>)
    ensures ActiveOnly(ActiveOnly(rules)) == ActiveOnly(rules)
  {
    if |rules| > 0 {
      ActiveOnlyAppend(if rules[0].isActive then [rules[0]] else [], ActiveOnly(rules[1..]));
    }
  }

  /** Building from an already filtered list (as the engine factory does) changes nothing. */
  lemma PrefilteredRulesBuildSameEngine(rules: seq<MealRule>)
    ensures BuildEngine(ActiveOnly(rules)) == BuildEngine(rules)
  {
    ActiveOnlyIdempotent(rules);
  }

  /** Adding or removing an inactive rule anywhere leaves the engine unchanged. */
  lemma InactiveRuleIsIgnored(before: seq<MealRule>, x: MealRule, after: seq<MealRule>, lt: LocalTime)
    requires !x.isActive
    ensures BuildEngine(before + [x] + after) == BuildEngine(before + after)
    ensures ResolveMealType(BuildEngine(before + [x] + after), lt) == ResolveMealType(BuildEngine(before + after), lt)
  {
    ActiveOnlyAppend(before + [x], after);
    ActiveOnlyAppend(before, [x]);
    ActiveOnlyAppend(before, after);
    assert ActiveOnly([x]) == [];
    assert ActiveOnly(before + [x]) == ActiveOnly(before);
    var act := ActiveOnly(before + after);
    assert ActiveOnly(before + [x] + after) == act;
    assert BuildEngine(before + [x] + after).rules == Sorting.SortByKey(act, PriorityKey);
    assert BuildEngine(before + after).rules == Sorting.SortByKey(act, PriorityKey);
  }

  // ---------------------------------------------------------------------
  // What resolution computes, stated on the input rule list
  // ---------------------------------------------------------------------

  /**
    * Rule `i` decides the classification: it applies, no applying rule has a
    * higher priority, and every applying rule before it has a lower one.
    */
  ghost predicate IsWinner(rules: seq<MealRule>, lt: LocalTime, i: int) {
    && 0 <= i < |rules|
    && Applies(rules[i], lt)
    && (forall j :: 0 <= j < |rules| && Applies(rules[j], lt) ==> rules[j].priority <= rules[i].priority)
    && (forall j :: 0 <= j < i && Applies(rules[j], lt) ==> rules[j].priority < rules[i].priority)
  }

  lemma WinnerIsUnique(rules: seq<MealRule>, lt: LocalTime, i: int, k: int)
    requires IsWinner(rules, lt, i) && IsWinner(rules, lt, k)
    ensures i == k
  {
  }

  /** First match after inserting `x` into a priority-sorted list. */
  lemma {:induction false} FirstMatchInsert(x: MealRule, s: seq<MealRule>, lt: LocalTime)
    requires Sorting.SortedByKey(s, PriorityKey)
    ensures var m := FirstMatch(s, lt);
      FirstMatch(Sorting.Insert(x, s, PriorityKey), lt)
        == if Matches(x, lt) && (m.None? || m.value.priority <= x.priority) then Some(x) else m
  {
    if |s| == 0 || PriorityKey(x) <= PriorityKey(s[0]) {
      var r := [x] + s;
      assert r[1..] == s;
      if !Matches(x, lt) {
        match FirstMatchIndex(s, lt)
        case None =>
        case Some(k) => assert r[k + 1] == s[k];
      } else {
        match FirstMatchIndex(s, lt)
        case None =>
        case Some(k) => assert s[k].priority <= s[0].priority;
      }
    } else {
      var rest := Sorting.Insert(x, s[1..], PriorityKey);
      assert Sorting.Insert(x, s, PriorityKey) == [s[0]] + rest;
      assert ([s[0]] + rest)[1..] == rest;
      FirstMatchInsert(x, s[1..], lt);
      if !Matches(s[0], lt) {
        match FirstMatchIndex(rest, lt)
        case None =>
        case Some(k) => assert ([s[0]] + rest)[k + 1] == rest[k];
        match FirstMatchIndex(s[1..], lt)
        case None =>
        case Some(k) => assert s[k + 1] == s[1..][k];
      }
    }
  }

  lemma BuildEngineCons(x: MealRule, rest: seq<MealRule>)
    ensures BuildEngine([x] + rest).rules
         == if x.isActive then Sorting.Insert(x, BuildEngine(rest).rules, PriorityKey)
            else BuildEngine(rest).rules
  {
    assert ([x] + rest)[1..] == rest;
    var act := ActiveOnly(rest);
    if x.isActive {
      assert ActiveOnly([x] + rest) == [x] + act;
      assert ([x] + act)[1..] == act;
    } else {
      assert ActiveOnly([x] + rest) == act;
    }
  }

  /** The head rule wins when it applies and nothing later outranks it. */
  lemma HeadIsWinner(rules: seq<MealRule>, lt: LocalTime)
    requires |rules| > 0 && Applies(rules[0], lt)
    requires forall j :: 1 <= j < |rules| && Applies(rules[j], lt) ==> rules[j].priority <= rules[0].priority
    ensures IsWinner(rules, lt, 0)
  {
  }

  /** An applying head that ties or outranks the tail's winner wins. */
  lemma HeadBeatsTailWinner(rules: seq<MealRule>, lt: LocalTime, i: int)
    requires |rules| > 0 && Applies(rules[0], lt) && IsWinner(rules[1..], lt, i)
    requires rules[1..][i].priority <= rules[0].priority
    ensures IsWinner(rules, lt, 0)
  {
    var rest := rules[1..];
    forall j | 1 <= j < |rules| && Applies(rules[j], lt) ensures rules[j].priority <= rules[0].priority {
      assert rest[j - 1] == rules[j];
    }
    HeadIsWinner(rules, lt);
  }

  /** A winner of the tail stays the winner when the head does not outrank or tie it. */
  lemma TailWinnerShifts(rules: seq<MealRule>, lt: LocalTime, i: int)
    requires |rules| > 0 && IsWinner(rules[1..], lt, i)
    requires Applies(rules[0], lt) ==> rules[0].priority < rules[1..][i].priority
    ensures IsWinner(rules, lt, i + 1)
  {
    var rest := rules[1..];
    forall j | 0 <= j < |rules| && Applies(rules[j], lt)
      ensures rules[j].priority <= rules[i + 1].priority
      ensures j < i + 1 ==> rules[j].priority < rules[i + 1].priority
    {
      if j > 0 {
        assert rest[j - 1] == rules[j];
      }
    }
  }

  /** Nothing applies to the whole list when nothing applies to head and tail. */
  lemma NothingAppliesCons(rules: seq<MealRule>, lt: LocalTime)
    requires |rules| > 0
    ensures (forall j :: 0 <= j < |rules| ==> !Applies(rules[j], lt))
        <==> !Applies(rules[0], lt) && forall j :: 0 <= j < |rules[1..]| ==> !Applies(rules[1..][j], lt)
  {
    if !Applies(rules[0], lt) && forall j :: 0 <= j < |rules[1..]| ==> !Applies(rules[1..][j], lt) {
      forall j | 0 <= j < |rules| ensures !Applies(rules[j], lt) {
        if j > 0 {
          assert rules[1..][j - 1] == rules[j];
        }
      }
    }
  }

  /**
    * Resolution picks the winner among the input rules: no result exactly
    * when no active rule matches, and otherwise the rule at the one index
    * that `IsWinner` singles out.
    */
  lemma {:induction false} FirstMatchIsWinner(rules: seq<MealRule>, lt: LocalTime)
    ensures FirstMatch(BuildEngine(rules).rules, lt).None?
        <==> forall j :: 0 <= j < |rules| ==> !Applies(rules[j], lt)
    ensures FirstMatch(BuildEngine(rules).rules, lt).Some? ==>
        exists i :: IsWinner(rules, lt, i) && rules[i] == FirstMatch(BuildEngine(rules).rules, lt).value
  {
    if |rules| == 0 {
      return;
    }
    var m := FirstMatch(BuildEngine(rules).rules, lt);
    var x, rest := rules[0], rules[1..];
    assert rules == [x] + rest;
    FirstMatchIsWinner(rest, lt);
    NothingAppliesCons(rules, lt);
    var mr := FirstMatch(BuildEngine(rest).rules, lt);
    assert m == if Applies(x, lt) && (mr.None? || mr.value.priority <= x.priority) then Some(x) else mr by {
      BuildEngineCons(x, rest);
      if x.isActive {
        FirstMatchInsert(x, BuildEngine(rest).rules, lt);
      }
    }
    if mr.Some? {
      var i :| IsWinner(rest, lt, i) && rest[i] == mr.value;
      if Applies(x, lt) && mr.value.priority <= x.priority {
        HeadBeatsTailWinner(rules, lt, i);
      } else {
        TailWinnerShifts(rules, lt, i);
      }
    } else if Applies(x, lt) {
      HeadIsWinner(rules, lt);
    }
  }

  /** If rule `i` is the winner, the engine classifies `lt` with its meal type. */
  lemma ResolveReturnsWinner(rules: seq<MealRule>, lt: LocalTime, i: int)
    requires IsWinner(rules, lt, i)
    ensures ResolveMealType(BuildEngine(rules), lt) == rules[i].mealType
  {
    FirstMatchIsWinner(rules, lt);
    var k :| IsWinner(rules, lt, k) && rules[k] == FirstMatch(BuildEngine(rules).rules, lt).value;
    WinnerIsUnique(rules, lt, i, k);
  }

  /** With no active rule matching, classification is `Unknown` (it never fails). */
  lemma ResolveUnknownWhenNothingApplies(rules: seq<MealRule>, lt: LocalTime)
    requires forall j :: 0 <= j < |rules| ==> !Applies(rules[j], lt)
    ensures ResolveMealType(BuildEngine(rules), lt) == Unknown
  {
    FirstMatchIsWinner(rules, lt);
  }

  /** A rule whose weekday bit is clear never decides a classification. */
  lemma ClearedDayNeverWins(rules: seq<MealRule>, lt: LocalTime, i: int)
    requires 0 <= i < |rules| && !IsDayIncluded(rules[i].daysOfWeekMask, lt.day)
    ensures !IsWinner(rules, lt, i)
  {
  }

  /**
    * Of two applying rules with different priorities, the higher one's meal
    * type is returned whichever comes first in the input.
    */
  lemma HigherPriorityWinsInEitherOrder(a: MealRule, b: MealRule, lt: LocalTime)
    requires Applies(a, lt) && Applies(b, lt) && a.priority > b.priority
    ensures ResolveMealType(BuildEngine([a, b]), lt) == a.mealType
    ensures ResolveMealType(BuildEngine([b, a]), lt) == a.mealType
  {
    assert IsWinner([a, b], lt, 0);
    ResolveReturnsWinner([a, b], lt, 0);
    assert IsWinner([b, a], lt, 1);
    ResolveReturnsWinner([b, a], lt, 1);
  }
}

=== FILE: meal_rules_admin.dfy ===
/**
  * Meal-rule administration: `MealRulesController` (list, edit, delete) and
  * the `PUT`/`DELETE /api/v1/mealrules/{id}` endpoints. The recalculation
  * both offer is `Ingestion.Recalculate`.
  */
module MealRulesAdmin {
  import opened Wrappers
  import opened Strings
  import opened Sorting
  import opened MealRules
  import opened Seqs

  /** No two rules share an id (the primary key). */
  ghost predicate UniqueRuleIds(rules: seq<MealRule>) {
    forall i, j :: 0 <= i < j < |rules| ==> rules[i].id != rules[j].id
  }

  /** Position of the rule with primary key `id` (`FindAsync`). */
  function FindRule(rules: seq<MealRule>, id: int): (r: Option<nat>)
    ensures r.Some? ==> r.value < |rules| && rules[r.value].id == id
    ensures r.None? <==> forall i :: 0 <= i < |rules| ==> rules[i].id != id
  {
    FirstWhere(rules, (x: MealRule) => x.id == id)
  }

  /** The `[Required, MaxLength(100)]` annotation on `Name`. */
  predicate ValidRule(r: MealRule) {
    !IsBlank(r.name) && |r.name| <= 100
  }

  /** The seven editable fields of `form` over `existing`: everything but the id comes from the form. */
  function EditedRule(existing: MealRule, form: MealRule): (r: MealRule)
    ensures r == form.(id := existing.id)
  {
    MealRule(existing.id, form.name, form.mealType, form.start, form.end, form.daysOfWeekMask, form.priority, form.isActive)
  }

  datatype RuleResult = RuleRedirect | RuleInvalid | RuleNotFound

  datatype RuleReply = RuleReply(result: RuleResult, rules: seq<MealRule>)

  /** `Edit(Guid, MealRule)`: 404 for an unknown id, the form again when invalid, otherwise the fields are copied. */
  function Edit(rules: seq<MealRule>, id: int, form: MealRule): (r: RuleReply)
    ensures r.result.RuleNotFound? <==> FindRule(rules, id).None?
    ensures r.result.RuleInvalid? <==> FindRule(rules, id).Some? && !ValidRule(form)
    ensures !r.result.RuleRedirect? ==> r.rules == rules
    ensures r.result.RuleRedirect? ==>
      var k := FindRule(rules, id).value;
      && |r.rules| == |rules|
      && r.rules[k] == form.(id := id)
      && forall i :: 0 <= i < |rules| && i != k ==> r.rules[i] == rules[i]
  {
    match FindRule(rules, id)
    case None => RuleReply(RuleNotFound, rules)
    case Some(k) =>
      if !ValidRule(form) then RuleReply(RuleInvalid, rules)
      else RuleReply(RuleRedirect, rules[k := EditedRule(rules[k], form)])
  }

  /** `Delete(Guid)`: removes the rule with that id; an unknown id changes nothing. */
  function Delete(rules: seq<MealRule>, id: int): (r: seq<MealRule>)
    ensures FindRule(rules, id).None? ==> r == rules
    ensures FindRule(rules, id).Some? ==> r == RemoveAt(rules, FindRule(rules, id).value)
  {
    match FindRule(rules, id)
    case None => rules
    case Some(k) => RemoveAt(rules, k)
  }

  /**
    * `Index()`: all rules, active or not, by non-increasing priority. The
    * database leaves the order of equal priorities open; this model keeps
    * their table order.
    */
  function Index(rules: seq<MealRule>): (r: seq<MealRule>)
    ensures multiset(r) == multiset(rules)
    ensures forall i, j :: 0 <= i < j < |r| ==> r[i].priority >= r[j].priority
  {
    SortByKey(rules, PriorityKey)
  }

  datatype ApiRuleResult = RuleOk(rule: MealRule) | RuleNoContent | ApiRuleNotFound

  /** `PUT /api/v1/mealrules/{id}`: as the form's `Edit`, without the annotation check. */
  function ApiUpdate(rules: seq<MealRule>, id: int, form: MealRule): (r: (ApiRuleResult, seq<MealRule>))
    ensures r.0.ApiRuleNotFound? <==> FindRule(rules, id).None?
    ensures r.0.ApiRuleNotFound? ==> r.1 == rules
    ensures r.0.RuleOk? ==>
      var k := FindRule(rules, id).value;
      r.0.rule == form.(id := id) && r.1 == rules[k := form.(id := id)]
    ensures !r.0.RuleNoContent?
  {
    match FindRule(rules, id)
    case None => (ApiRuleNotFound, rules)
    case Some(k) => (RuleOk(EditedRule(rules[k], form)), rules[k := EditedRule(rules[k], form)])
  }

  /** `DELETE /api/v1/mealrules/{id}`: 404 for an unknown id, otherwise the rule is removed. */
  function ApiDelete(rules: seq<MealRule>, id: int): (r: (ApiRuleResult, seq<MealRule>))
    ensures r.0.ApiRuleNotFound? <==> FindRule(rules, id).None?
    ensures r.0.ApiRuleNotFound? ==> r.1 == rules
    ensures r.0.RuleNoContent? ==> r.1 == RemoveAt(rules, FindRule(rules, id).value)
    ensures !r.0.RuleOk?
  {
    match FindRule(rules, id)
    case None => (ApiRuleNotFound, rules)
    case Some(k) => (RuleNoContent, RemoveAt(rules, k))
  }

  /** Editing and deleting keep the primary key unique. */
  lemma EditAndDeleteKeepIdsUnique(rules: seq<MealRule>, id: int, form: MealRule)
    requires UniqueRuleIds(rules)
    ensures UniqueRuleIds(Edit(rules, id, form).rules)
    ensures UniqueRuleIds(Delete(rules, id))
    ensures UniqueRuleIds(ApiUpdate(rules, id, form).1)
    ensures UniqueRuleIds(ApiDelete(rules, id).1)
  {
    if FindRule(rules, id).Some? {
      var k := FindRule(rules, id).value;
      var r := RemoveAt(rules, k);
      forall i, j | 0 <= i < j < |r| ensures r[i].id != r[j].id {
        var i' := if i < k then i else i + 1;
        var j' := if j < k then j else j + 1;
        assert r[i] == rules[i'] && r[j] == rules[j'] && i' < j';
      }
    }
  }

  /** With unique ids, deleting removes exactly the rule with that id and keeps the others in order. */
  lemma DeleteRemovesExactlyThatRule(rules: seq<MealRule>, id: int)
    requires UniqueRuleIds(rules)
    ensures forall x :: x in Delete(rules, id) <==> x in rules && x.id != id
  {
    if FindRule(rules, id).Some? {
      var k := FindRule(rules, id).value;
      var r := RemoveAt(rules, k);
      forall x ensures x in r <==> x in rules && x.id != id {
        if x in r {
          var i :| 0 <= i < |r| && r[i] == x;
          var i' := if i < k then i else i + 1;
          assert rules[i'] == x && i' != k;
          if i' < k { assert rules[i'].id != rules[k].id; } else { assert rules[k].id != rules[i'].id; }
        }
        if x in rules && x.id != id {
          var i :| 0 <= i < |rules| && rules[i] == x;
          assert i != k;
          if i < k { assert r[i] == x; } else { assert r[i - 1] == x; }
        }
      }
    }
  }

  /** A successful edit replaces the rule in place: the list is spliced around it. */
  lemma EditSplices(rules: seq<MealRule>, id: int, form: MealRule)
    requires Edit(rules, id, form).result.RuleRedirect?
    ensures var k := FindRule(rules, id).value;
      Edit(rules, id, form).rules == rules[..k] + [form.(id := id)] + rules[k + 1..]
  {
    var k := FindRule(rules, id).value;
    var edited := Edit(rules, id, form).rules;
    var spliced := rules[..k] + [form.(id := id)] + rules[k + 1..];
    assert |edited| == |spliced|;
    forall i | 0 <= i < |edited| ensures edited[i] == spliced[i] {
      if i < k { assert spliced[i] == rules[i]; }
      else if i > k { assert spliced[i] == rules[i]; }
    }
  }

  /** Switching a rule off in the editor removes it from classification. */
  lemma DeactivatedRuleNoLongerApplies(rules: seq<MealRule>, id: int, form: MealRule, lt: LocalTime)
    requires !form.isActive
    requires Edit(rules, id, form).result.RuleRedirect?
    ensures var k := FindRule(rules, id).value;
      ResolveMealType(BuildEngine(Edit(rules, id, form).rules), lt)
        == ResolveMealType(BuildEngine(rules[..k] + rules[k + 1..]), lt)
  {
    var k := FindRule(rules, id).value;
    EditSplices(rules, id, form);
    InactiveRuleIsIgnored(rules[..k], form.(id := id), rules[k + 1..], lt);
  }
}

=== FILE: reader_client.dfy ===
/**
  * The reader client (src/CanteenRFID.ReaderClient/Program.cs): the two UID
  * sources, the durable JSON-lines queue with its flush pass, the guarded
  * flush trigger, and the capture step that sends a scan or queues it.
  *
  * The queue file is its list of lines; JSON (de)serialisation, the HTTP
  * sender and the clock are parameters: `parse` is `None` for a line that
  * is malformed or deserialises to null, `send` says whether a POST
  * succeeded, `now` is `DateTime.UtcNow`.
  */
module ReaderClient {
  import opened Wrappers
  import opened Strings

  /** `StampRequest` as the client builds and queues it. */
  datatype StampRecord = StampRecord(
    uid: string,
    readerId: string,
    timestampUtc: Option<int>,
    meta: map<string, string>)

  /** The queue file: `None` when it does not exist, otherwise its lines. */
  type QueueFile = Option<seq<string>>

  // ---------------------------------------------------------------------
  // Durable queue
  // ---------------------------------------------------------------------

  /** `EnqueueAsync`: appends the serialised record as one line, creating the file if needed. */
  function Enqueue(file: QueueFile, line: string): (r: QueueFile)
    ensures r.Some?
    ensures |r.value| == |file.GetOr([])| + 1
    ensures r.value[..|file.GetOr([])|] == file.GetOr([])
    ensures r.value[|file.GetOr([])|] == line
  {
    Some(file.GetOr([]) + [line])
  }

  /** A line leaves the queue when it parses to a record and the sender accepts that record. */
  predicate Delivered(line: string, parse: string -> Option<StampRecord>, send: StampRecord -> bool) {
    parse(line).Some? && send(parse(line).value)
  }

  /** What one line contributes to the rewritten file. */
  function KeptLine(line: string, parse: string -> Option<StampRecord>, send: StampRecord -> bool): seq<string> {
    if Delivered(line, parse, send) then [] else [line]
  }

  /** What one line contributes to the records offered to the sender. */
  function ParsedLine(line: string, parse: string -> Option<StampRecord>): seq<StampRecord> {
    if parse(line).Some? then [parse(line).value] else []
  }

  /** Reference filter: the lines that are not delivered, verbatim and in order. */
  function Retained(lines: seq<string>, parse: string -> Option<StampRecord>, send: StampRecord -> bool): seq<string> {
    if |lines| == 0 then [] else KeptLine(lines[0], parse, send) + Retained(lines[1..], parse, send)
  }

  /** The records a flush pass hands to the sender, in file order. */
  function Parsed(lines: seq<string>, parse: string -> Option<StampRecord>): seq<StampRecord> {
    if |lines| == 0 then [] else ParsedLine(lines[0], parse) + Parsed(lines[1..], parse)
  }

  lemma {:induction false} RetainedAppend(a: seq<string>, b: seq<string>, parse: string -> Option<StampRecord>, send: StampRecord -> bool)
    ensures Retained(a + b, parse, send) == Retained(a, parse, send) + Retained(b, parse, send)
  {
    if |a| == 0 {
      assert a + b == b;
    } else {
      assert (a + b)[1..] == a[1..] + b;
      RetainedAppend(a[1..], b, parse, send);
    }
  }

  lemma {:induction false} ParsedAppend(a: seq<string>, b: seq<string>, parse: string -> Option<StampRecord>)
    ensures Parsed(a + b, parse) == Parsed(a, parse) + Parsed(b, parse)
  {
    if |a| == 0 {
      assert a + b == b;
    } else {
      var ab := a + b;
      assert ab[0] == a[0];
      assert ab[1..] == a[1..] + b;
      ParsedAppend(a[1..], b, parse);
      var h := ParsedLine(a[0], parse);
      assert Parsed(ab, parse) == h + (Parsed(a[1..], parse) + Parsed(b, parse));
      assert h + (Parsed(a[1..], parse) + Parsed(b, parse)) == (h + Parsed(a[1..], parse)) + Parsed(b, parse);
    }
  }

  /**
    * `FlushAsync`: a missing file is left alone and nothing is sent;
    * otherwise every line is parsed in order, each parsed record is offered
    * to the sender, and the file is rewritten with the lines that were not
    * delivered.
    */
  method FlushQueue(file: QueueFile, parse: string -> Option<StampRecord>, send: StampRecord -> bool)
    returns (rewritten: QueueFile, attempted: seq<StampRecord>)
    ensures file.None? ==> rewritten.None? && attempted == []
    ensures file.Some? ==> rewritten == Some(Retained(file.value, parse, send))
    ensures file.Some? ==> attempted == Parsed(file.value, parse)
  {
    if file.None? {
      return None, [];
    }
    var lines := file.value;
    var remaining: seq<string> := [];
    attempted := [];
    var i := 0;
    while i < |lines|
      invariant 0 <= i <= |lines|
      invariant remaining == Retained(lines[..i], parse, send)
      invariant attempted == Parsed(lines[..i], parse)
    {
      var line := lines[i];
      var stamp := parse(line);
      var delivered := false;
      if stamp.Some? {
        attempted := attempted + [stamp.value];
        delivered := send(stamp.value);
      }
      if !delivered {
        remaining := remaining + [line];
      }
      assert lines[..i + 1] == lines[..i] + [line];
      RetainedAppend(lines[..i], [line], parse, send);
      ParsedAppend(lines[..i], [line], parse);
      i := i + 1;
    }
    assert lines[..|lines|] == lines;
    return Some(remaining), attempted;
  }

  /** The outcome of a flush pass as a value, for the client state machine below. */
  function Flush(file: QueueFile, parse: string -> Option<StampRecord>, send: StampRecord -> bool): (QueueFile, seq<StampRecord>) {
    if file.None? then (None, [])
    else (Some(Retained(file.value, parse, send)), Parsed(file.value, parse))
  }

  /** A line survives a flush exactly when it was in the queue and was not delivered. */
  lemma {:induction false} RetainedMembership(lines: seq<string>, parse: string -> Option<StampRecord>, send: StampRecord -> bool, x: string)
    ensures x in Retained(lines, parse, send) <==> x in lines && !Delivered(x, parse, send)
  {
    if |lines| > 0 {
      RetainedMembership(lines[1..], parse, send, x);
      assert lines == [lines[0]] + lines[1..];
    }
  }

  /** Every line is either kept or delivered: the flush loses nothing else. */
  lemma {:induction false} RetainedCount(lines: seq<string>, parse: string -> Option<StampRecord>, send: StampRecord -> bool)
    ensures |Retained(lines, parse, send)| <= |lines|
    ensures |Retained(lines, parse, send)| == |lines| <==> forall i :: 0 <= i < |lines| ==> !Delivered(lines[i], parse, send)
  {
    if |lines| > 0 {
      RetainedCount(lines[1..], parse, send);
      if forall i :: 0 <= i < |lines[1..]| ==> !Delivered(lines[1..][i], parse, send) {
        if !Delivered(lines[0], parse, send) {
          forall i | 0 <= i < |lines| ensures !Delivered(lines[i], parse, send) {
            if i > 0 {
              assert lines[i] == lines[1..][i - 1];
            }
          }
        }
      } else {
        var i :| 0 <= i < |lines[1..]| && Delivered(lines[1..][i], parse, send);
        assert lines[i + 1] == lines[1..][i];
      }
    }
  }

  /** A line that does not parse is never sent and never dropped. */
  lemma MalformedLinesSurvive(lines: seq<string>, parse: string -> Option<StampRecord>, send: StampRecord -> bool, x: string)
    requires x in lines && parse(x).None?
    ensures x in Retained(lines, parse, send)
  {
    RetainedMembership(lines, parse, send, x);
  }

  /** Against an unreachable server the queue is rewritten unchanged: same lines, same order. */
  lemma {:induction false} UnreachableServerKeepsQueue(lines: seq<string>, parse: string -> Option<StampRecord>, send: StampRecord -> bool)
    requires forall r :: !send(r)
    ensures Retained(lines, parse, send) == lines
  {
    if |lines| > 0 {
      UnreachableServerKeepsQueue(lines[1..], parse, send);
      assert lines == [lines[0]] + lines[1..];
    }
  }

  /** A queued record that round-trips through JSON is removed once the server accepts it. */
  lemma EnqueuedRecordIsDeliveredByFlush(lines: seq<string>, r: StampRecord, serialize: StampRecord -> string,
                                         parse: string -> Option<StampRecord>, send: StampRecord -> bool)
    requires parse(serialize(r)) == Some(r) && send(r)
    ensures Retained(Enqueue(Some(lines), serialize(r)).value, parse, send) == Retained(lines, parse, send)
    ensures Parsed(Enqueue(Some(lines), serialize(r)).value, parse) == Parsed(lines, parse) + [r]
  {
    RetainedAppend(lines, [serialize(r)], parse, send);
    ParsedAppend(lines, [serialize(r)], parse);
    assert Enqueue(Some(lines), serialize(r)).value == lines + [serialize(r)];
  }

  /** A malformed line followed by a deliverable one: only the malformed line remains. */
  lemma MalformedAndValidLine(bad: string, good: string, r: StampRecord,
                              parse: string -> Option<StampRecord>, send: StampRecord -> bool)
    requires parse(bad).None? && parse(good) == Some(r) && send(r)
    ensures Retained([bad, good], parse, send) == [bad]
    ensures Parsed([bad, good], parse) == [r]
  {
    assert [bad, good][1..] == [good];
    assert [good][1..] == [];
    assert Retained([good], parse, send) == [];
    assert Parsed([good], parse) == [r];
  }

  // ---------------------------------------------------------------------
  // UID sources
  // ---------------------------------------------------------------------

  /** `KeyboardWedgeSource`: strip the terminator once if the line ends with it. */
  function StripTerminator(line: string, terminator: string): (r: string)
    ensures EndsWith(line, terminator) ==> r + terminator == line
    ensures !EndsWith(line, terminator) ==> r == line
  {
    if EndsWith(line, terminator) then DropSuffix(line, terminator) else line
  }

  /** The UIDs the wedge source yields for the console lines read before end of input. */
  function WedgeUids(lines: seq<string>, terminator: string): (uids: seq<string>)
    ensures |uids| == |lines|
    ensures forall i :: 0 <= i < |lines| ==> uids[i] == StripTerminator(lines[i], terminator)
  {
    seq(|lines|, i requires 0 <= i < |lines| => StripTerminator(lines[i], terminator))
  }

  /** A scanned UID followed by the terminator comes back as the UID. */
  lemma StripAppendedTerminator(uid: string, terminator: string)
    ensures StripTerminator(uid + terminator, terminator) == uid
  {
    DropAppendedSuffix(uid, terminator);
  }

  /** The default empty terminator leaves every line unchanged. */
  lemma EmptyTerminatorIsIdentity(lines: seq<string>)
    ensures WedgeUids(lines, "") == lines
  {
    forall i | 0 <= i < |lines| ensures StripTerminator(lines[i], "") == lines[i] {
      assert lines[i][|lines[i]|..] == "";
    }
  }

  /** `GlobalKeyboardSource`'s terminator: carriage return when none is configured. */
  function HookTerminator(configured: Option<string>): (t: string)
    ensures |t| > 0
    ensures configured.Some? && configured.value != "" ==> t == configured.value
  {
    if configured.None? || configured.value == "" then "\r" else configured.value
  }

  /** The hook's key buffer. */
  datatype HookState = HookState(buffer: string)

  /**
    * `HookCallback` for one key-down: `key` is the translated text (`None`
    * when the key has none). When the buffer then ends with the terminator
    * it is cleared, and its text without the terminator is emitted unless
    * it is white space.
    */
  function OnKey(st: HookState, terminator: string, key: Option<string>): (r: (HookState, Option<string>))
    requires |terminator| > 0
    ensures key.None? ==> r == (st, None)
    ensures key.Some? && EndsWith(st.buffer + key.value, terminator) ==>
      && r.0.buffer == []
      && (r.1.Some? <==> !IsBlank(DropSuffix(st.buffer + key.value, terminator)))
      && (r.1.Some? ==> r.1.value + terminator == st.buffer + key.value)
    ensures key.Some? && !EndsWith(st.buffer + key.value, terminator) ==>
      r.0.buffer == st.buffer + key.value && r.1.None?
    ensures key.Some? || !EndsWith(st.buffer, terminator) ==> !EndsWith(r.0.buffer, terminator)
  {
    match key
    case None => (st, None)
    case Some(text) =>
      var value := st.buffer + text;
      if EndsWith(value, terminator) then
        var trimmed := DropSuffix(value, terminator);
        (HookState([]), if IsBlank(trimmed) then None else Some(trimmed))
      else (HookState(value), None)
  }

  /** A run of key-downs: the final buffer and the UIDs emitted, in order. */
  function Feed(st: HookState, terminator: string, keys: seq<Option<string>>): (HookState, seq<string>)
    requires |terminator| > 0
    decreases |keys|
  {
    if |keys| == 0 then (st, [])
    else
      var (st1, out) := OnKey(st, terminator, keys[0]);
      var (st2, outs) := Feed(st1, terminator, keys[1..]);
      (st2, (if out.Some? then [out.value] else []) + outs)
  }

  /** One key-down per character of `s`. */
  function Keys(s: string): seq<Option<string>> {
    seq(|s|, i requires 0 <= i < |s| => Some([s[i]]))
  }

  lemma {:induction false} FeedUntilTerminator(buf: string, s: string, terminator: string)
    requires |terminator| > 0 && |s| > 0
    requires forall m :: 1 <= m < |s| ==> !EndsWith(buf + s[..m], terminator)
    requires EndsWith(buf + s, terminator)
    ensures var text := DropSuffix(buf + s, terminator);
      Feed(HookState(buf), terminator, Keys(s)) == (HookState([]), if IsBlank(text) then [] else [text])
    decreases |s|
  {
    var ks := Keys(s);
    assert [s[0]] == s[..1];
    assert ks[0] == Some(s[..1]);
    if |s| == 1 {
      assert s[..1] == s;
      assert ks[1..] == [];
      var text := DropSuffix(buf + s, terminator);
      var out: Option<string> := if IsBlank(text) then None else Some(text);
      assert OnKey(HookState(buf), terminator, ks[0]) == (HookState([]), out);
      assert Feed(HookState([]), terminator, ks[1..]) == (HookState([]), []);
      assert Feed(HookState(buf), terminator, ks) == (HookState([]), (if out.Some? then [out.value] else []) + []);
      assert (if out.Some? then [out.value] else []) + [] == if IsBlank(text) then [] else [text];
    } else {
      assert !EndsWith(buf + s[..1], terminator);
      var buf' := buf + s[..1];
      assert ks[1..] == Keys(s[1..]);
      forall m | 1 <= m < |s[1..]| ensures !EndsWith(buf' + s[1..][..m], terminator) {
        assert buf' + s[1..][..m] == buf + s[..m + 1];
      }
      assert buf' + s[1..] == buf + s;
      FeedUntilTerminator(buf', s[1..], terminator);
      assert OnKey(HookState(buf), terminator, ks[0]) == (HookState(buf'), None);
      var rest := Feed(HookState(buf'), terminator, ks[1..]);
      assert Feed(HookState(buf), terminator, ks) == (rest.0, [] + rest.1);
      assert [] + rest.1 == rest.1;
    }
  }

  /**
    * Typing a non-blank UID and then the terminator, starting from an empty
    * buffer, emits exactly that UID and leaves the buffer empty, provided
    * the terminator does not already occur earlier in what was typed.
    */
  lemma ScanEmitsUid(uid: string, terminator: string)
    requires |terminator| > 0 && !IsBlank(uid)
    requires forall m :: 1 <= m < |uid + terminator| ==> !EndsWith((uid + terminator)[..m], terminator)
    ensures Feed(HookState([]), terminator, Keys(uid + terminator)) == (HookState([]), [uid])
  {
    var w := uid + terminator;
    assert [] + w == w;
    forall m | 1 <= m < |w| ensures !EndsWith([] + w[..m], terminator) {
      assert [] + w[..m] == w[..m];
    }
    DropAppendedSuffix(uid, terminator);
    FeedUntilTerminator([], w, terminator);
  }

  // ---------------------------------------------------------------------
  // Client state: the flush guard and the three loops' steps
  // ---------------------------------------------------------------------

  /** The queue file and the flush semaphore (`true` while a flush holds it). */
  datatype Client = Client(queue: QueueFile, flushing: bool)

  /** A step's effect: the new client state and the records offered to the sender. */
  datatype Step = Step(client: Client, sent: seq<StampRecord>)

  /** `flushLock.WaitAsync(0)`: take the semaphore if it is free, never wait. */
  function TryAcquire(c: Client): (r: (Client, bool))
    ensures r.1 <==> !c.flushing
    ensures r.0.flushing && r.0.queue == c.queue
  {
    (c.(flushing := true), !c.flushing)
  }

  /**
    * `FlushQueueAsync`: skipped, with nothing read, sent or rewritten, while
    * another flush holds the semaphore; otherwise one flush pass, after
    * which the semaphore is released.
    */
  function RequestFlush(c: Client, parse: string -> Option<StampRecord>, send: StampRecord -> bool): (r: Step)
    ensures c.flushing ==> r == Step(c, [])
    ensures !c.flushing ==> !r.client.flushing
    ensures !c.flushing && c.queue.Some? ==>
      r.client.queue == Some(Retained(c.queue.value, parse, send)) && r.sent == Parsed(c.queue.value, parse)
    ensures c.queue.None? ==> r.client.queue.None? && r.sent == []
  {
    var (held, acquired) := TryAcquire(c);
    if !acquired then Step(c, [])
    else
      var (file, sent) := Flush(held.queue, parse, send);
      Step(Client(file, false), sent)
  }

  /** Two flushes triggered together: the second finds the semaphore taken and does nothing. */
  lemma ConcurrentFlushIsSkipped(c: Client, parse: string -> Option<StampRecord>, send: StampRecord -> bool)
    requires !c.flushing
    ensures TryAcquire(c).1
    ensures !TryAcquire(TryAcquire(c).0).1
    ensures RequestFlush(TryAcquire(c).0, parse, send) == Step(TryAcquire(c).0, [])
  {
  }

  const SourceMeta: map<string, string> := map["source" := "keyboardWedge"]

  /** The record the capture loop builds for a scanned UID. */
  function CaptureRecord(uid: string, readerId: string, now: int): StampRecord {
    StampRecord(Trim(uid), readerId, Some(now), SourceMeta)
  }

  /**
    * The capture loop's body for one UID: blank UIDs are skipped; otherwise
    * the trimmed UID is sent at once, queued when that fails, and a flush is
    * requested when it succeeds.
    */
  function Capture(c: Client, uid: string, readerId: string, now: int,
                   serialize: StampRecord -> string, parse: string -> Option<StampRecord>,
                   send: StampRecord -> bool): (r: Step)
    ensures IsBlank(uid) ==> r == Step(c, [])
    ensures !IsBlank(uid) ==> |r.sent| >= 1 && r.sent[0] == CaptureRecord(uid, readerId, now)
    ensures !IsBlank(uid) ==> r.sent[0].uid != [] && !IsWhiteSpace(r.sent[0].uid[0])
    ensures !IsBlank(uid) && !send(CaptureRecord(uid, readerId, now)) ==>
      r == Step(c.(queue := Enqueue(c.queue, serialize(CaptureRecord(uid, readerId, now)))), [CaptureRecord(uid, readerId, now)])
    ensures !IsBlank(uid) && send(CaptureRecord(uid, readerId, now)) ==>
      var f := RequestFlush(c, parse, send);
      r.client == f.client && r.sent == [CaptureRecord(uid, readerId, now)] + f.sent
  {
    if IsBlank(uid) then Step(c, [])
    else
      var record := CaptureRecord(uid, readerId, now);
      if !send(record) then
        Step(c.(queue := Enqueue(c.queue, serialize(record))), [record])
      else
        var f := RequestFlush(c, parse, send);
        Step(f.client, [record] + f.sent)
  }

  /** A failed send leaves the earlier queue lines untouched and adds exactly one line. */
  lemma FailedSendQueuesOneLine(c: Client, uid: string, readerId: string, now: int,
                                serialize: StampRecord -> string, parse: string -> Option<StampRecord>,
                                send: StampRecord -> bool)
    requires !IsBlank(uid) && !send(CaptureRecord(uid, readerId, now))
    ensures var q := Capture(c, uid, readerId, now, serialize, parse, send).client.queue;
      && q.Some?
      && q.value == c.queue.GetOr([]) + [serialize(CaptureRecord(uid, readerId, now))]
  {
  }

  /** The ping loop's body: a successful ping requests a flush. */
  function PingTick(c: Client, pinged: bool, parse: string -> Option<StampRecord>, send: StampRecord -> bool): (r: Step)
    ensures !pinged ==> r == Step(c, [])
    ensures pinged ==> r == RequestFlush(c, parse, send)
  {
    if pinged then RequestFlush(c, parse, send) else Step(c, [])
  }

  /** The flush loop's body: a flush is requested only for an existing, non-empty queue file. */
  function FlushTick(c: Client, parse: string -> Option<StampRecord>, send: StampRecord -> bool): (r: Step)
    ensures c.queue.None? || c.queue.value == [] ==> r == Step(c, [])
    ensures c.queue.Some? && c.queue.value != [] ==> r == RequestFlush(c, parse, send)
  {
    if c.queue.Some? && c.queue.value != [] then RequestFlush(c, parse, send) else Step(c, [])
  }

  /** The ping period: the configured seconds, but never below five. */
  function PingIntervalSeconds(configured: int): (r: int)
    ensures r >= 5
    ensures r == configured || r == 5
    ensures configured >= 5 ==> r == configured
  {
    if configured > 5 then configured else 5
  }

  datatype SourceKind = GlobalHook | ConsoleWedge

  /** The hook source only when enabled and on Windows; otherwise the console. */
  function SelectSource(useGlobalHook: bool, isWindows: bool): (k: SourceKind)
    ensures k == GlobalHook <==> useGlobalHook && isWindows
  {
    if useGlobalHook && isWindows then GlobalHook else ConsoleWedge
  }
}

=== FILE: reader_display.dfy ===
/**
  * The anonymous reader display page (`ReaderDisplayController.Index`). A
  * reader's screen opens `/ReaderDisplay={readerId}&pw={password}`; the
  * route puts everything after `=` into `readerId`, so the action first
  * splits the password off, then checks it against the reader's display
  * password. When the mapped `DisplayPassword` is blank it falls back to a
  * raw SQL read of the column. That read ends in SQLite error 1 when the
  * column does not exist, and also when EF's composed query looks for a
  * result column named `Value` that the raw select does not produce; the
  * `StoredPassword` input stands for whichever outcome the read has.
  */
module ReaderDisplay {
  import opened Wrappers
  import opened Strings
  import opened Entities

  /** The separator the route leaves inside `readerId`. */
  const PasswordToken: string := "&pw="

  const MissingParameters: string := "ReaderDisplay benötigt readerId und pw in der URL."
  const WrongPassword: string := "Ungültiges ReaderDisplay-Passwort."
  const NotConfigured: string := "ReaderDisplay ist noch nicht konfiguriert."

  /** The outcome of the raw `SELECT DisplayPassword ...` fallback. */
  datatype StoredPassword =
    | Stored(value: Option<string>)
    /** The query failed with `SqliteErrorCode == 1` (no such column). */
    | MissingColumn

  /** `ReaderDisplayOption`. */
  datatype DisplayOption = DisplayOption(readerId: string, displayName: string, location: Option<string>, isActive: bool)

  datatype DisplayResult =
    | Show(readers: seq<DisplayOption>, selectedReaderId: string)
    | Unauthorized(message: string)

  /**
    * The query after the split: when `readerId` is given and `pw` is not,
    * the first `&pw=` in `readerId` (any letter case) separates the two.
    */
  function SplitQuery(readerId: Option<string>, pw: Option<string>): (r: (Option<string>, Option<string>))
    ensures IsNullOrBlank(readerId) || !IsNullOrBlank(pw) ==> r == (readerId, pw)
    ensures r != (readerId, pw) ==>
      && readerId.Some? && r.0.Some? && r.1.Some?
      && var i := |r.0.value|;
      && MatchesAt(readerId.value, PasswordToken, i)
      && (forall k :: 0 <= k < i ==> !MatchesAt(readerId.value, PasswordToken, k))
      && readerId.value == r.0.value + readerId.value[i..i + |PasswordToken|] + r.1.value
  {
    if !IsNullOrBlank(readerId) && IsNullOrBlank(pw) then
      match IndexOfIgnoreCase(readerId.value, PasswordToken)
      case None => (readerId, pw)
      case Some(i) =>
        var s := readerId.value;
        assert s == s[..i] + s[i..i + |PasswordToken|] + s[i + |PasswordToken|..];
        (Some(s[..i]), Some(s[i + |PasswordToken|..]))
    else (readerId, pw)
  }

  /**
    * The password check: a non-blank mapped password must
    * equal `pw`; otherwise the raw column must hold a non-blank password
    * equal to `pw`.
    */
  function CheckPassword(reader: Reader, stored: StoredPassword, pw: string): (r: Option<string>)
    ensures r.None? <==> GrantingPassword(reader, stored, pw)
    ensures r.Some? ==> r.value == (if IsNullOrBlank(reader.displayPassword) && stored.MissingColumn? then NotConfigured else WrongPassword)
  {
    if !IsNullOrBlank(reader.displayPassword) then
      if reader.displayPassword.value != pw then Some(WrongPassword) else None
    else
      match stored
      case MissingColumn => Some(NotConfigured)
      case Stored(p) =>
        if IsNullOrBlank(p) || p.value != pw then Some(WrongPassword) else None
  }

  /** The one password that opens the reader's display, if any: never a blank one. */
  predicate GrantingPassword(reader: Reader, stored: StoredPassword, p: string) {
    if !IsNullOrBlank(reader.displayPassword) then reader.displayPassword == Some(p)
    else stored.Stored? && !IsNullOrBlank(stored.value) && stored.value == Some(p)
  }

  /** The single option the page shows: named after the reader, or its id when it has no name. */
  function OptionFor(reader: Reader): (o: DisplayOption)
    ensures o.readerId == reader.readerId && o.location == reader.location && o.isActive == reader.isActive
    ensures reader.name.Some? ==> o.displayName == reader.name.value
    ensures reader.name.None? ==> o.displayName == reader.readerId
  {
    DisplayOption(reader.readerId, reader.name.GetOr(reader.readerId), reader.location, reader.isActive)
  }

  /** `GET /ReaderDisplay` and `/ReaderDisplay={readerId}`. */
  function Index(readers: seq<Reader>, readerId: Option<string>, pw: Option<string>, stored: StoredPassword): (r: DisplayResult)
    ensures var (id, p) := SplitQuery(readerId, pw);
      && (IsNullOrBlank(id) || IsNullOrBlank(p) <==> r == Unauthorized(MissingParameters))
      && (r.Show? <==>
            && !IsNullOrBlank(id) && !IsNullOrBlank(p)
            && FindReader(readers, id.value).Some?
            && GrantingPassword(readers[FindReader(readers, id.value).value], stored, p.value))
      && (r.Show? ==>
            var reader := readers[FindReader(readers, id.value).value];
            && r.readers == [OptionFor(reader)]
            && r.selectedReaderId == id.value)
      && (r == Unauthorized(NotConfigured) <==>
            && !IsNullOrBlank(id) && !IsNullOrBlank(p)
            && FindReader(readers, id.value).Some?
            && IsNullOrBlank(readers[FindReader(readers, id.value).value].displayPassword)
            && stored.MissingColumn?)
    ensures !r.Show? && r != Unauthorized(MissingParameters) && r != Unauthorized(NotConfigured) ==>
      r == Unauthorized(WrongPassword)
  {
    var (id, p) := SplitQuery(readerId, pw);
    if IsNullOrBlank(id) || IsNullOrBlank(p) then Unauthorized(MissingParameters)
    else
      match FindReader(readers, id.value)
      case None => Unauthorized(WrongPassword)
      case Some(k) =>
        match CheckPassword(readers[k], stored, p.value)
        case Some(message) => Unauthorized(message)
        case None => Show([OptionFor(readers[k])], readers[k].readerId)
  }

  // ---------------------------------------------------------------------
  // Properties
  // ---------------------------------------------------------------------

  /** No match of the token can start inside `id` and run into an appended token. */
  lemma NoStraddlingToken(id: string, rest: string, k: int)
    requires 0 <= k < |id| < k + |PasswordToken|
    requires |rest| >= |PasswordToken| && rest[..|PasswordToken|] == PasswordToken
    ensures !MatchesAt(id + rest, PasswordToken, k)
  {
    var s := id + rest;
    var d := |id| - k;
    assert 0 < d < |PasswordToken| && AsciiUpper(PasswordToken[d]) != AsciiUpper('&');
    if k + |PasswordToken| <= |s| {
      assert s[k..k + |PasswordToken|][d] == s[|id|] == '&';
    }
  }

  /**
    * The combined URL form round-trips: `id + "&pw=" + p` splits back into
    * `id` and `p` whenever `id` holds no token of its own; `p` may.
    */
  lemma SplitRoundTrip(id: string, p: string, pw: Option<string>)
    requires IsNullOrBlank(pw)
    requires forall k :: !MatchesAt(id, PasswordToken, k)
    ensures SplitQuery(Some(id + PasswordToken + p), pw) == (Some(id), Some(p))
  {
    var s := id + PasswordToken + p;
    var rest := PasswordToken + p;
    assert s == id + rest;
    assert rest[..|PasswordToken|] == PasswordToken;
    assert s[|id|..|id| + |PasswordToken|] == PasswordToken;
    assert MatchesAt(s, PasswordToken, |id|);
    assert !IsBlank(s) by { assert s[|id|] == '&'; }
    forall k | 0 <= k < |id| ensures !MatchesAt(s, PasswordToken, k) {
      if k + |PasswordToken| <= |id| {
        assert s[k..k + |PasswordToken|] == id[k..k + |PasswordToken|];
        assert !MatchesAt(id, PasswordToken, k);
      } else {
        NoStraddlingToken(id, rest, k);
      }
    }
    assert IndexOfIgnoreCase(s, PasswordToken) == Some(|id|);
    assert s[..|id|] == id;
    assert s[|id| + |PasswordToken|..] == p;
  }

  /** The combined URL form opens the same page as separate parameters. */
  lemma CombinedUrlMatchesSeparateParameters(readers: seq<Reader>, id: string, p: string, stored: StoredPassword)
    requires forall k :: !MatchesAt(id, PasswordToken, k)
    requires !IsBlank(p)
    ensures Index(readers, Some(id + PasswordToken + p), None, stored) == Index(readers, Some(id), Some(p), stored)
  {
    SplitRoundTrip(id, p, None);
  }

  /** The reader's own non-blank display password opens its page, whatever the raw column says. */
  lemma DisplayPasswordOpensPage(readers: seq<Reader>, k: nat, stored: StoredPassword)
    requires k < |readers| && FindReader(readers, readers[k].readerId) == Some(k)
    requires !IsBlank(readers[k].readerId) && !IsNullOrBlank(readers[k].displayPassword)
    ensures Index(readers, Some(readers[k].readerId), readers[k].displayPassword, stored)
      == Show([OptionFor(readers[k])], readers[k].readerId)
  {
  }

  /** Any other password is refused, and a blank one never opens a page. */
  lemma OnlyTheStoredPasswordOpens(readers: seq<Reader>, readerId: Option<string>, pw: Option<string>, stored: StoredPassword)
    requires Index(readers, readerId, pw, stored).Show?
    ensures var (id, p) := SplitQuery(readerId, pw);
      var reader := readers[FindReader(readers, id.value).value];
      && !IsBlank(p.value)
      && (if !IsNullOrBlank(reader.displayPassword) then reader.displayPassword == p else stored == Stored(p))
  {
  }
}

=== FILE: reader_status.dfy ===
/**
  * The reader overview's online flag (`ReaderStatusViewModel.IsOnline`): a
  * reader counts as online when it was last seen no longer ago than a
  * threshold, 30 seconds unless the caller passes another. Instants are
  * whole seconds; `now` stands for `DateTime.UtcNow`.
  */
module ReaderStatus {
  import opened Wrappers
  import opened Entities
  import Ingestion

  const DefaultThresholdSeconds: int := 30

  /** `IsOnline(threshold)`: never online without a sighting; the boundary itself counts as online. */
  predicate IsOnline(lastSeenUtc: Option<int>, threshold: Option<int>, now: int) {
    lastSeenUtc.Some? && lastSeenUtc.value >= now - threshold.GetOr(DefaultThresholdSeconds)
  }

  /** The flag in terms of elapsed time: online iff seen, and at most `threshold` seconds ago. */
  lemma OnlineIffRecentlySeen(lastSeenUtc: Option<int>, threshold: Option<int>, now: int)
    ensures IsOnline(lastSeenUtc, threshold, now) <==>
      exists seen :: lastSeenUtc == Some(seen) && now - seen <= threshold.GetOr(DefaultThresholdSeconds)
  {
    if IsOnline(lastSeenUtc, threshold, now) {
      assert lastSeenUtc == Some(lastSeenUtc.value);
    }
  }

  /** Omitting the threshold is the same as passing 30 seconds. */
  lemma DefaultIsThirtySeconds(lastSeenUtc: Option<int>, now: int)
    ensures IsOnline(lastSeenUtc, None, now) == IsOnline(lastSeenUtc, Some(30), now)
  {
  }

  /** A more generous threshold and a later sighting each keep an online reader online. */
  lemma OnlineIsMonotone(seen: int, seen': int, t: int, t': int, now: int)
    requires seen <= seen' && t <= t'
    ensures IsOnline(Some(seen), Some(t), now) ==> IsOnline(Some(seen'), Some(t'), now)
  {
  }

  /** Time passing only takes a reader offline: once offline it stays offline until seen again. */
  lemma OfflineStaysOffline(lastSeenUtc: Option<int>, threshold: Option<int>, now: int, later: int)
    requires now <= later
    ensures !IsOnline(lastSeenUtc, threshold, now) ==> !IsOnline(lastSeenUtc, threshold, later)
  {
  }

  /**
    * A successful ping records `now` as the reader's `LastPingUtc`; with
    * that as its last sighting the reader is online for the next 30
    * seconds and offline after. The code that fills the view model's
    * `LastSeenUtc` is not part of this model; the lemma assumes it copies
    * the reader's `LastPingUtc`.
    */
  lemma PingKeepsReaderOnline(db: Db, header: Option<string>, requestReaderId: Option<string>, hash: string -> string, now: int, later: int)
    requires Ingestion.Ping(db, header, requestReaderId, hash, now).1.PingOk?
    ensures var k := Ingestion.Authenticate(db.readers, header, hash).value;
      var seen := Ingestion.Ping(db, header, requestReaderId, hash, now).0.readers[k].lastPingUtc;
      IsOnline(seen, None, later) <==> later <= now + DefaultThresholdSeconds
  {
  }
}

=== FILE: reports.dfy ===
/**
  * The consumption report (`ReportsController.BuildSummaryAsync`): stamps in
  * an optional UTC window, grouped by the linked user's personnel number
  * (unlinked stamps under "Unbekannt"), one row per group with a count per
  * meal type. Rows appear in the order their key first occurs; the
  * database does not promise an order.
  */
module Reports {
  import opened Wrappers
  import opened MealRules
  import opened Entities
  import Seqs

  const UnknownKey: string := "Unbekannt"
  const UnknownName: string := "Unbekannte UID"

  /** `ConsumptionRow`. */
  datatype Row = Row(personnelNo: string, name: string, breakfast: nat, lunch: nat, dinner: nat, snack: nat, unknown: nat)

  /** The row's column for meal type `m`. */
  function Column(r: Row, m: MealType): nat {
    match m
    case Breakfast => r.breakfast
    case Lunch => r.lunch
    case Dinner => r.dinner
    case Snack => r.snack
    case Unknown => r.unknown
  }

  /** One more stamp of meal type `m` in the row. */
  function Bump(r: Row, m: MealType): (r': Row)
    ensures r'.personnelNo == r.personnelNo && r'.name == r.name
    ensures forall m' :: Column(r', m') == Column(r, m') + (if m' == m then 1 else 0)
  {
    match m
    case Breakfast => r.(breakfast := r.breakfast + 1)
    case Lunch => r.(lunch := r.lunch + 1)
    case Dinner => r.(dinner := r.dinner + 1)
    case Snack => r.(snack := r.snack + 1)
    case Unknown => r.(unknown := r.unknown + 1)
  }

  // ---------------------------------------------------------------------
  // Filtering and grouping keys
  // ---------------------------------------------------------------------

  /** The optional bounds are inclusive; a missing bound does not filter. */
  predicate InWindow(s: Stamp, from: Option<int>, to: Option<int>) {
    (from.None? || s.timestampUtc >= from.value) && (to.None? || s.timestampUtc <= to.value)
  }

  /** The `Where` on the optional bounds; `FilterWindowCounts` and `FilterWindowAppend` fix multiplicity and order. */
  function FilterWindow(stamps: seq<Stamp>, from: Option<int>, to: Option<int>): (r: seq<Stamp>)
    ensures forall s :: s in r <==> s in stamps && InWindow(s, from, to)
    ensures forall i :: 0 <= i < |r| ==> InWindow(r[i], from, to)
    ensures from.None? && to.None? ==> r == stamps
  {
    if |stamps| == 0 then []
    else
      assert stamps == [stamps[0]] + stamps[1..];
      (if InWindow(stamps[0], from, to) then [stamps[0]] else []) + FilterWindow(stamps[1..], from, to)
  }

  /** One step of the filter: the first stamp, if in the window, followed by the window of the rest. */
  lemma FilterWindowStep(stamps: seq<Stamp>, from: Option<int>, to: Option<int>)
    requires |stamps| > 0
    ensures FilterWindow(stamps, from, to) ==
      (if InWindow(stamps[0], from, to) then [stamps[0]] else []) + FilterWindow(stamps[1..], from, to)
  {
  }

  /** Each stamp in the window is kept as often as it is stored; every other stamp is dropped. */
  lemma {:induction false} FilterWindowCounts(stamps: seq<Stamp>, from: Option<int>, to: Option<int>)
    ensures forall s ::
              multiset(FilterWindow(stamps, from, to))[s] == if InWindow(s, from, to) then multiset(stamps)[s] else 0
  {
    if |stamps| > 0 {
      var head := if InWindow(stamps[0], from, to) then [stamps[0]] else [];
      var rest := FilterWindow(stamps[1..], from, to);
      assert multiset(stamps) == multiset([stamps[0]]) + multiset(stamps[1..]) by {
        assert stamps == [stamps[0]] + stamps[1..];
      }
      assert multiset(FilterWindow(stamps, from, to)) == multiset(head) + multiset(rest) by {
        FilterWindowStep(stamps, from, to);
      }
      FilterWindowCounts(stamps[1..], from, to);
    }
  }

  /** The step of the filter over a concatenation whose first part is not empty. */
  lemma FilterWindowStepAppend(a: seq<Stamp>, b: seq<Stamp>, from: Option<int>, to: Option<int>)
    requires |a| > 0
    ensures FilterWindow(a + b, from, to) ==
      (if InWindow(a[0], from, to) then [a[0]] else []) + FilterWindow(a[1..] + b, from, to)
  {
    assert (a + b)[0] == a[0] && (a + b)[1..] == a[1..] + b;
    FilterWindowStep(a + b, from, to);
  }

  /** Filtering keeps the stored order: the window of a concatenation is the concatenation of the windows. */
  lemma {:induction false} FilterWindowAppend(a: seq<Stamp>, b: seq<Stamp>, from: Option<int>, to: Option<int>)
    ensures FilterWindow(a + b, from, to) == FilterWindow(a, from, to) + FilterWindow(b, from, to)
  {
    if |a| == 0 {
      assert a + b == b;
    } else {
      var head := if InWindow(a[0], from, to) then [a[0]] else [];
      var rest, tail := FilterWindow(a[1..], from, to), FilterWindow(b, from, to);
      FilterWindowStepAppend(a, b, from, to);
      FilterWindowAppend(a[1..], b, from, to);
      FilterWindowStep(a, from, to);
      Seqs.ConcatAssociates(head, rest, tail);
    }
  }

  /** `s.User`: the user the stamp's foreign key points to, if that user exists. */
  function LinkedUser(users: seq<User>, s: Stamp): Option<User> {
    if s.userId.None? then None
    else
      match FindUser(users, s.userId.value)
      case None => None
      case Some(k) => Some(users[k])
  }

  /** The group key: the linked user's personnel number, or "Unbekannt". */
  function KeyOf(users: seq<User>, s: Stamp): string {
    match LinkedUser(users, s)
    case None => UnknownKey
    case Some(u) => u.personnelNo
  }

  /** The row name a stamp gives its group: the linked user's full name, or "Unbekannte UID". */
  function NameOf(users: seq<User>, s: Stamp): string {
    match LinkedUser(users, s)
    case None => UnknownName
    case Some(u) => FullName(u)
  }

  // ---------------------------------------------------------------------
  // Reference counts
  // ---------------------------------------------------------------------

  /** Stamps with group key `key` and meal type `m`. */
  function Count(stamps: seq<Stamp>, users: seq<User>, key: string, m: MealType): nat {
    if |stamps| == 0 then 0
    else
      var last := stamps[|stamps| - 1];
      Count(stamps[..|stamps| - 1], users, key, m) + (if KeyOf(users, last) == key && last.mealType == m then 1 else 0)
  }

  /** Stamps with meal type `m`. */
  function CountMeal(stamps: seq<Stamp>, m: MealType): nat {
    if |stamps| == 0 then 0
    else CountMeal(stamps[..|stamps| - 1], m) + (if stamps[|stamps| - 1].mealType == m then 1 else 0)
  }

  /** The distinct group keys of the stamps. */
  function StampKeys(stamps: seq<Stamp>, users: seq<User>): set<string> {
    set i | 0 <= i < |stamps| :: KeyOf(users, stamps[i])
  }

  function RowKeys(rows: seq<Row>): set<string> {
    set j | 0 <= j < |rows| :: rows[j].personnelNo
  }

  ghost predicate UniqueRowKeys(rows: seq<Row>) {
    forall i, j :: 0 <= i < j < |rows| ==> rows[i].personnelNo != rows[j].personnelNo
  }

  /** The row is named after the first stamp of its group. */
  ghost predicate NamedAfterFirstStamp(stamps: seq<Stamp>, users: seq<User>, row: Row) {
    exists i :: 0 <= i < |stamps| && KeyOf(users, stamps[i]) == row.personnelNo && row.name == NameOf(users, stamps[i])
      && forall k :: 0 <= k < i ==> KeyOf(users, stamps[k]) != row.personnelNo
  }

  /** A column summed over all rows. */
  function SumColumn(rows: seq<Row>, m: MealType): nat {
    if |rows| == 0 then 0 else SumColumn(rows[..|rows| - 1], m) + Column(rows[|rows| - 1], m)
  }

  // ---------------------------------------------------------------------
  // The grouping fold
  // ---------------------------------------------------------------------

  function FindRow(rows: seq<Row>, key: string): (r: Option<nat>)
    ensures r.Some? ==> r.value < |rows| && rows[r.value].personnelNo == key
    ensures r.None? <==> key !in RowKeys(rows)
  {
    if |rows| == 0 then None
    else if rows[|rows| - 1].personnelNo == key then Some(|rows| - 1)
    else
      var init := rows[..|rows| - 1];
      assert RowKeys(rows) == RowKeys(init) + {rows[|rows| - 1].personnelNo} by {
        assert forall j :: 0 <= j < |init| ==> init[j] == rows[j];
      }
      FindRow(init, key)
  }

  /** Counts one stamp into its group's row, opening the row (with the stamp's name) on first sight. */
  function Tally(rows: seq<Row>, key: string, name: string, m: MealType): (r: seq<Row>)
    ensures FindRow(rows, key).Some? ==>
      var i := FindRow(rows, key).value; r == rows[i := Bump(rows[i], m)]
    ensures FindRow(rows, key).None? ==> r == rows + [Bump(Row(key, name, 0, 0, 0, 0, 0), m)]
  {
    match FindRow(rows, key)
    case Some(i) => rows[i := Bump(rows[i], m)]
    case None => rows + [Bump(Row(key, name, 0, 0, 0, 0, 0), m)]
  }

  /** The rows for `stamps`, folding them in order. */
  function Summarize(stamps: seq<Stamp>, users: seq<User>): seq<Row> {
    if |stamps| == 0 then []
    else
      var last := stamps[|stamps| - 1];
      Tally(Summarize(stamps[..|stamps| - 1], users), KeyOf(users, last), NameOf(users, last), last.mealType)
  }

  // ---------------------------------------------------------------------
  // What the fold computes
  // ---------------------------------------------------------------------

  lemma InitKeys(stamps: seq<Stamp>, users: seq<User>)
    requires |stamps| > 0
    ensures StampKeys(stamps, users) == StampKeys(stamps[..|stamps| - 1], users) + {KeyOf(users, stamps[|stamps| - 1])}
  {
    var init := stamps[..|stamps| - 1];
    assert forall i :: 0 <= i < |init| ==> init[i] == stamps[i];
  }

  /** Tally keeps every existing row's key and name, and adds a row only for a new key. */
  lemma TallyRows(rows: seq<Row>, key: string, name: string, m: MealType)
    ensures var r := Tally(rows, key, name, m);
      && |r| >= |rows|
      && (forall j :: 0 <= j < |rows| ==> r[j].personnelNo == rows[j].personnelNo && r[j].name == rows[j].name)
      && (|r| > |rows| ==> |r| == |rows| + 1 && key !in RowKeys(rows) && r[|rows|].personnelNo == key && r[|rows|].name == name)
      && RowKeys(r) == RowKeys(rows) + {key}
      && (UniqueRowKeys(rows) ==> UniqueRowKeys(r))
  {
    var r := Tally(rows, key, name, m);
    match FindRow(rows, key)
    case Some(i) =>
      assert forall j :: 0 <= j < |rows| ==> r[j].personnelNo == rows[j].personnelNo;
      assert RowKeys(r) == RowKeys(rows);
    case None =>
      assert forall j :: 0 <= j < |rows| ==> r[j] == rows[j];
      assert r[|rows|].personnelNo == key;
      assert RowKeys(r) == RowKeys(rows) + {key};
      forall j | 0 <= j < |rows| ensures rows[j].personnelNo != key {
        assert rows[j].personnelNo in RowKeys(rows);
      }
  }

  lemma {:induction false} SummarizeKeys(stamps: seq<Stamp>, users: seq<User>)
    ensures UniqueRowKeys(Summarize(stamps, users))
    ensures RowKeys(Summarize(stamps, users)) == StampKeys(stamps, users)
    decreases |stamps|
  {
    if |stamps| > 0 {
      var init := stamps[..|stamps| - 1];
      var last := stamps[|stamps| - 1];
      SummarizeKeys(init, users);
      InitKeys(stamps, users);
      TallyRows(Summarize(init, users), KeyOf(users, last), NameOf(users, last), last.mealType);
    }
  }

  lemma {:induction false} CountAbsentKey(stamps: seq<Stamp>, users: seq<User>, key: string, m: MealType)
    requires key !in StampKeys(stamps, users)
    ensures Count(stamps, users, key, m) == 0
    decreases |stamps|
  {
    if |stamps| > 0 {
      InitKeys(stamps, users);
      CountAbsentKey(stamps[..|stamps| - 1], users, key, m);
    }
  }

  lemma {:induction false} SummarizeCounts(stamps: seq<Stamp>, users: seq<User>)
    ensures var rows := Summarize(stamps, users);
      forall j, m :: 0 <= j < |rows| ==> Column(rows[j], m) == Count(stamps, users, rows[j].personnelNo, m)
    decreases |stamps|
  {
    if |stamps| > 0 {
      var init := stamps[..|stamps| - 1];
      var last := stamps[|stamps| - 1];
      var rows := Summarize(init, users);
      SummarizeCounts(init, users);
      SummarizeKeys(init, users);
      var rows' := Summarize(stamps, users);
      var key := KeyOf(users, last);
      forall j, m | 0 <= j < |rows'| ensures Column(rows'[j], m) == Count(stamps, users, rows'[j].personnelNo, m) {
        match FindRow(rows, key)
        case Some(i) =>
          if j != i {
            assert rows'[j] == rows[j];
            if i < j { assert rows[i].personnelNo != rows[j].personnelNo; }
            else { assert rows[j].personnelNo != rows[i].personnelNo; }
          }
        case None =>
          if j < |rows| {
            assert rows'[j] == rows[j];
            assert rows[j].personnelNo in RowKeys(rows);
          } else {
            CountAbsentKey(init, users, key, m);
          }
      }
    }
  }

  /** A row named after the first stamp of its group in a prefix still is in the whole sequence. */
  lemma NamedInPrefix(stamps: seq<Stamp>, n: nat, users: seq<User>, row: Row)
    requires n <= |stamps| && NamedAfterFirstStamp(stamps[..n], users, row)
    ensures NamedAfterFirstStamp(stamps, users, row)
  {
    var init := stamps[..n];
    var i :| 0 <= i < |init| && KeyOf(users, init[i]) == row.personnelNo && row.name == NameOf(users, init[i])
      && forall k :: 0 <= k < i ==> KeyOf(users, init[k]) != row.personnelNo;
    assert stamps[i] == init[i];
    assert forall k :: 0 <= k < i ==> stamps[k] == init[k];
  }

  /** A row opened by the last stamp, whose key no earlier stamp has, is named after it. */
  lemma NewRowNamed(stamps: seq<Stamp>, users: seq<User>, row: Row)
    requires |stamps| > 0
    requires row.personnelNo == KeyOf(users, stamps[|stamps| - 1]) && row.name == NameOf(users, stamps[|stamps| - 1])
    requires row.personnelNo !in StampKeys(stamps[..|stamps| - 1], users)
    ensures NamedAfterFirstStamp(stamps, users, row)
  {
    var n := |stamps| - 1;
    var init := stamps[..n];
    forall k | 0 <= k < n ensures KeyOf(users, stamps[k]) != row.personnelNo {
      assert stamps[k] == init[k];
      assert KeyOf(users, init[k]) in StampKeys(init, users);
    }
  }

  lemma {:induction false} SummarizeNameAt(stamps: seq<Stamp>, users: seq<User>, j: nat)
    requires j < |Summarize(stamps, users)|
    ensures NamedAfterFirstStamp(stamps, users, Summarize(stamps, users)[j])
    decreases |stamps|
  {
    var n := |stamps| - 1;
    var init := stamps[..n];
    var last := stamps[n];
    var rows := Summarize(init, users);
    TallyRows(rows, KeyOf(users, last), NameOf(users, last), last.mealType);
    var rows' := Summarize(stamps, users);
    if j < |rows| {
      SummarizeNameAt(init, users, j);
      assert rows'[j].personnelNo == rows[j].personnelNo && rows'[j].name == rows[j].name;
      NamedInPrefix(stamps, n, users, rows[j]);
    } else {
      SummarizeKeys(init, users);
      NewRowNamed(stamps, users, rows'[j]);
    }
  }

  lemma {:induction false} SumColumnUpdate(rows: seq<Row>, i: nat, r: Row, m: MealType)
    requires i < |rows|
    ensures SumColumn(rows[i := r], m) + Column(rows[i], m) == SumColumn(rows, m) + Column(r, m)
    decreases |rows|
  {
    var n := |rows| - 1;
    if i < n {
      assert rows[i := r][..n] == rows[..n][i := r];
      SumColumnUpdate(rows[..n], i, r, m);
    } else {
      assert rows[i := r][..n] == rows[..n];
    }
  }

  /** A row appended adds its column to the sum. */
  lemma SumColumnAppend(rows: seq<Row>, row: Row, m: MealType)
    ensures SumColumn(rows + [row], m) == SumColumn(rows, m) + Column(row, m)
  {
    assert (rows + [row])[..|rows|] == rows;
  }

  lemma {:induction false} SummarizeSums(stamps: seq<Stamp>, users: seq<User>, m: MealType)
    ensures SumColumn(Summarize(stamps, users), m) == CountMeal(stamps, m)
    decreases |stamps|
  {
    if |stamps| > 0 {
      var init := stamps[..|stamps| - 1];
      var last := stamps[|stamps| - 1];
      var rows := Summarize(init, users);
      SummarizeSums(init, users, m);
      var rows' := Summarize(stamps, users);
      assert CountMeal(stamps, m) == CountMeal(init, m) + (if last.mealType == m then 1 else 0);
      match FindRow(rows, KeyOf(users, last))
      case Some(i) =>
        SumColumnUpdate(rows, i, Bump(rows[i], last.mealType), m);
      case None =>
        var newRow := Bump(Row(KeyOf(users, last), NameOf(users, last), 0, 0, 0, 0, 0), last.mealType);
        assert rows' == rows + [newRow];
        SumColumnAppend(rows, newRow, m);
    }
  }

  /** With unique keys there are exactly as many rows as keys. */
  lemma {:induction false} UniqueKeysCountRows(rows: seq<Row>)
    requires UniqueRowKeys(rows)
    ensures |RowKeys(rows)| == |rows|
    decreases |rows|
  {
    if |rows| > 0 {
      var n := |rows| - 1;
      var init := rows[..n];
      assert forall j :: 0 <= j < n ==> init[j] == rows[j];
      assert RowKeys(rows) == RowKeys(init) + {rows[n].personnelNo};
      assert rows[n].personnelNo !in RowKeys(init);
      UniqueKeysCountRows(init);
    }
  }

  /**
    * `BuildSummaryAsync(from, to)`: one row per distinct group key among the
    * stamps in the window, each meal column counting that group's stamps of
    * that meal type, the row named after the group's first stamp, and each
    * column summing to the window's stamps of that meal type.
    */
  function BuildSummary(stamps: seq<Stamp>, users: seq<User>, from: Option<int>, to: Option<int>): (rows: seq<Row>)
    ensures var window := FilterWindow(stamps, from, to);
      && UniqueRowKeys(rows)
      && RowKeys(rows) == StampKeys(window, users)
      && (forall j, m :: 0 <= j < |rows| ==> Column(rows[j], m) == Count(window, users, rows[j].personnelNo, m))
      && (forall j :: 0 <= j < |rows| ==> NamedAfterFirstStamp(window, users, rows[j]))
      && (forall m :: SumColumn(rows, m) == CountMeal(window, m))
  {
    var window := FilterWindow(stamps, from, to);
    SummarizeKeys(window, users);
    SummarizeCounts(window, users);
    forall j | 0 <= j < |Summarize(window, users)| ensures NamedAfterFirstStamp(window, users, Summarize(window, users)[j]) {
      SummarizeNameAt(window, users, j);
    }
    forall m ensures SumColumn(Summarize(window, users), m) == CountMeal(window, m) {
      SummarizeSums(window, users, m);
    }
    Summarize(window, users)
  }

  /**
    * The sentinel key is an ordinary string: a user whose personnel number
    * is "Unbekannt" shares one row with the unlinked stamps.
    */
  lemma SentinelKeyMergesGroups(u: User, linked: Stamp, unlinked: Stamp)
    requires u.personnelNo == UnknownKey && linked.userId == Some(u.id) && unlinked.userId.None?
    ensures |BuildSummary([linked, unlinked], [u], None, None)| == 1
  {
    var stamps := [linked, unlinked];
    assert FindUser([u], u.id) == Some(0);
    assert KeyOf([u], linked) == UnknownKey && KeyOf([u], unlinked) == UnknownKey;
    assert forall i :: 0 <= i < |stamps| ==> KeyOf([u], stamps[i]) == UnknownKey;
    assert KeyOf([u], stamps[0]) in StampKeys(stamps, [u]);
    assert StampKeys(stamps, [u]) == {UnknownKey};
    var rows := BuildSummary(stamps, [u], None, None);
    assert RowKeys(rows) == {UnknownKey};
    UniqueKeysCountRows(rows);
  }
}

=== FILE: seqs.dfy ===
/** Positional helpers shared by the model's tables. */
module Seqs {
  import opened Wrappers

  /**
    * Position of the first element satisfying `p`: the row LINQ's
    * `FirstOrDefault` or EF's `FindAsync` returns.
    */
  function FirstWhere<T>(s: seq<T>, p: T -> bool): (r: Option<nat>)
    ensures r.Some? ==> r.value < |s| && p(s[r.value])
    ensures r.Some? ==> forall i :: 0 <= i < r.value ==> !p(s[i])
    ensures r.None? <==> forall i :: 0 <= i < |s| ==> !p(s[i])
  {
    if |s| == 0 then None
    else if p(s[0]) then Some(0)
    else
      match FirstWhere(s[1..], p)
      case None => None
      case Some(k) => Some(k + 1)
  }

  /** The row at `k` removed and the others kept in order (`DbSet.Remove`). */
  function RemoveAt<T>(s: seq<T>, k: nat): (r: seq<T>)
    requires k < |s|
    ensures |r| == |s| - 1
    ensures forall i :: 0 <= i < k ==> r[i] == s[i]
    ensures forall i :: k <= i < |r| ==> r[i] == s[i + 1]
  {
    s[..k] + s[k + 1..]
  }

  lemma ConcatAssociates<T>(x: seq<T>, y: seq<T>, z: seq<T>)
    ensures x + (y + z) == (x + y) + z
  {
  }
}

=== FILE: sorting.dfy ===
/**
  * Stable sorting by an integer key: the behaviour of LINQ `OrderBy` /
  * `OrderByDescending` and of JavaScript's `Array.prototype.sort`, which
  * both keep equal-keyed elements in their input order.
  */
module Sorting {
  import opened Strings

  /** Keys never decrease from left to right. */
  ghost predicate SortedByKey<T>(s: seq<T>, key: T -> int) {
    forall i, j :: 0 <= i < j < |s| ==> key(s[i]) <= key(s[j])
  }

  /** No two positions carry the same key. */
  ghost predicate DistinctKeys<T>(s: seq<T>, key: T -> int) {
    forall i, j :: 0 <= i < j < |s| ==> key(s[i]) != key(s[j])
  }

  /** The subsequence of `s` whose key is `k`, in order. */
  function WithKey<T>(s: seq<T>, key: T -> int, k: int): seq<T> {
    if |s| == 0 then []
    else (if key(s[0]) == k then [s[0]] else []) + WithKey(s[1..], key, k)
  }

  /** An element whose key is at most every key of a sorted sequence can go in front of it. */
  lemma ConsSorted<T>(y: T, r: seq<T>, key: T -> int)
    requires SortedByKey(r, key)
    requires forall i :: 0 <= i < |r| ==> key(y) <= key(r[i])
    ensures SortedByKey([y] + r, key)
  {
    var c := [y] + r;
    forall i, j | 0 <= i < j < |c| ensures key(c[i]) <= key(c[j]) {
      assert c[j] == r[j - 1];
      if i > 0 { assert c[i] == r[i - 1]; }
    }
  }

  /** Places `x` in front of the first element whose key is not smaller. */
  function Insert<T>(x: T, s: seq<T>, key: T -> int): (r: seq<T>)
    ensures multiset(r) == multiset(s) + multiset{x}
    ensures |r| == |s| + 1
  {
    if |s| == 0 || key(x) <= key(s[0]) then [x] + s
    else
      assert s == [s[0]] + s[1..];
      [s[0]] + Insert(x, s[1..], key)
  }

  /** Every element of an insertion is `x` or an element of `s`. */
  lemma InsertElements<T>(x: T, s: seq<T>, key: T -> int, i: int)
    requires 0 <= i < |Insert(x, s, key)|
    ensures Insert(x, s, key)[i] == x || Insert(x, s, key)[i] in s
  {
    var r := Insert(x, s, key);
    assert r[i] in multiset(r);
  }

  /** Inserting into a sorted sequence keeps it sorted. */
  lemma {:induction false} InsertSorted<T>(x: T, s: seq<T>, key: T -> int)
    requires SortedByKey(s, key)
    ensures SortedByKey(Insert(x, s, key), key)
  {
    if |s| == 0 || key(x) <= key(s[0]) {
      ConsSorted(x, s, key);
    } else {
      var rest := Insert(x, s[1..], key);
      InsertSorted(x, s[1..], key);
      forall i | 0 <= i < |rest| ensures key(s[0]) <= key(rest[i]) {
        InsertElements(x, s[1..], key, i);
        if rest[i] != x {
          var j :| 0 <= j < |s[1..]| && s[1..][j] == rest[i];
          assert s[j + 1] == rest[i];
        }
      }
      ConsSorted(s[0], rest, key);
    }
  }

  /** Stable insertion sort by ascending key. */
  function SortByKey<T>(s: seq<T>, key: T -> int): (r: seq<T>)
    ensures SortedByKey(r, key)
    ensures multiset(r) == multiset(s)
    ensures |r| == |s|
  {
    if |s| == 0 then []
    else
      assert s == [s[0]] + s[1..];
      InsertSorted(s[0], SortByKey(s[1..], key), key);
      Insert(s[0], SortByKey(s[1..], key), key)
  }

  lemma {:induction false} WithKeyNone<T>(s: seq<T>, key: T -> int, k: int)
    requires forall i :: 0 <= i < |s| ==> key(s[i]) != k
    ensures WithKey(s, key, k) == []
  {
    if |s| > 0 {
      WithKeyNone(s[1..], key, k);
    }
  }

  lemma WithKeyOfHead<T>(s: seq<T>, key: T -> int)
    requires |s| > 0
    ensures WithKey(s, key, key(s[0])) != []
  {
  }

  lemma WithKeyCons<T>(x: T, s: seq<T>, key: T -> int, k: int)
    ensures WithKey([x] + s, key, k) == (if key(x) == k then [x] else []) + WithKey(s, key, k)
  {
    assert ([x] + s)[1..] == s;
  }

  /** Inserting `x` adds it to its own key's subsequence, in front. */
  lemma {:induction false} WithKeyInsert<T>(x: T, s: seq<T>, key: T -> int, k: int)
    ensures WithKey(Insert(x, s, key), key, k) == (if key(x) == k then [x] else []) + WithKey(s, key, k)
  {
    if |s| == 0 || key(x) <= key(s[0]) {
      WithKeyCons(x, s, key, k);
    } else {
      var rest := Insert(x, s[1..], key);
      var hx: seq<T> := if key(x) == k then [x] else [];
      var hs: seq<T> := if key(s[0]) == k then [s[0]] else [];
      var w := WithKey(s[1..], key, k);
      assert WithKey(Insert(x, s, key), key, k) == hs + (hx + w) by {
        assert Insert(x, s, key) == [s[0]] + rest;
        WithKeyCons(s[0], rest, key, k);
        WithKeyInsert(x, s[1..], key, k);
      }
      assert WithKey(s, key, k) == hs + w by {
        assert s == [s[0]] + s[1..];
        WithKeyCons(s[0], s[1..], key, k);
      }
      if key(x) == k {
        assert hs == [];
        assert hs + (hx + w) == hx + w == hx + (hs + w);
      } else {
        assert hx == [];
        assert hs + (hx + w) == hs + w;
      }
    }
  }

  /** The sort is stable: each key's subsequence is that of the input. */
  lemma {:induction false} SortIsStable<T>(s: seq<T>, key: T -> int, k: int)
    ensures WithKey(SortByKey(s, key), key, k) == WithKey(s, key, k)
  {
    if |s| > 0 {
      SortIsStable(s[1..], key, k);
      WithKeyInsert(s[0], SortByKey(s[1..], key), key, k);
    }
  }

  /**
    * A sorted sequence is determined by its per-key subsequences, so the
    * stable sort is the only sorted arrangement that keeps them.
    */
  lemma {:induction false} SortedUnique<T>(a: seq<T>, b: seq<T>, key: T -> int)
    requires SortedByKey(a, key) && SortedByKey(b, key)
    requires forall k :: WithKey(a, key, k) == WithKey(b, key, k)
    ensures a == b
  {
    if |a| == 0 && |b| == 0 {
    } else if |a| == 0 {
      WithKeyOfHead(b, key);
      assert false;
    } else if |b| == 0 {
      WithKeyOfHead(a, key);
      assert false;
    } else {
      var ka, kb := key(a[0]), key(b[0]);
      if kb > ka {
        WithKeyNone(b, key, ka);
        assert false;
      }
      if ka > kb {
        WithKeyNone(a, key, kb);
        assert false;
      }
      assert a == [a[0]] + a[1..];
      assert b == [b[0]] + b[1..];
      forall k ensures WithKey(a, key, k) == (if ka == k then [a[0]] else []) + WithKey(a[1..], key, k)
        && WithKey(b, key, k) == (if ka == k then [b[0]] else []) + WithKey(b[1..], key, k)
      {
        WithKeyCons(a[0], a[1..], key, k);
        WithKeyCons(b[0], b[1..], key, k);
      }
      assert WithKey(a, key, ka) == WithKey(b, key, ka);
      assert WithKey(a, key, ka)[0] == a[0];
      assert WithKey(b, key, ka)[0] == b[0];
      forall k ensures WithKey(a[1..], key, k) == WithKey(b[1..], key, k) {
        assert WithKey(a, key, k) == WithKey(b, key, k);
        var h: seq<T> := if ka == k then [a[0]] else [];
        assert h + WithKey(a[1..], key, k) == h + WithKey(b[1..], key, k);
        assert WithKey(a[1..], key, k) == (h + WithKey(a[1..], key, k))[|h|..];
        assert WithKey(b[1..], key, k) == (h + WithKey(b[1..], key, k))[|h|..];
      }
      SortedUnique(a[1..], b[1..], key);
    }
  }

  /** Any sorted arrangement that keeps each key's subsequence is the stable sort's result. */
  lemma StableSortCharacterised<T>(s: seq<T>, r: seq<T>, key: T -> int)
    requires SortedByKey(r, key)
    requires forall k :: WithKey(r, key, k) == WithKey(s, key, k)
    ensures r == SortByKey(s, key)
  {
    forall k ensures WithKey(r, key, k) == WithKey(SortByKey(s, key), key, k) {
      SortIsStable(s, key, k);
    }
    SortedUnique(r, SortByKey(s, key), key);
  }

  /** The multiset of a key's subsequence depends only on the multiset of the input. */
  lemma {:induction false} WithKeyMultiset<T>(s: seq<T>, key: T -> int, k: int, y: T)
    ensures multiset(WithKey(s, key, k))[y] == if key(y) == k then multiset(s)[y] else 0
  {
    if |s| > 0 {
      WithKeyMultiset(s[1..], key, k, y);
      assert s == [s[0]] + s[1..];
    }
  }

  lemma WithKeySameMultiset<T>(a: seq<T>, b: seq<T>, key: T -> int, k: int)
    requires multiset(a) == multiset(b)
    ensures multiset(WithKey(a, key, k)) == multiset(WithKey(b, key, k))
  {
    forall y ensures multiset(WithKey(a, key, k))[y] == multiset(WithKey(b, key, k))[y] {
      WithKeyMultiset(a, key, k, y);
      WithKeyMultiset(b, key, k, y);
      assert multiset(a)[y] == multiset(b)[y];
    }
    MultisetExt(multiset(WithKey(a, key, k)), multiset(WithKey(b, key, k)));
  }

  lemma MultisetExt<T>(a: multiset<T>, b: multiset<T>)
    requires forall y :: a[y] == b[y]
    ensures a == b
  {
  }

  lemma {:induction false} WithKeyDistinct<T>(s: seq<T>, key: T -> int, k: int)
    requires DistinctKeys(s, key)
    ensures |WithKey(s, key, k)| <= 1
  {
    if |s| > 0 {
      if key(s[0]) == k {
        WithKeyNone(s[1..], key, k);
      } else {
        WithKeyDistinct(s[1..], key, k);
      }
    }
  }

  /**
    * With pairwise distinct keys the sort does not depend on the input
    * order: two arrangements of the same elements sort identically.
    */
  lemma SortIgnoresOrderOfDistinctKeys<T>(a: seq<T>, b: seq<T>, key: T -> int)
    requires multiset(a) == multiset(b)
    requires DistinctKeys(a, key)
    ensures SortByKey(a, key) == SortByKey(b, key)
  {
    forall k ensures WithKey(a, key, k) == WithKey(b, key, k) {
      var wa, wb := WithKey(a, key, k), WithKey(b, key, k);
      WithKeySameMultiset(a, b, key, k);
      WithKeyDistinct(a, key, k);
      assert |wb| == |wa| by {
        assert |multiset(wa)| == |multiset(wb)|;
      }
      if |wa| == 1 {
        assert wa[0] in multiset(wb);
        assert wa == [wa[0]];
      }
    }
    forall k ensures WithKey(SortByKey(b, key), key, k) == WithKey(a, key, k) {
      SortIsStable(b, key, k);
    }
    StableSortCharacterised(a, SortByKey(b, key), key);
  }

  // ---------------------------------------------------------------------
  // Ordering by a string key
  // ---------------------------------------------------------------------

  /** String keys never decrease (ordinally) from left to right. */
  ghost predicate SortedByName<T>(s: seq<T>, key: T -> string) {
    forall i, j :: 0 <= i < j < |s| ==> LexLessEq(key(s[i]), key(s[j]))
  }

  /** Places `x` in front of the first element whose key is not smaller. */
  function InsertByName<T>(x: T, s: seq<T>, key: T -> string): (r: seq<T>)
    ensures multiset(r) == multiset(s) + multiset{x}
    ensures |r| == |s| + 1
  {
    if |s| == 0 || LexLessEq(key(x), key(s[0])) then [x] + s
    else
      assert s == [s[0]] + s[1..];
      [s[0]] + InsertByName(x, s[1..], key)
  }

  /** An element whose key is at most every key of a sorted sequence can go in front of it. */
  lemma ConsSortedByName<T>(y: T, r: seq<T>, key: T -> string)
    requires SortedByName(r, key)
    requires forall i :: 0 <= i < |r| ==> LexLessEq(key(y), key(r[i]))
    ensures SortedByName([y] + r, key)
  {
    var c := [y] + r;
    forall i, j | 0 <= i < j < |c| ensures LexLessEq(key(c[i]), key(c[j])) {
      assert c[j] == r[j - 1];
      if i > 0 { assert c[i] == r[i - 1]; }
    }
  }

  /** Inserting into a sequence sorted by name keeps it sorted. */
  lemma {:induction false} InsertByNameSorted<T>(x: T, s: seq<T>, key: T -> string)
    requires SortedByName(s, key)
    ensures SortedByName(InsertByName(x, s, key), key)
  {
    if |s| == 0 {
      ConsSortedByName(x, s, key);
    } else if LexLessEq(key(x), key(s[0])) {
      forall j | 0 <= j < |s| ensures LexLessEq(key(x), key(s[j])) {
        if j > 0 {
          LexTransitive(key(x), key(s[0]), key(s[j]));
        }
      }
      ConsSortedByName(x, s, key);
    } else {
      LexTotal(key(x), key(s[0]));
      var rest := InsertByName(x, s[1..], key);
      InsertByNameSorted(x, s[1..], key);
      forall i | 0 <= i < |rest| ensures LexLessEq(key(s[0]), key(rest[i])) {
        assert rest[i] in multiset(rest);
        if rest[i] != x {
          assert rest[i] in multiset(s[1..]);
          var j :| 0 <= j < |s[1..]| && s[1..][j] == rest[i];
          assert s[j + 1] == rest[i];
        }
      }
      ConsSortedByName(s[0], rest, key);
    }
  }

  /** Insertion sort by ascending string key (one of the orders `ORDER BY key` may return). */
  function SortByName<T>(s: seq<T>, key: T -> string): (r: seq<T>)
    ensures SortedByName(r, key)
    ensures multiset(r) == multiset(s)
    ensures |r| == |s|
  {
    if |s| == 0 then []
    else
      assert s == [s[0]] + s[1..];
      InsertByNameSorted(s[0], SortByName(s[1..], key), key);
      InsertByName(s[0], SortByName(s[1..], key), key)
  }
}

=== FILE: strings.dfy ===
/**
  * The few .NET string primitives the pipeline relies on, over `seq<char>`:
  * `char.IsWhiteSpace`, `string.IsNullOrWhiteSpace`, `Trim`, ordinal
  * `EndsWith`, substring `Contains` and an ordinal-ignore-case `IndexOf`.
  */
module Strings {
  import opened Wrappers

  /** The characters .NET `char.IsWhiteSpace` accepts (Unicode White_Space). */
  const WhiteSpaceChars: set<char> := {'\U{9}', '\U{A}', '\U{B}', '\U{C}', '\U{D}', '\U{20}', '\U{85}', '\U{A0}', '\U{1680}', '\U{2000}', '\U{2001}', '\U{2002}', '\U{2003}', '\U{2004}', '\U{2005}', '\U{2006}', '\U{2007}', '\U{2008}', '\U{2009}', '\U{200A}', '\U{2028}', '\U{2029}', '\U{202F}', '\U{205F}', '\U{3000}'}

  predicate IsWhiteSpace(c: char) {
    c in WhiteSpaceChars
  }

  /** `string.IsNullOrWhiteSpace` for a string that is present. */
  predicate IsBlank(s: string) {
    forall i :: 0 <= i < |s| ==> IsWhiteSpace(s[i])
  }

  /** `string.IsNullOrWhiteSpace` for a nullable string. */
  predicate IsNullOrBlank(s: Option<string>) {
    s.None? || IsBlank(s.value)
  }

  /** Ordinal `s.EndsWith(suffix)`. */
  predicate EndsWith(s: string, suffix: string) {
    |suffix| <= |s| && s[|s| - |suffix|..] == suffix
  }

  /** `s[..^suffix.Length]` after a successful `EndsWith`. */
  function DropSuffix(s: string, suffix: string): (r: string)
    requires EndsWith(s, suffix)
    ensures r + suffix == s
  {
    s[..|s| - |suffix|]
  }

  /** `sub` occurs in `s` starting at position `i`. */
  predicate OccursAt(s: string, sub: string, i: int) {
    0 <= i <= |s| - |sub| && s[i..i + |sub|] == sub
  }

  /** Ordinal substring test, `s.Contains(sub)`. */
  predicate Contains(s: string, sub: string) {
    exists i | 0 <= i <= |s| :: OccursAt(s, sub, i)
  }

  /** Number of leading white-space characters. */
  function LeadingWhite(s: string): (n: nat)
    ensures n <= |s|
    ensures forall k :: 0 <= k < n ==> IsWhiteSpace(s[k])
    ensures n < |s| ==> !IsWhiteSpace(s[n])
  {
    if |s| == 0 || !IsWhiteSpace(s[0]) then 0 else 1 + LeadingWhite(s[1..])
  }

  /** Number of trailing white-space characters. */
  function TrailingWhite(s: string): (n: nat)
    ensures n <= |s|
    ensures forall k :: |s| - n <= k < |s| ==> IsWhiteSpace(s[k])
    ensures n < |s| ==> !IsWhiteSpace(s[|s| - n - 1])
  {
    if |s| == 0 || !IsWhiteSpace(s[|s| - 1]) then 0 else 1 + TrailingWhite(s[..|s| - 1])
  }

  /** `s.Trim()`: the slice between the leading and the trailing white space. */
  function Trim(s: string): (r: string)
    ensures IsBlank(s) <==> r == []
    ensures r != [] ==> !IsWhiteSpace(r[0]) && !IsWhiteSpace(r[|r| - 1])
    ensures exists a, b :: IsBlank(a) && IsBlank(b) && s == a + r + b
  {
    var lead := LeadingWhite(s);
    if lead == |s| then
      var none: string := [];
      assert IsBlank(s) && IsBlank(none) && s == s + none + none;
      none
    else
      TrimSlice(s, lead, TrailingWhite(s));
      s[lead..|s| - TrailingWhite(s)]
  }

  /** Cutting the leading and the trailing white space off a string that is not blank. */
  lemma TrimSlice(s: string, lead: nat, trail: nat)
    requires lead == LeadingWhite(s) < |s| && trail == TrailingWhite(s)
    ensures lead < |s| - trail
    ensures var r := s[lead..|s| - trail];
      && r != [] && !IsWhiteSpace(r[0]) && !IsWhiteSpace(r[|r| - 1])
      && !IsBlank(s)
      && IsBlank(s[..lead]) && IsBlank(s[|s| - trail..])
      && s == s[..lead] + r + s[|s| - trail..]
  {
    assert !IsWhiteSpace(s[lead]);
    assert s == s[..lead] + s[lead..|s| - trail] + s[|s| - trail..];
  }

  /** ASCII upper-casing, the part of .NET's invariant case mapping the model needs. */
  function AsciiUpper(c: char): char {
    if 'a' <= c <= 'z' then (c as int - 32) as char else c
  }

  /** `string.Equals(a, b, StringComparison.OrdinalIgnoreCase)` under ASCII case folding. */
  predicate EqualsIgnoreCase(a: string, b: string) {
    |a| == |b| && forall i :: 0 <= i < |a| ==> AsciiUpper(a[i]) == AsciiUpper(b[i])
  }

  /** `token` occurs at position `i` of `s`, ignoring ASCII case. */
  predicate MatchesAt(s: string, token: string, i: int) {
    0 <= i <= |s| - |token| && EqualsIgnoreCase(s[i..i + |token|], token)
  }

  /** `s.IndexOf(token, StringComparison.OrdinalIgnoreCase)`, searching from `from`. */
  function IndexOfIgnoreCaseFrom(s: string, token: string, from: nat): (r: Option<nat>)
    decreases |s| - from
    ensures r.Some? ==> from <= r.value && MatchesAt(s, token, r.value)
    ensures r.Some? ==> forall k :: from <= k < r.value ==> !MatchesAt(s, token, k)
    ensures r.None? ==> forall k :: from <= k ==> !MatchesAt(s, token, k)
  {
    if from + |token| > |s| then None
    else if MatchesAt(s, token, from) then Some(from)
    else IndexOfIgnoreCaseFrom(s, token, from + 1)
  }

  /** The first position of `token` in `s`, ignoring ASCII case. */
  function IndexOfIgnoreCase(s: string, token: string): (r: Option<nat>)
    ensures r.Some? ==> MatchesAt(s, token, r.value)
    ensures r.Some? ==> forall k :: 0 <= k < r.value ==> !MatchesAt(s, token, k)
    ensures r.None? <==> forall k :: !MatchesAt(s, token, k)
  {
    IndexOfIgnoreCaseFrom(s, token, 0)
  }

  /** Stripping a suffix that was just appended gives back the original. */
  lemma DropAppendedSuffix(s: string, suffix: string)
    ensures EndsWith(s + suffix, suffix)
    ensures DropSuffix(s + suffix, suffix) == s
  {
    assert (s + suffix)[|s|..] == suffix;
    assert (s + suffix)[..|s|] == s;
  }

  /**
    * Ordinal string order: code point by code point, a proper prefix first.
    * This is how SQLite's default BINARY collation orders UTF-8 text.
    */
  predicate LexLessEq(a: string, b: string)
    decreases |a|
  {
    |a| == 0 || (|b| > 0 && (a[0] < b[0] || (a[0] == b[0] && LexLessEq(a[1..], b[1..]))))
  }

  lemma {:induction false} LexTotal(a: string, b: string)
    ensures LexLessEq(a, b) || LexLessEq(b, a)
    decreases |a|
  {
    if |a| > 0 && |b| > 0 && a[0] == b[0] {
      LexTotal(a[1..], b[1..]);
    }
  }

  lemma {:induction false} LexTransitive(a: string, b: string, c: string)
    requires LexLessEq(a, b) && LexLessEq(b, c)
    ensures LexLessEq(a, c)
    decreases |a|
  {
    if |a| > 0 && a[0] == b[0] && b[0] == c[0] {
      LexTransitive(a[1..], b[1..], c[1..]);
    }
  }

  lemma {:induction false} LexAntisymmetric(a: string, b: string)
    requires LexLessEq(a, b) && LexLessEq(b, a)
    ensures a == b
    decreases |a|
  {
    if |a| > 0 {
      LexAntisymmetric(a[1..], b[1..]);
      assert a == [a[0]] + a[1..] && b == [b[0]] + b[1..];
    }
  }
}

=== FILE: time_calculation.dfy ===
/**
  * The daily work-time summary of the time-tracking backend
  * (`calculateDailySummary`): time entries are sorted by timestamp and
  * replayed through two open markers, the last `KOMMEN` (clock-in) and the
  * last `PAUSE_START`. A `GEHEN` (clock-out) credits the time since the open
  * clock-in to its own UTC date; a `PAUSE_ENDE` debits the pause. Instants
  * are milliseconds since the Unix epoch, as `Date.getTime()` returns them,
  * and a UTC date is its day number.
  */
module TimeCalculation {
  import opened Wrappers
  import opened Sorting

  const MillisPerMinute: int := 60000
  const MillisPerDay: int := 86400000

  /** `BookingType` of the Prisma schema. */
  datatype BookingType = Kommen | Gehen | PauseStart | PauseEnde

  datatype Entry = Entry(timestampMs: int, kind: BookingType)

  /** `DailySummary` without the `readable` text: the UTC day number and the worked minutes. */
  datatype DailySummary = DailySummary(date: int, workedMinutes: nat)

  function Timestamp(e: Entry): int { e.timestampMs }

  /** The date part of `toISOString()`: the UTC day the instant falls in. */
  function DateKey(t: int): int {
    t / MillisPerDay
  }

  /** The day number `d` covers the instants from `d * 86400000` up to the next day. */
  lemma DateKeyBounds(t: int)
    ensures DateKey(t) * MillisPerDay <= t < (DateKey(t) + 1) * MillisPerDay
  {
  }

  lemma DateKeyMonotone(a: int, b: int)
    requires a <= b
    ensures DateKey(a) <= DateKey(b)
  {
    DateKeyBounds(a);
    DateKeyBounds(b);
  }

  /**
    * `Math.max(0, Math.round(ms / 60000))`: the nearest whole number of
    * minutes, halves rounded up, and never below zero.
    */
  function RoundMinutes(ms: int): nat {
    var r := (ms + MillisPerMinute / 2) / MillisPerMinute;
    if r < 0 then 0 else r
  }

  /** A whole number of minutes rounds to itself. */
  lemma RoundWholeMinutes(n: nat)
    ensures RoundMinutes(n * MillisPerMinute) == n
  {
  }

  /** Rounding is to the nearest minute, halves up, and everything below half a minute gives zero. */
  lemma RoundMinutesNearest(ms: int)
    ensures RoundMinutes(ms) == 0 <==> ms < MillisPerMinute / 2
    ensures RoundMinutes(ms) > 0 ==>
      RoundMinutes(ms) * MillisPerMinute - MillisPerMinute / 2 <= ms < RoundMinutes(ms) * MillisPerMinute + MillisPerMinute / 2
  {
  }

  // ---------------------------------------------------------------------
  // The per-day table and the replay state
  // ---------------------------------------------------------------------

  /**
    * The replay state: `perDay` as its keys in insertion order (the order
    * `Object.entries` lists them in) and its amounts in milliseconds, with
    * the open clock-in and pause markers.
    */
  datatype Tally = Tally(dates: seq<int>, perDay: map<int, int>, lastIn: Option<int>, pauseStarted: Option<int>)

  /** The milliseconds recorded for `date`; zero for a date not in the table. */
  function Amount(t: Tally, date: int): int {
    if date in t.perDay then t.perDay[date] else 0
  }

  /** The key list and the map hold the same dates. */
  ghost predicate Consistent(t: Tally) {
    forall d :: d in t.dates <==> d in t.perDay
  }

  /** The amount an entry moves on its own date, if it closes an open marker. */
  function StepDelta(t: Tally, e: Entry): Option<int> {
    if e.kind.Gehen? && t.lastIn.Some? then Some(e.timestampMs - t.lastIn.value)
    else if e.kind.PauseEnde? && t.pauseStarted.Some? then Some(-(e.timestampMs - t.pauseStarted.value))
    else None
  }

  /** One iteration of the replay loop. */
  function Step(t: Tally, e: Entry): Tally {
    var d := DateKey(e.timestampMs);
    var dates := if d in t.perDay then t.dates else t.dates + [d];
    var perDay := if d in t.perDay then t.perDay else t.perDay[d := 0];
    match e.kind
    case Kommen => Tally(dates, perDay, Some(e.timestampMs), t.pauseStarted)
    case PauseStart => Tally(dates, perDay, t.lastIn, Some(e.timestampMs))
    case PauseEnde =>
      if t.pauseStarted.None? then Tally(dates, perDay, t.lastIn, t.pauseStarted)
      else Tally(dates, perDay[d := perDay[d] - (e.timestampMs - t.pauseStarted.value)], t.lastIn, None)
    case Gehen =>
      if t.lastIn.None? then Tally(dates, perDay, t.lastIn, t.pauseStarted)
      else Tally(dates, perDay[d := perDay[d] + (e.timestampMs - t.lastIn.value)], None, t.pauseStarted)
  }

  /** The replay of `entries` in the given order. */
  function Run(entries: seq<Entry>): Tally {
    if |entries| == 0 then Tally([], map[], None, None)
    else Step(Run(entries[..|entries| - 1]), entries[|entries| - 1])
  }

  /** `Object.entries(perDay).map(...)`: one summary per key, in key order. */
  function Report(t: Tally): (r: seq<DailySummary>)
    ensures |r| == |t.dates|
    ensures forall i :: 0 <= i < |r| ==> r[i].date == t.dates[i]
  {
    seq(|t.dates|, i requires 0 <= i < |t.dates| => DailySummary(t.dates[i], RoundMinutes(Amount(t, t.dates[i]))))
  }

  /** The summaries after replaying the entries in timestamp order. */
  function Summaries(entries: seq<Entry>): seq<DailySummary> {
    Report(Run(SortByKey(entries, Timestamp)))
  }

  // ---------------------------------------------------------------------
  // The accounting of one entry
  // ---------------------------------------------------------------------

  /**
    * What one entry does: its date enters the table; a clock-out with an
    * open clock-in credits the time since it to the clock-out's date and
    * closes it; a pause end with an open pause debits the pause from its
    * date and closes it; without an open marker either has no effect; a
    * clock-in or pause start replaces the open marker. No other date's
    * amount changes.
    */
  lemma StepAccounting(t: Tally, e: Entry)
    requires Consistent(t)
    ensures var r := Step(t, e); var d := DateKey(e.timestampMs); var ts := e.timestampMs;
      && Consistent(r)
      && d in r.dates
      && (forall d' :: Amount(r, d') == Amount(t, d') + (if d' == d && StepDelta(t, e).Some? then StepDelta(t, e).value else 0))
      && (e.kind.Kommen? ==> r.lastIn == Some(ts) && r.pauseStarted == t.pauseStarted)
      && (e.kind.PauseStart? ==> r.lastIn == t.lastIn && r.pauseStarted == Some(ts))
      && (e.kind.Gehen? ==> r.lastIn.None? && r.pauseStarted == t.pauseStarted)
      && (e.kind.PauseEnde? ==> r.lastIn == t.lastIn && r.pauseStarted.None?)
  {
  }

  /** A clock-out with an open clock-in credits the elapsed time; without one it only opens the date. */
  lemma ClockOutCredits(t: Tally, come: int, go: int)
    requires t.lastIn == Some(come)
    ensures Amount(Step(t, Entry(go, Gehen)), DateKey(go)) == Amount(t, DateKey(go)) + (go - come)
    ensures Amount(Step(t.(lastIn := None), Entry(go, Gehen)), DateKey(go)) == Amount(t, DateKey(go))
  {
  }

  // ---------------------------------------------------------------------
  // One summary per date
  // ---------------------------------------------------------------------

  /** The distinct values of `xs` in order of first appearance. */
  function Distinct(xs: seq<int>): seq<int> {
    if |xs| == 0 then []
    else
      var d := Distinct(xs[..|xs| - 1]);
      if xs[|xs| - 1] in d then d else d + [xs[|xs| - 1]]
  }

  function DateKeys(entries: seq<Entry>): (r: seq<int>)
    ensures |r| == |entries| && forall i :: 0 <= i < |entries| ==> r[i] == DateKey(entries[i].timestampMs)
  {
    seq(|entries|, i requires 0 <= i < |entries| => DateKey(entries[i].timestampMs))
  }

  /** The table's dates are the entries' dates, each once, in order of first appearance. */
  lemma {:induction false} RunDates(entries: seq<Entry>)
    ensures Consistent(Run(entries))
    ensures Run(entries).dates == Distinct(DateKeys(entries))
    decreases |entries|
  {
    if |entries| > 0 {
      var init := entries[..|entries| - 1];
      RunDates(init);
      assert DateKeys(entries)[..|entries| - 1] == DateKeys(init);
      StepAccounting(Run(init), entries[|entries| - 1]);
    }
  }

  lemma {:induction false} DistinctMembers(xs: seq<int>)
    ensures forall x :: x in Distinct(xs) <==> x in xs
    decreases |xs|
  {
    if |xs| > 0 {
      var init := xs[..|xs| - 1];
      DistinctMembers(init);
      assert xs == init + [xs[|xs| - 1]];
    }
  }

  /** Over non-decreasing values the distinct values strictly increase and end with the last value. */
  lemma {:induction false} DistinctOfSortedAscends(xs: seq<int>)
    requires forall i, j :: 0 <= i < j < |xs| ==> xs[i] <= xs[j]
    ensures var d := Distinct(xs);
      && (forall i, j :: 0 <= i < j < |d| ==> d[i] < d[j])
      && (|xs| > 0 ==> |d| > 0 && d[|d| - 1] == xs[|xs| - 1])
    decreases |xs|
  {
    if |xs| > 0 {
      var init := xs[..|xs| - 1];
      var last := xs[|xs| - 1];
      DistinctOfSortedAscends(init);
      DistinctMembers(init);
      var d := Distinct(init);
      if |init| > 0 {
        assert d[|d| - 1] == init[|init| - 1] <= last;
      }
      if last !in d {
        forall i | 0 <= i < |d| ensures d[i] < last {
          assert d[i] <= d[|d| - 1];
          assert d[i] != last;
        }
      }
    }
  }

  // ---------------------------------------------------------------------
  // The loop
  // ---------------------------------------------------------------------

  /** The dates of the summaries. */
  function SummaryDates(result: seq<DailySummary>): set<int> {
    set i | 0 <= i < |result| :: result[i].date
  }

  /** The UTC dates of the entries. */
  function EntryDates(entries: seq<Entry>): set<int> {
    set k | 0 <= k < |entries| :: DateKey(entries[k].timestampMs)
  }

  /** Timestamp order puts the dates in non-decreasing order. */
  lemma SortedDateKeysAscend(sorted: seq<Entry>)
    requires SortedByKey(sorted, Timestamp)
    ensures forall a, b :: 0 <= a < b < |sorted| ==> DateKeys(sorted)[a] <= DateKeys(sorted)[b]
  {
    forall a, b | 0 <= a < b < |sorted| ensures DateKeys(sorted)[a] <= DateKeys(sorted)[b] {
      assert Timestamp(sorted[a]) <= Timestamp(sorted[b]);
      DateKeyMonotone(sorted[a].timestampMs, sorted[b].timestampMs);
    }
  }

  /** The same entries in another order have the same dates. */
  lemma EntryDatesOfPermutation(a: seq<Entry>, b: seq<Entry>)
    requires multiset(a) == multiset(b)
    ensures EntryDates(a) == EntryDates(b)
  {
    forall d | d in EntryDates(a) ensures d in EntryDates(b) {
      var k :| 0 <= k < |a| && DateKey(a[k].timestampMs) == d;
      assert a[k] in multiset(b);
      var k' :| 0 <= k' < |b| && b[k'] == a[k];
    }
    forall d | d in EntryDates(b) ensures d in EntryDates(a) {
      var k :| 0 <= k < |b| && DateKey(b[k].timestampMs) == d;
      assert b[k] in multiset(a);
      var k' :| 0 <= k' < |a| && a[k'] == b[k];
    }
  }

  /** A report lists exactly the dates of its table. */
  lemma ReportDates(t: Tally)
    ensures forall d :: d in SummaryDates(Report(t)) <==> d in t.dates
  {
    var r := Report(t);
    forall d | d in t.dates ensures d in SummaryDates(r) {
      var i :| 0 <= i < |t.dates| && t.dates[i] == d;
      assert r[i].date == d;
    }
  }

  /** The entries' dates are the values of their date keys. */
  lemma EntryDatesAreDateKeys(entries: seq<Entry>)
    ensures forall d :: d in EntryDates(entries) <==> d in DateKeys(entries)
  {
    var keys := DateKeys(entries);
    forall d | d in keys ensures d in EntryDates(entries) {
      var k :| 0 <= k < |keys| && keys[k] == d;
    }
  }

  /** The summaries come in strictly ascending date order, so no date appears twice. */
  lemma SummariesAscend(entries: seq<Entry>)
    ensures var result := Summaries(entries);
      forall i, j :: 0 <= i < j < |result| ==> result[i].date < result[j].date
  {
    var sorted := SortByKey(entries, Timestamp);
    RunDates(sorted);
    SortedDateKeysAscend(sorted);
    DistinctOfSortedAscends(DateKeys(sorted));
  }

  /** There is a summary for every date of an entry, and for no other date. */
  lemma SummariesCoverEntryDates(entries: seq<Entry>)
    ensures SummaryDates(Summaries(entries)) == EntryDates(entries)
  {
    var sorted := SortByKey(entries, Timestamp);
    var t := Run(sorted);
    ReportDates(t);
    RunDates(sorted);
    DistinctMembers(DateKeys(sorted));
    EntryDatesAreDateKeys(sorted);
    EntryDatesOfPermutation(sorted, entries);
  }

  /**
    * The body of the loop over the sorted entries: the entry's date enters
    * the table, then the branch for its booking type runs.
    */
  method ReplayEntry(dates: seq<int>, perDay: map<int, int>, lastIn: Option<int>, pauseStarted: Option<int>, e: Entry)
    returns (dates': seq<int>, perDay': map<int, int>, lastIn': Option<int>, pauseStarted': Option<int>)
    ensures Tally(dates', perDay', lastIn', pauseStarted') == Step(Tally(dates, perDay, lastIn, pauseStarted), e)
  {
    dates', perDay', lastIn', pauseStarted' := dates, perDay, lastIn, pauseStarted;
    var d := DateKey(e.timestampMs);
    if d !in perDay' {
      dates' := dates' + [d];
      perDay' := perDay'[d := 0];
    }
    if e.kind == Kommen {
      lastIn' := Some(e.timestampMs);
    }
    if e.kind == PauseStart {
      pauseStarted' := Some(e.timestampMs);
    }
    if e.kind == PauseEnde && pauseStarted'.Some? {
      perDay' := perDay'[d := perDay'[d] - (e.timestampMs - pauseStarted'.value)];
      pauseStarted' := None;
    }
    if e.kind == Gehen && lastIn'.Some? {
      perDay' := perDay'[d := perDay'[d] + (e.timestampMs - lastIn'.value)];
      lastIn' := None;
    }
  }

  /**
    * `calculateDailySummary(entries)`: one summary per distinct UTC date of
    * the entries, in ascending date order, each with the minutes the
    * replay in timestamp order credits to that date.
    */
  method CalculateDailySummary(entries: seq<Entry>) returns (result: seq<DailySummary>)
    ensures result == Summaries(entries)
    ensures forall i, j :: 0 <= i < j < |result| ==> result[i].date < result[j].date
    ensures SummaryDates(result) == EntryDates(entries)
  {
    var sorted := SortByKey(entries, Timestamp);
    var dates: seq<int> := [];
    var perDay: map<int, int> := map[];
    var lastIn: Option<int> := None;
    var pauseStarted: Option<int> := None;
    for i := 0 to |sorted|
      invariant Tally(dates, perDay, lastIn, pauseStarted) == Run(sorted[..i])
    {
      RunExtends(sorted, i);
      dates, perDay, lastIn, pauseStarted := ReplayEntry(dates, perDay, lastIn, pauseStarted, sorted[i]);
    }
    assert sorted[..|sorted|] == sorted;
    var t := Tally(dates, perDay, lastIn, pauseStarted);
    result := seq(|dates|, k requires 0 <= k < |dates| => DailySummary(dates[k], RoundMinutes(Amount(t, dates[k]))));
    assert result == Report(t);
    SummariesAscend(entries);
    SummariesCoverEntryDates(entries);
  }

  // ---------------------------------------------------------------------
  // Order of the input
  // ---------------------------------------------------------------------

  /** Sorting entries that are already in timestamp order keeps them as they are. */
  lemma SortedEntriesStay(entries: seq<Entry>)
    requires SortedByKey(entries, Timestamp)
    ensures SortByKey(entries, Timestamp) == entries
  {
    StableSortCharacterised(entries, entries, Timestamp);
  }

  /** The replay of a prefix one entry longer is one more step. */
  lemma RunExtends(s: seq<Entry>, n: nat)
    requires n < |s|
    ensures Run(s[..n + 1]) == Step(Run(s[..n]), s[n])
  {
    assert s[..n + 1][..n] == s[..n];
  }

  /** With pairwise distinct timestamps the summary does not depend on the order of the input. */
  lemma InputOrderIrrelevantForDistinctTimestamps(a: seq<Entry>, b: seq<Entry>)
    requires multiset(a) == multiset(b)
    requires DistinctKeys(a, Timestamp)
    ensures Summaries(a) == Summaries(b)
  {
    SortIgnoresOrderOfDistinctKeys(a, b, Timestamp);
  }

  /**
    * A shift from midnight to `h` and the next from `h` to `2 * h`: the
    * clock-out and the new clock-in share the timestamp `h` and come in
    * the given order.
    */
  function ShiftChange(h: int, clockOutFirst: bool): (s: seq<Entry>)
    ensures |s| == 4
  {
    if clockOutFirst then [Entry(0, Kommen), Entry(h, Gehen), Entry(h, Kommen), Entry(2 * h, Gehen)]
    else [Entry(0, Kommen), Entry(h, Kommen), Entry(h, Gehen), Entry(2 * h, Gehen)]
  }

  /** Both orders hold the same entries. */
  lemma ShiftChangeOrdersArePermutations(h: int)
    ensures multiset(ShiftChange(h, true)) == multiset(ShiftChange(h, false))
  {
    var a := ShiftChange(h, true);
    var b := ShiftChange(h, false);
    assert b == [a[0], a[2], a[1], a[3]];
    SwapMiddle(a[0], a[1], a[2], a[3]);
  }

  lemma SwapPair<T>(x: T, y: T)
    ensures multiset([x, y]) == multiset([y, x])
  {
    assert [x, y] == [x] + [y] && [y, x] == [y] + [x];
  }

  lemma SwapMiddle<T>(w: T, x: T, y: T, z: T)
    ensures multiset([w, x, y, z]) == multiset([w, y, x, z])
  {
    assert [w, x, y, z] == [w] + [x, y] + [z];
    assert [w, y, x, z] == [w] + [y, x] + [z];
    SwapPair(x, y);
  }

  /** The replay of the clock-out-first order, entry by entry. */
  lemma ReplayClockOutFirst(h: int)
    requires 0 < 2 * h < MillisPerDay
    ensures Run(ShiftChange(h, true)) == Tally([0], map[0 := 2 * h], None, None)
  {
    var a := ShiftChange(h, true);
    assert DateKey(0) == 0 && DateKey(h) == 0 && DateKey(2 * h) == 0 by {
      DateKeyWithinDay(0, 0);
      DateKeyWithinDay(0, h);
      DateKeyWithinDay(0, 2 * h);
    }
    assert Run(a[..3]) == Tally([0], map[0 := h], Some(h), None) by {
      assert Run(a[..2]) == Tally([0], map[0 := h], None, None) by {
        assert Run(a[..1]) == Tally([0], map[0 := 0], Some(0), None) by { RunExtends(a, 0); }
        RunExtends(a, 1);
      }
      RunExtends(a, 2);
    }
    RunExtends(a, 3);
    assert a[..4] == a;
  }

  /** The replay of the clock-in-first order, entry by entry. */
  lemma ReplayClockInFirst(h: int)
    requires 0 < 2 * h < MillisPerDay
    ensures Run(ShiftChange(h, false)) == Tally([0], map[0 := 0], None, None)
  {
    var b := ShiftChange(h, false);
    assert DateKey(0) == 0 && DateKey(h) == 0 && DateKey(2 * h) == 0 by {
      DateKeyWithinDay(0, 0);
      DateKeyWithinDay(0, h);
      DateKeyWithinDay(0, 2 * h);
    }
    assert Run(b[..3]) == Tally([0], map[0 := 0], None, None) by {
      assert Run(b[..2]) == Tally([0], map[0 := 0], Some(h), None) by {
        assert Run(b[..1]) == Tally([0], map[0 := 0], Some(0), None) by { RunExtends(b, 0); }
        RunExtends(b, 1);
      }
      RunExtends(b, 2);
    }
    RunExtends(b, 3);
    assert b[..4] == b;
  }

  /** Clock-out first: both shifts count. */
  lemma ClockOutBeforeClockIn(h: int)
    requires 0 < 2 * h < MillisPerDay
    ensures Summaries(ShiftChange(h, true)) == [DailySummary(0, RoundMinutes(2 * h))]
  {
    ReplayClockOutFirst(h);
    OneDateSummary(ShiftChange(h, true), 0, 2 * h);
  }

  /** Clock-in first: the new clock-in is closed at once and the first shift is lost. */
  lemma ClockInBeforeClockOut(h: int)
    requires 0 < 2 * h < MillisPerDay
    ensures Summaries(ShiftChange(h, false)) == [DailySummary(0, 0)]
  {
    ReplayClockInFirst(h);
    OneDateSummary(ShiftChange(h, false), 0, 0);
  }

  /**
    * Entries with equal timestamps keep their input order, and that order
    * matters: the same entries give `2 * h` of work in one order and none
    * in the other.
    */
  lemma TiedTimestampsDependOnInputOrder(h: int)
    requires MillisPerMinute <= h && 2 * h < MillisPerDay
    ensures multiset(ShiftChange(h, true)) == multiset(ShiftChange(h, false))
    ensures Summaries(ShiftChange(h, true)) != Summaries(ShiftChange(h, false))
  {
    ShiftChangeOrdersArePermutations(h);
    ClockOutBeforeClockIn(h);
    ClockInBeforeClockOut(h);
    RoundMinutesNearest(2 * h);
  }

  // ---------------------------------------------------------------------
  // A working day
  // ---------------------------------------------------------------------

  /** A clock-in, one pause and a clock-out. */
  function WorkingDay(come: int, pauseStart: int, pauseEnd: int, go: int): (s: seq<Entry>)
    ensures |s| == 4
  {
    [Entry(come, Kommen), Entry(pauseStart, PauseStart), Entry(pauseEnd, PauseEnde), Entry(go, Gehen)]
  }

  /** An instant within day `day` has that day's date. */
  lemma DateKeyWithinDay(day: int, t: int)
    requires day * 86_400_000 <= t < day * 86_400_000 + 86_400_000
    ensures DateKey(t) == day
  {
  }

  /** The replay of a clock-in, one pause and a clock-out on one date, entry by entry. */
  lemma ReplayOneDay(come: int, pauseStart: int, pauseEnd: int, go: int)
    requires DateKey(come) == DateKey(pauseStart) == DateKey(pauseEnd) == DateKey(go)
    ensures var d := DateKey(come);
      Run(WorkingDay(come, pauseStart, pauseEnd, go))
        == Tally([d], map[d := (go - come) - (pauseEnd - pauseStart)], None, None)
  {
    var s := WorkingDay(come, pauseStart, pauseEnd, go);
    var d := DateKey(come);
    assert Run(s[..3]) == Tally([d], map[d := -(pauseEnd - pauseStart)], Some(come), None) by {
      assert Run(s[..2]) == Tally([d], map[d := 0], Some(come), Some(pauseStart)) by {
        assert Run(s[..1]) == Tally([d], map[d := 0], Some(come), None) by { RunExtends(s, 0); }
        RunExtends(s, 1);
      }
      RunExtends(s, 2);
    }
    RunExtends(s, 3);
    assert s[..4] == s;
  }

  /**
    * A day with a clock-in, one pause and a clock-out, all on one UTC date,
    * yields one summary: the time between clock-in and clock-out less the
    * pause.
    */
  lemma OneWorkingDay(come: int, pauseStart: int, pauseEnd: int, go: int)
    requires come <= pauseStart <= pauseEnd <= go
    requires DateKey(come) == DateKey(go)
    ensures Summaries(WorkingDay(come, pauseStart, pauseEnd, go))
      == [DailySummary(DateKey(come), RoundMinutes((go - come) - (pauseEnd - pauseStart)))]
  {
    var s := WorkingDay(come, pauseStart, pauseEnd, go);
    var d := DateKey(come);
    var x := (go - come) - (pauseEnd - pauseStart);
    assert DateKey(come) == DateKey(pauseStart) == DateKey(pauseEnd) == DateKey(go) by {
      DateKeyMonotone(come, pauseStart);
      DateKeyMonotone(pauseStart, pauseEnd);
      DateKeyMonotone(pauseEnd, go);
    }
    ReplayOneDay(come, pauseStart, pauseEnd, go);
    OneDateSummary(s, d, x);
  }

  /** Entries in timestamp order whose replay leaves one date with amount `x` give one summary. */
  lemma OneDateSummary(s: seq<Entry>, d: int, x: int)
    requires SortedByKey(s, Timestamp) && Run(s) == Tally([d], map[d := x], None, None)
    ensures Summaries(s) == [DailySummary(d, RoundMinutes(x))]
  {
    SortedEntriesStay(s);
    OneDateReport(d, x);
  }

  /** A table holding one date reports one summary. */
  lemma OneDateReport(d: int, x: int)
    ensures Report(Tally([d], map[d := x], None, None)) == [DailySummary(d, RoundMinutes(x))]
  {
  }

  /**
    * The worked example: clock-in 08:00, pause 12:00 to 12:30, clock-out
    * 17:00 UTC on any day (1 May 2024 is day 19844) gives 510 minutes, nine
    * hours less half an hour. The instants are written in milliseconds after
    * midnight: 08:00 is 28,800,000, 12:00 is 43,200,000, 12:30 is
    * 45,000,000 and 17:00 is 61,200,000.
    */
  lemma {:induction false} WorkedExample(day: int, come: int, pauseStart: int, pauseEnd: int, go: int)
    requires come == day * 86_400_000 + 28_800_000 && pauseStart == day * 86_400_000 + 43_200_000
    requires pauseEnd == day * 86_400_000 + 45_000_000 && go == day * 86_400_000 + 61_200_000
    ensures Summaries(WorkingDay(come, pauseStart, pauseEnd, go)) == [DailySummary(day, 510)]
  {
    WorkedExampleDates(day, come, go);
    WorkedExampleMinutes(come, pauseStart, pauseEnd, go);
    OneWorkingDay(come, pauseStart, pauseEnd, go);
  }

  /** Clock-in and clock-out of the worked example fall on its day. */
  lemma WorkedExampleDates(day: int, come: int, go: int)
    requires come == day * 86_400_000 + 28_800_000 && go == day * 86_400_000 + 61_200_000
    ensures DateKey(come) == day && DateKey(go) == day
  {
    DateKeyWithinDay(day, come);
    DateKeyWithinDay(day, go);
  }

  /** Nine hours less a half-hour pause are 510 minutes. */
  lemma WorkedExampleMinutes(come: int, pauseStart: int, pauseEnd: int, go: int)
    requires go - come == 32_400_000 && pauseEnd - pauseStart == 1_800_000
    ensures RoundMinutes((go - come) - (pauseEnd - pauseStart)) == 510
  {
    RoundWholeMinutes(510);
  }
}

=== FILE: users.dfy ===
/**
  * User administration: `UsersController` (the MVC forms) and the
  * `/api/v1/users` endpoints of src/CanteenRFID.Web/Program.cs. Both check
  * that the personnel number and a non-blank UID are not already taken
  * before saving; the forms additionally enforce the `[Required]` and
  * `[MaxLength]` annotations of `User`.
  */
module Users {
  import opened Wrappers
  import opened Strings
  import opened Sorting
  import opened Entities
  import opened Seqs

  // ---------------------------------------------------------------------
  // Validation
  // ---------------------------------------------------------------------

  datatype UserError =
    | FirstNameRequired | FirstNameTooLong
    | LastNameRequired | LastNameTooLong
    | PersonnelNoRequired | PersonnelNoTooLong
    | UidTooLong
    | PersonnelNoInUse
    | UidInUse

  /** The data annotations on `User`: required names and number, and their maximum lengths. */
  predicate ValidFields(u: User) {
    && !IsBlank(u.firstName) && |u.firstName| <= 100
    && !IsBlank(u.lastName) && |u.lastName| <= 100
    && !IsBlank(u.personnelNo) && |u.personnelNo| <= 50
    && (u.uid.None? || |u.uid.value| <= 200)
  }

  /** The model-state errors the annotations produce for a posted user, field by field. */
  function FieldErrors(u: User): (errors: seq<UserError>)
    ensures errors == [] <==> ValidFields(u)
    ensures FirstNameRequired in errors <==> IsBlank(u.firstName)
    ensures PersonnelNoRequired in errors <==> IsBlank(u.personnelNo)
  {
    (if IsBlank(u.firstName) then [FirstNameRequired] else if |u.firstName| > 100 then [FirstNameTooLong] else [])
    + (if IsBlank(u.lastName) then [LastNameRequired] else if |u.lastName| > 100 then [LastNameTooLong] else [])
    + (if IsBlank(u.personnelNo) then [PersonnelNoRequired] else if |u.personnelNo| > 50 then [PersonnelNoTooLong] else [])
    + (if u.uid.Some? && |u.uid.value| > 200 then [UidTooLong] else [])
  }

  /** Another user (not `except`) already has this personnel number. */
  predicate PersonnelNoTaken(users: seq<User>, personnelNo: string, except: Option<int>) {
    exists i | 0 <= i < |users| :: users[i].personnelNo == personnelNo && (except.None? || users[i].id != except.value)
  }

  /** The UID is non-blank and another user (not `except`) already has it. */
  predicate UidTaken(users: seq<User>, uid: Option<string>, except: Option<int>) {
    && !IsNullOrBlank(uid)
    && exists i | 0 <= i < |users| :: users[i].uid == uid && (except.None? || users[i].id != except.value)
  }

  /**
    * Another user (not `except`) stores exactly this non-null UID: what the
    * unique index on `Uid` refuses on save. It also catches a blank UID,
    * which `UidTaken` lets through.
    */
  predicate UidStored(users: seq<User>, uid: Option<string>, except: Option<int>) {
    && uid.Some?
    && exists i | 0 <= i < |users| :: users[i].uid == uid && (except.None? || users[i].id != except.value)
  }

  /** The index refuses exactly what the application check refuses, plus a stored blank UID. */
  lemma IndexCatchesBlankUids(users: seq<User>, uid: Option<string>, except: Option<int>)
    ensures UidTaken(users, uid, except) ==> UidStored(users, uid, except)
    ensures UidStored(users, uid, except) && !UidTaken(users, uid, except) <==>
      uid.Some? && IsBlank(uid.value) && UidStored(users, uid, except)
  {
  }

  /** The uniqueness errors, in the order the actions add them. */
  function ConflictErrors(users: seq<User>, u: User, except: Option<int>): (errors: seq<UserError>)
    ensures PersonnelNoInUse in errors <==> PersonnelNoTaken(users, u.personnelNo, except)
    ensures UidInUse in errors <==> UidTaken(users, u.uid, except)
    ensures forall e :: e in errors ==> e == PersonnelNoInUse || e == UidInUse
  {
    (if PersonnelNoTaken(users, u.personnelNo, except) then [PersonnelNoInUse] else [])
    + (if UidTaken(users, u.uid, except) then [UidInUse] else [])
  }

  /** The editable fields of `form` written over `existing`; key and creation time stay. */
  function Edited(existing: User, form: User): (r: User)
    ensures r.id == existing.id && r.createdAtUtc == existing.createdAtUtc
    ensures r.firstName == form.firstName && r.lastName == form.lastName
    ensures r.personnelNo == form.personnelNo && r.uid == form.uid && r.isActive == form.isActive
  {
    existing.(firstName := form.firstName, lastName := form.lastName, personnelNo := form.personnelNo,
              uid := form.uid, isActive := form.isActive)
  }

  // ---------------------------------------------------------------------
  // UsersController
  // ---------------------------------------------------------------------

  /**
    * What a form post returns: back to the list, the form with errors, or
    * 404. The last three stand for the database refusing `SaveChangesAsync`,
    * for which the controller has no branch: `KeyConflict` when the primary
    * key is already stored, `UidIndexConflict` when another user stores the
    * same `Uid` (form binding turns a white-space `Uid` into null, so a
    * bound form does not reach it), and `StillReferenced` when a stamp's
    * `UserId` foreign key still points at the user being deleted.
    */
  datatype FormResult = Redirect | Invalid(errors: seq<UserError>) | NotFound | KeyConflict | UidIndexConflict | StillReferenced

  datatype Reply = Reply(result: FormResult, users: seq<User>)

  /** `Create(User)`: adds the user unless a field or uniqueness check fails. */
  function Create(users: seq<User>, user: User): (r: Reply)
    ensures r.result.Redirect? <==>
      && ValidFields(user)
      && !PersonnelNoTaken(users, user.personnelNo, None)
      && !UidStored(users, user.uid, None)
      && FindUser(users, user.id).None?
    ensures r.result.Redirect? ==> r.users == users + [user]
    ensures !r.result.Redirect? ==> r.users == users
    ensures !r.result.NotFound? && !r.result.StillReferenced?
    ensures r.result.Invalid? <==> FieldErrors(user) + ConflictErrors(users, user, None) != []
    ensures r.result.Invalid? ==> r.result.errors == FieldErrors(user) + ConflictErrors(users, user, None)
  {
    var errors := FieldErrors(user) + ConflictErrors(users, user, None);
    if errors != [] then Reply(Invalid(errors), users)
    else if FindUser(users, user.id).Some? then Reply(KeyConflict, users)
    else if UidStored(users, user.uid, None) then Reply(UidIndexConflict, users)
    else Reply(Redirect, users + [user])
  }

  /**
    * `Edit(Guid, User)`: 404 for an unknown id; otherwise the same checks
    * as `Create`, ignoring the user being edited, then the five editable
    * fields are copied.
    */
  function Edit(users: seq<User>, id: int, form: User): (r: Reply)
    ensures r.result.NotFound? <==> FindUser(users, id).None?
    ensures !r.result.Redirect? ==> r.users == users
    ensures !r.result.KeyConflict? && !r.result.StillReferenced?
    ensures r.result.Redirect? <==>
      && FindUser(users, id).Some?
      && ValidFields(form)
      && !PersonnelNoTaken(users, form.personnelNo, Some(id))
      && !UidStored(users, form.uid, Some(id))
    ensures r.result.Invalid? <==> FindUser(users, id).Some? && FieldErrors(form) + ConflictErrors(users, form, Some(id)) != []
    ensures r.result.Invalid? ==> r.result.errors == FieldErrors(form) + ConflictErrors(users, form, Some(id))
    ensures r.result.Redirect? ==>
      var k := FindUser(users, id).value;
      && |r.users| == |users|
      && r.users[k] == Edited(users[k], form)
      && forall i :: 0 <= i < |users| && i != k ==> r.users[i] == users[i]
  {
    match FindUser(users, id)
    case None => Reply(NotFound, users)
    case Some(k) =>
      var errors := FieldErrors(form) + ConflictErrors(users, form, Some(id));
      if errors != [] then Reply(Invalid(errors), users)
      else if UidStored(users, form.uid, Some(id)) then Reply(UidIndexConflict, users)
      else Reply(Redirect, users[k := Edited(users[k], form)])
  }

  /** Some stamp's `UserId` still points at the user with this id. */
  predicate HasStamps(stamps: seq<Stamp>, id: int) {
    exists i :: 0 <= i < |stamps| && stamps[i].userId == Some(id)
  }

  /**
    * `Delete(Guid)`: an unknown id changes nothing; a known user is removed
    * unless a stamp still references them. `Stamp.UserId` is a foreign key
    * without a delete rule, so the database refuses that save and the table
    * stays as it was.
    */
  function Delete(users: seq<User>, stamps: seq<Stamp>, id: int): (r: Reply)
    ensures r.result.Redirect? || r.result.StillReferenced?
    ensures r.result.StillReferenced? <==> FindUser(users, id).Some? && HasStamps(stamps, id)
    ensures !r.result.Redirect? || FindUser(users, id).None? ==> r.users == users
    ensures r.result.Redirect? && FindUser(users, id).Some? ==> r.users == RemoveAt(users, FindUser(users, id).value)
  {
    match FindUser(users, id)
    case None => Reply(Redirect, users)
    case Some(k) =>
      if HasStamps(stamps, id) then Reply(StillReferenced, users)
      else Reply(Redirect, RemoveAt(users, k))
  }

  /** The list filter: first name, last name or personnel number contains the search text. */
  predicate MatchesSearch(u: User, search: string) {
    Contains(u.firstName, search) || Contains(u.lastName, search) || Contains(u.personnelNo, search)
  }

  function FilterUsers(users: seq<User>, keep: User -> bool): (r: seq<User>)
    ensures forall u :: u in r <==> u in users && keep(u)
    ensures multiset(r) <= multiset(users)
  {
    if |users| == 0 then []
    else
      assert users == [users[0]] + users[1..];
      (if keep(users[0]) then [users[0]] else []) + FilterUsers(users[1..], keep)
  }

  /** A rearrangement has the same members. */
  lemma SameMembers(a: seq<User>, b: seq<User>)
    requires multiset(a) == multiset(b)
    ensures forall u :: u in a <==> u in b
  {
    forall u ensures u in a <==> u in b {
      assert u in a <==> u in multiset(a);
      assert u in b <==> u in multiset(b);
    }
  }

  function LastName(u: User): string {
    u.lastName
  }

  /** `Index(search)`: the users matching a non-blank search (all otherwise), ordered by last name. */
  function Index(users: seq<User>, search: Option<string>): (r: seq<User>)
    ensures SortedByName(r, LastName)
    ensures forall u :: u in r <==> u in users && (IsNullOrBlank(search) || MatchesSearch(u, search.value))
    ensures multiset(r) <= multiset(users)
    ensures IsNullOrBlank(search) ==> multiset(r) == multiset(users)
  {
    if IsNullOrBlank(search) then
      var r := SortByName(users, LastName);
      SameMembers(r, users);
      r
    else
      var kept := FilterUsers(users, u => MatchesSearch(u, search.value));
      var r := SortByName(kept, LastName);
      SameMembers(r, kept);
      r
  }

  // ---------------------------------------------------------------------
  // /api/v1/users
  // ---------------------------------------------------------------------

  /**
    * What an API call returns. The last three stand for the database
    * refusing the save, for which the endpoints have no branch: a primary
    * key already stored, a `Uid` another user stores (a blank one passes
    * the endpoints' own check), and a stamp still referencing the user
    * being deleted.
    */
  datatype ApiResult =
    | Created(user: User) | Updated(user: User) | Deleted | BadRequest(message: string)
    | ApiNotFound | ApiConflict | ApiUidIndexConflict | ApiStillReferenced

  datatype ApiReply = ApiReply(result: ApiResult, users: seq<User>)

  const PersonnelNoMessage: string := "Personalnummer bereits vergeben"
  const UidMessage: string := "UID bereits vergeben"

  /** `POST /api/v1/users`: no annotation checks; the first failing uniqueness check is reported. */
  function ApiCreate(users: seq<User>, user: User): (r: ApiReply)
    ensures r.result.Created? ==> r.users == users + [user] && r.result.user == user
    ensures r.result in {BadRequest(PersonnelNoMessage), BadRequest(UidMessage), ApiConflict, ApiUidIndexConflict}
      || r.result.Created?
    ensures !r.result.Created? ==> r.users == users
    ensures r.result == BadRequest(PersonnelNoMessage) <==> PersonnelNoTaken(users, user.personnelNo, None)
    ensures r.result == BadRequest(UidMessage) <==> !PersonnelNoTaken(users, user.personnelNo, None) && UidTaken(users, user.uid, None)
    ensures r.result.Created? <==>
      !PersonnelNoTaken(users, user.personnelNo, None) && !UidStored(users, user.uid, None) && FindUser(users, user.id).None?
    ensures r.result == ApiUidIndexConflict <==>
      && !PersonnelNoTaken(users, user.personnelNo, None) && FindUser(users, user.id).None?
      && user.uid.Some? && IsBlank(user.uid.value) && UidStored(users, user.uid, None)
  {
    if PersonnelNoTaken(users, user.personnelNo, None) then ApiReply(BadRequest(PersonnelNoMessage), users)
    else if UidTaken(users, user.uid, None) then ApiReply(BadRequest(UidMessage), users)
    else if FindUser(users, user.id).Some? then ApiReply(ApiConflict, users)
    else if UidStored(users, user.uid, None) then ApiReply(ApiUidIndexConflict, users)
    else ApiReply(Created(user), users + [user])
  }

  /** `PUT /api/v1/users/{id}`: as the form's `Edit`, without annotation checks. */
  function ApiUpdate(users: seq<User>, id: int, user: User): (r: ApiReply)
    ensures r.result == ApiNotFound <==> FindUser(users, id).None?
    ensures r.result == BadRequest(PersonnelNoMessage) <==>
      FindUser(users, id).Some? && PersonnelNoTaken(users, user.personnelNo, Some(id))
    ensures r.result == BadRequest(UidMessage) <==>
      && FindUser(users, id).Some? && !PersonnelNoTaken(users, user.personnelNo, Some(id))
      && UidTaken(users, user.uid, Some(id))
    ensures r.result in {ApiNotFound, BadRequest(PersonnelNoMessage), BadRequest(UidMessage), ApiUidIndexConflict}
      || r.result.Updated?
    ensures !r.result.Updated? ==> r.users == users
    ensures !r.result.Created? && !r.result.ApiConflict?
    ensures r.result.Updated? <==>
      FindUser(users, id).Some? && !PersonnelNoTaken(users, user.personnelNo, Some(id)) && !UidStored(users, user.uid, Some(id))
    ensures r.result == ApiUidIndexConflict <==>
      && FindUser(users, id).Some? && !PersonnelNoTaken(users, user.personnelNo, Some(id))
      && user.uid.Some? && IsBlank(user.uid.value) && UidStored(users, user.uid, Some(id))
    ensures r.result.Updated? ==>
      var k := FindUser(users, id).value;
      r.users == users[k := Edited(users[k], user)] && r.result.user == Edited(users[k], user)
  {
    match FindUser(users, id)
    case None => ApiReply(ApiNotFound, users)
    case Some(k) =>
      if PersonnelNoTaken(users, user.personnelNo, Some(id)) then ApiReply(BadRequest(PersonnelNoMessage), users)
      else if UidTaken(users, user.uid, Some(id)) then ApiReply(BadRequest(UidMessage), users)
      else if UidStored(users, user.uid, Some(id)) then ApiReply(ApiUidIndexConflict, users)
      else ApiReply(Updated(Edited(users[k], user)), users[k := Edited(users[k], user)])
  }

  /** `DELETE /api/v1/users/{id}`: 404 for an unknown id; the stamps' foreign key can refuse the removal. */
  function ApiDelete(users: seq<User>, stamps: seq<Stamp>, id: int): (r: ApiReply)
    ensures r.result == ApiNotFound <==> FindUser(users, id).None?
    ensures r.result == ApiStillReferenced <==> FindUser(users, id).Some? && HasStamps(stamps, id)
    ensures r.result in {Deleted, ApiNotFound, ApiStillReferenced}
    ensures !r.result.Deleted? ==> r.users == users
    ensures r.result.Deleted? ==> r.users == RemoveAt(users, FindUser(users, id).value)
  {
    match FindUser(users, id)
    case None => ApiReply(ApiNotFound, users)
    case Some(k) =>
      if HasStamps(stamps, id) then ApiReply(ApiStillReferenced, users)
      else ApiReply(Deleted, RemoveAt(users, k))
  }

  /** The API list filter also searches the UID, and can restrict to active users. */
  predicate ApiMatches(u: User, search: Option<string>, activeOnly: Option<bool>) {
    && (IsNullOrBlank(search) || MatchesSearch(u, search.value) || (u.uid.Some? && Contains(u.uid.value, search.value)))
    && (activeOnly != Some(true) || u.isActive)
  }

  /** `GET /api/v1/users`. */
  function ApiList(users: seq<User>, search: Option<string>, activeOnly: Option<bool>): (r: seq<User>)
    ensures SortedByName(r, LastName)
    ensures forall u :: u in r <==> u in users && ApiMatches(u, search, activeOnly)
    ensures multiset(r) <= multiset(users)
  {
    var kept := FilterUsers(users, u => ApiMatches(u, search, activeOnly));
    var r := SortByName(kept, LastName);
    SameMembers(r, kept);
    r
  }

  // ---------------------------------------------------------------------
  // The unique indexes are kept
  // ---------------------------------------------------------------------

  lemma AppendKeepsWellFormed(users: seq<User>, user: User)
    requires UsersWellFormed(users)
    requires !PersonnelNoTaken(users, user.personnelNo, None) && !UidStored(users, user.uid, None)
    requires FindUser(users, user.id).None?
    ensures UsersWellFormed(users + [user])
  {
    var r := users + [user];
    forall i, j | 0 <= i < j < |r| ensures r[i].id != r[j].id && r[i].personnelNo != r[j].personnelNo
      && (r[i].uid.Some? ==> r[i].uid != r[j].uid)
    {
      if j == |users| {
        assert r[i] == users[i] && r[j] == user;
      }
    }
  }

  lemma ReplaceKeepsWellFormed(users: seq<User>, k: nat, form: User)
    requires UsersWellFormed(users) && k < |users|
    requires !PersonnelNoTaken(users, form.personnelNo, Some(users[k].id))
    requires !UidStored(users, form.uid, Some(users[k].id))
    ensures UsersWellFormed(users[k := Edited(users[k], form)])
  {
    var r := users[k := Edited(users[k], form)];
    forall i, j | 0 <= i < j < |r| ensures r[i].id != r[j].id && r[i].personnelNo != r[j].personnelNo
      && (r[i].uid.Some? ==> r[i].uid != r[j].uid)
    {
      if i == k {
        assert users[j].id != users[k].id && r[j] == users[j];
      } else if j == k {
        assert users[i].id != users[k].id && r[i] == users[i];
      }
    }
  }

  lemma RemoveKeepsWellFormed(users: seq<User>, k: nat)
    requires UsersWellFormed(users) && k < |users|
    ensures UsersWellFormed(RemoveAt(users, k))
  {
    var r := RemoveAt(users, k);
    forall i, j | 0 <= i < j < |r| ensures r[i].id != r[j].id && r[i].personnelNo != r[j].personnelNo
      && (r[i].uid.Some? ==> r[i].uid != r[j].uid)
    {
      var i' := if i < k then i else i + 1;
      var j' := if j < k then j else j + 1;
      assert r[i] == users[i'] && r[j] == users[j'] && i' < j';
    }
  }

  /** Every change the forms save keeps the key and the unique indexes intact. */
  lemma FormsKeepUsersWellFormed(users: seq<User>, stamps: seq<Stamp>, user: User, id: int)
    requires UsersWellFormed(users)
    ensures UsersWellFormed(Create(users, user).users)
    ensures UsersWellFormed(Edit(users, id, user).users)
    ensures UsersWellFormed(Delete(users, stamps, id).users)
  {
    if Create(users, user).result.Redirect? {
      AppendKeepsWellFormed(users, user);
    }
    if Edit(users, id, user).result.Redirect? {
      ReplaceKeepsWellFormed(users, FindUser(users, id).value, user);
    }
    if Delete(users, stamps, id).result.Redirect? && FindUser(users, id).Some? {
      RemoveKeepsWellFormed(users, FindUser(users, id).value);
    }
  }

  /** Every stamp linked to a user links to one stored in the table. */
  ghost predicate StampsLinked(users: seq<User>, stamps: seq<Stamp>) {
    forall i :: 0 <= i < |stamps| && stamps[i].userId.Some? ==> FindUser(users, stamps[i].userId.value).Some?
  }

  /** Deleting never leaves a stamp pointing at a user who is gone. */
  lemma DeleteKeepsStampsLinked(users: seq<User>, stamps: seq<Stamp>, id: int)
    requires StampsLinked(users, stamps)
    ensures StampsLinked(Delete(users, stamps, id).users, stamps)
  {
    var r := Delete(users, stamps, id);
    if r.result.Redirect? && FindUser(users, id).Some? {
      var k := FindUser(users, id).value;
      forall i | 0 <= i < |stamps| && stamps[i].userId.Some?
        ensures FindUser(r.users, stamps[i].userId.value).Some?
      {
        var x := stamps[i].userId.value;
        var j := FindUser(users, x).value;
        assert x != id;
        var j' := if j < k then j else j - 1;
        assert r.users[j'] == users[j];
      }
    }
  }

  /** Every change the API saves keeps the key and the unique indexes intact. */
  lemma ApiKeepsUsersWellFormed(users: seq<User>, stamps: seq<Stamp>, user: User, id: int)
    requires UsersWellFormed(users)
    ensures UsersWellFormed(ApiCreate(users, user).users)
    ensures UsersWellFormed(ApiUpdate(users, id, user).users)
    ensures UsersWellFormed(ApiDelete(users, stamps, id).users)
  {
    if ApiDelete(users, stamps, id).result.Deleted? {
      RemoveKeepsWellFormed(users, FindUser(users, id).value);
    }
    if ApiCreate(users, user).result.Created? {
      AppendKeepsWellFormed(users, user);
    }
    if ApiUpdate(users, id, user).result.Updated? {
      ReplaceKeepsWellFormed(users, FindUser(users, id).value, user);
    }
  }

  /** Saving a stored, valid user unchanged succeeds: its own number and UID do not count as taken. */
  lemma ResavingUserSucceeds(users: seq<User>, k: nat)
    requires UsersWellFormed(users) && k < |users| && ValidFields(users[k])
    ensures Edit(users, users[k].id, users[k]) == Reply(Redirect, users)
  {
    UniqueKeysPickOneUser(users, k);
    forall i | 0 <= i < |users| && i != k
      ensures users[i].personnelNo != users[k].personnelNo && users[i].id != users[k].id
      ensures users[k].uid.Some? ==> users[i].uid != users[k].uid
    {
      if i < k {
        assert users[i].personnelNo != users[k].personnelNo;
      } else {
        assert users[k].personnelNo != users[i].personnelNo;
      }
    }
    assert Edited(users[k], users[k]) == users[k];
    assert users[k := users[k]] == users;
  }

  /**
    * A second empty UID sent through the API passes both endpoints' own
    * checks and is refused by the unique index, leaving the table as it was.
    */
  lemma SecondBlankUidRefused()
    ensures var users := [User(1, "Ada", "Lovelace", "P1", Some(""), true, 0), User(2, "Alan", "Turing", "P2", None, true, 0)];
      && ApiUpdate(users, 2, User(2, "Alan", "Turing", "P2", Some(""), true, 0)) == ApiReply(ApiUidIndexConflict, users)
      && ApiCreate(users, User(3, "Grace", "Hopper", "P3", Some(""), true, 0)) == ApiReply(ApiUidIndexConflict, users)
  {
    var users := [User(1, "Ada", "Lovelace", "P1", Some(""), true, 0), User(2, "Alan", "Turing", "P2", None, true, 0)];
    assert users[0].uid == Some("");
    assert !PersonnelNoTaken(users, "P2", Some(2)) && !PersonnelNoTaken(users, "P3", None);
  }

  /** For a user whose fields are valid, the form and the API accept and store exactly the same. */
  lemma FormAndApiAgree(users: seq<User>, user: User, id: int)
    requires ValidFields(user)
    ensures Create(users, user).result.Redirect? <==> ApiCreate(users, user).result.Created?
    ensures Create(users, user).users == ApiCreate(users, user).users
    ensures Edit(users, id, user).result.Redirect? <==> ApiUpdate(users, id, user).result.Updated?
    ensures Edit(users, id, user).users == ApiUpdate(users, id, user).users
  {
  }

  /** The form and the API delete the same users and are refused by the same stamps. */
  lemma DeletesAgree(users: seq<User>, stamps: seq<Stamp>, id: int)
    ensures Delete(users, stamps, id).users == ApiDelete(users, stamps, id).users
    ensures Delete(users, stamps, id).result.StillReferenced? <==> ApiDelete(users, stamps, id).result == ApiStillReferenced
    ensures ApiDelete(users, stamps, id).result.Deleted? <==>
      Delete(users, stamps, id).result.Redirect? && FindUser(users, id).Some?
  {
  }
}

=== FILE: wrappers.dfy ===
/** Optional values: the model's stand-in for C# `null` and TypeScript `null`. */
module Wrappers {

  datatype Option<+T> = None | Some(value: T) {

    /** The value, or `default` when there is none (C# `??`). */
    function GetOr(default: T): T {
      match this
      case Some(v) => v
      case None => default
    }
  }
}
